=== FILE: README.md ===
# pickit-etiquetas in Dafny

A model of the pick-list pipeline of pickit-etiquetas. This warehouse tool merges paid sales from MercadoLibre and from two TiendaNube stores. It turns them into a sorted pick list, assigns MercadoLibre purchases to lettered carts, and lays out the orders workbook and the label sheets. The model covers:

- **The pipeline** (`generarPickit` after the concurrent fetch):
  - the same-day SLA filter;
  - SKU cleaning and error tagging;
  - single-level combo expansion;
  - per-SKU totals in first-seen order;
  - the stock join;
  - the stable four-key sort;
  - the carts, with their minimum of three distinct SKUs;
  - the base-26 cart letters;
  - the SLA summary.
- **MercadoLibre**:
  - order parsing with de-duplication;
  - the label SLA filter;
  - the shipment map;
  - batches of 50;
  - per-shipment grouping;
  - label enrichment.
- **TiendaNube**:
  - the order and line classification of `obtenerVentas`;
  - the `Link` header;
  - the shipping-name, address, locality and timestamp helpers.
- **The pick-list workbook**: unit prefix, separators, style precedence, stock flag, integral cells, and the cart sheet's row ranges.
- **The orders workbook**: order cards, two-per-band layout, row heights, page breaks at 810 points, the name line and the product rows.

Files, one module each:

| file | module | models |
|---|---|---|
| wrappers.dfy | Wrappers | `Option` (Java `null`) and `Result` |
| seqs.dfy | Seqs | filter, map, first-seen keys (`LinkedHashMap` order), groups, sums |
| text.dfy | Text | `trim`, `isBlank`, `indexOf`, `startsWith`, `toUpperCase`, `split`, `equalsIgnoreCase` |
| numeric.dfy | Numeric | `(int)` casts of doubles, `int` wrap-around, `Math.max` |
| ordering.dfy, stable_sort.dfy | Ordering, StableSort | comparator chains with nulls last, and the stable `List.sort` |
| skus.dfy | Skus | the error tags, `esSkuConError`, SKU cleaning, line classification |
| domain.dfy | Domain | `Venta`, `OrdenML`, SLA data, catalogs |
| sla_filter.dfy | SlaFilter | the same-day filter of the pipeline |
| demand.dfy | Demand | cleaning, combo expansion, per-SKU totals |
| pick_list.dfy | PickList | the stock join and the sort |
| cart_labels.dfy | CartLabels | `generarLetraCarro` |
| carts.dfy | Carts | cart construction and the SLA summary |
| pickit.dfy | Pickit | the pipeline as one function |
| mercadolibre.dfy | MercadoLibre | the MercadoLibre parts listed above |
| tiendanube.dfy | TiendaNube | the TiendaNube parts listed above |
| pickit_report.dfy | PickitReport | the pick-list workbook |
| pedidos_report.dfy | PedidosReport | the orders workbook |

Modelling choices:
- SKUs stay strings, as in the source: the error tags are string prefixes and aggregation keys on the whole string. `Skus.KindOf` gives the tagged-union view of a string.
- Every sale carries an identity (`Domain.SaleId`). This stands in for Java object identity: the SLA filter removes sales by identity, and cleaning mutates sales shared between the sales list and the orders' items. A MercadoLibre sale is identified by its fetch number and its position in that fetch, a TiendaNube sale by its store name and position, a manual product by its position. The filter's guarantee is stated for sales whose identities are distinct and that include every order item (`Domain.DistinctIds`, `Domain.ItemsAmong`), which `MercadoLibre.FetchDistinct` and `MercadoLibre.FetchItemsAmong` establish for one fetch.
- Timestamps are integers, and `null` is `None`, which sorts last. The end-of-day cutoff is a parameter.
- Quantities are reals. Heights are integers: every height constant is a whole number of points.
- Java `int` arithmetic is explicit where it matters:
  - `(int)` of a double truncates and saturates (`Numeric.IntCast`);
  - `+=` on an `int` wraps (`Numeric.AddInt`).
- The label sheet's row heights (18, 32, 28, 24, 22, 22, 8, 8) add up to 162 points (`PedidosReport.EtiquetaHeight`). With 162-point bands, five label bands fill an 810-point page exactly (`PedidosReport.EtiquetaBreaks`).
- `parseLinkNext` passes over a `rel="next"` part whose angle brackets are missing or reversed, and keeps looking (`TiendaNube.FirstLinkAt`).
- Network results, JSON and the catalog spreadsheets are plain records and maps given as inputs. The ZPL parser's `normalizeSku` is a function parameter.

## Model

| member | source | states |
|---|---|---|
| CartLabels.CartLabel | src/main/java/ar/com/leo/pickit/service/PickitGenerator.java:370-379 | a cart letter is a non-empty string over 'A'..'Z' |
| CartLabels.GenerarLetraCarro | src/main/java/ar/com/leo/pickit/service/PickitGenerator.java:370-379 | the letter loop returns the cart label of the index, the bijective base-26 numeral of index + 1, and "" for a negative index |
| CartLabels.ValueOfNumeral | src/main/java/ar/com/leo/pickit/service/PickitGenerator.java:370-379 | reading a numeral back gives the number: the letters are a numeration |
| CartLabels.NumeralOfValue | src/main/java/ar/com/leo/pickit/service/PickitGenerator.java:370-379 | every string of letters is the numeral of its value |
| CartLabels.LabelsInjective | src/main/java/ar/com/leo/pickit/service/PickitGenerator.java:370-379 | distinct cart indices get distinct letters |
| CartLabels.LabelsSurjective | src/main/java/ar/com/leo/pickit/service/PickitGenerator.java:370-379 | every non-empty letter string is the label of exactly one index |
| CartLabels.LabelExamples | src/main/java/ar/com/leo/pickit/service/PickitGenerator.java:370-379 | 0→A, 25→Z, 26→AA, 701→ZZ, 702→AAA |
| Skus.KindOf | src/main/java/ar/com/leo/pickit/service/PickitGenerator.java:381-387 | a SKU has an error kind exactly when `esSkuConError` holds: bare "SIN SKU" or one of the four tag prefixes |
| Skus.TagRoundTrip | src/main/java/ar/com/leo/pickit/service/PickitGenerator.java:381-387 | a tagged string is an error SKU, and its kind is read back from it |
| Skus.NumericIsNotError | src/main/java/ar/com/leo/pickit/service/PickitGenerator.java:381-387 | an all-digit SKU is never an error SKU |
| Skus.CutAtSpace | src/main/java/ar/com/leo/pickit/service/PickitGenerator.java:169-170 | the result is a prefix of the text ending just before its first space when that space is after the first character, and the whole text when there is no such space; it has no space unless the text starts with one |
| Skus.DropNonDigitsStart | src/main/java/ar/com/leo/pickit/service/PickitGenerator.java:171 | `^[^0-9]*` removed: a suffix whose dropped part has no digit and which starts with a digit |
| Skus.DropNonDigitsEnd | src/main/java/ar/com/leo/pickit/service/PickitGenerator.java:171 | `[^0-9]*$` removed: a prefix whose dropped part has no digit and which ends with a digit |
| Skus.StripNonDigitEnds | src/main/java/ar/com/leo/pickit/service/PickitGenerator.java:171 | the result is empty or starts and ends with a digit |
| Skus.ValidatePass | src/main/java/ar/com/leo/pickit/service/PickitGenerator.java:175-182 | afterwards the SKU is an error or all digits; error and all-digit SKUs are untouched; anything else becomes "SKU INVALIDO: " + itself |
| Skus.CleanSku | src/main/java/ar/com/leo/pickit/service/PickitGenerator.java:164-182 | after both passes every SKU is error-tagged or a non-empty digit string |
| Skus.TrimKeepsError | src/main/java/ar/com/leo/pickit/service/PickitGenerator.java:167-168 | trimming an error SKU leaves an error SKU |
| Skus.CleanKeepsErrors | src/main/java/ar/com/leo/pickit/service/PickitGenerator.java:167-168 | tagged SKUs pass through cleaning untouched |
| Skus.CleanKeepsNumeric | src/main/java/ar/com/leo/pickit/service/PickitGenerator.java:164-182 | cleaning an all-digit SKU is a no-op |
| Skus.CleanIdempotent | src/main/java/ar/com/leo/pickit/service/PickitGenerator.java:164-182 | cleaning twice is cleaning once |
| Skus.CleanNumericCore | src/main/java/ar/com/leo/pickit/service/PickitGenerator.java:164-182 | an untagged result is the trimmed SKU cut at the first space with non-digits stripped from both ends, and it is all digits |
| Skus.CartSkuKey | src/main/java/ar/com/leo/pickit/service/PickitGenerator.java:300-307 | "SIN SKU: …" counts as "SIN SKU"; other error and all-digit SKUs count as themselves; any other SKU counts as its "SKU INVALIDO: " tag; the key is always an error or digits |
| Skus.LineSku | src/main/java/ar/com/leo/api/nube/TiendaNubeApi.java:127-138 | quantity ≤ 0 gives a quantity tag carrying the SKU, or the name when the SKU is blank; else a blank SKU gives a missing-SKU tag carrying the name; else the SKU verbatim. The result is an error exactly when the quantity is ≤ 0, the SKU is blank or already tagged |
| SlaFilter.FirstWithSla | src/main/java/ar/com/leo/pickit/service/PickitGenerator.java:140-147 | the position of the first order of the group with SLA data, -1 exactly when there is none |
| SlaFilter.ExclusionCases | src/main/java/ar/com/leo/pickit/service/PickitGenerator.java:139-149 | a group is excluded exactly when its first order with SLA data has an expected date strictly after the cutoff |
| SlaFilter.DecideGroup | src/main/java/ar/com/leo/pickit/service/PickitGenerator.java:140-148 | the loop with its `break` decides exclusion as stated |
| SlaFilter.CollectExcluded | src/main/java/ar/com/leo/pickit/service/PickitGenerator.java:133-149 | the loop over the groups collects exactly the excluded venta keys |
| SlaFilter.ApplySlaFilter | src/main/java/ar/com/leo/pickit/service/PickitGenerator.java:126-162 | outside same-day mode, or with an empty SLA map, both lists come back unchanged; neither list ever grows |
| SlaFilter.OrderFate | src/main/java/ar/com/leo/pickit/service/PickitGenerator.java:159 | an order survives exactly when its venta group is not excluded |
| SlaFilter.SaleFate | src/main/java/ar/com/leo/pickit/service/PickitGenerator.java:151-158 | when an order item and a sale with the same identity are the same object, a sale survives exactly when it is not an item of an order in an excluded group |
| SlaFilter.ManualSalesSurvive | src/main/java/ar/com/leo/pickit/service/PickitGenerator.java:101-106 | manually entered products are never removed by the filter |
| Domain.AmongShared | src/main/java/ar/com/leo/pickit/service/PickitGenerator.java:151-158 | sales with distinct identities that include every order item are the very objects the orders hold |
| Demand.CleanSale | src/main/java/ar/com/leo/pickit/service/PickitGenerator.java:164-182 | cleaning changes only the SKU, and leaves it an error or digits |
| Demand.CleanSales | src/main/java/ar/com/leo/pickit/service/PickitGenerator.java:164-182 | every sale is cleaned in place, none added or dropped |
| Demand.CleanOrder | src/main/java/ar/com/leo/pickit/service/PickitGenerator.java:164-182 | an order's items are the same sale objects, so they are cleaned as well |
| Demand.CleanOrders | src/main/java/ar/com/leo/pickit/service/PickitGenerator.java:164-182 | every order is cleaned in place |
| Demand.CleanSalesIdempotent | src/main/java/ar/com/leo/pickit/service/PickitGenerator.java:164-182 | cleaning the sales twice is cleaning them once |
| Demand.ExpandSale | src/main/java/ar/com/leo/pickit/service/PickitGenerator.java:188-207 | error sales and sales without combo entries pass unchanged; a combo sale becomes one sale per entry with quantity q·m, tagged "COMBO INVALIDO: " when q·m ≤ 0 |
| Demand.ExpandAppend | src/main/java/ar/com/leo/pickit/service/PickitGenerator.java:188-207 | expansion works sale by sale |
| Demand.ExpandWithoutCombos | src/main/java/ar/com/leo/pickit/service/PickitGenerator.java:188-207 | with no combo sale the list is unchanged |
| Demand.ExpandTotal | src/main/java/ar/com/leo/pickit/service/PickitGenerator.java:188-207 | the expanded quantities add up to each sale's quantity weighted by its combo's multipliers |
| Demand.ComboTotal | src/main/java/ar/com/leo/pickit/service/PickitGenerator.java:195-203 | one combo sale's components add up to q times the sum of the multipliers |
| Demand.MergeTotals | src/main/java/ar/com/leo/pickit/service/PickitGenerator.java:211-214 | the `merge` loop gives one key per distinct SKU string in first-seen order, each mapped to the sum of that exact string's quantities |
| Demand.AggregateTotals | src/main/java/ar/com/leo/pickit/service/PickitGenerator.java:211-214 | the map's entries in insertion order are the per-SKU totals |
| Demand.TotalsPreserveSum | src/main/java/ar/com/leo/pickit/service/PickitGenerator.java:211-214 | the totals add up to the sum of the sales' quantities |
| PickList.ResolveOne | src/main/java/ar/com/leo/pickit/service/PickitGenerator.java:224-253 | "SIN SKU: t" becomes "SIN SKU" with description t; other error tags and catalog misses get an empty description, supplier, unit and sub-category and stock 0; hits copy the catalog row; the quantity is kept |
| PickList.ResolveMissingSku | src/main/java/ar/com/leo/pickit/service/PickitGenerator.java:232-235 | a missing-SKU total resolves to the bare marker with its title as description |
| PickList.Resolve | src/main/java/ar/com/leo/pickit/service/PickitGenerator.java:224-254 | exactly one item per total, in order; a stock shortfall removes nothing |
| PickList.ResolveSum | src/main/java/ar/com/leo/pickit/service/PickitGenerator.java:224-254 | the items' quantities add up to the totals |
| PickList.SortPickList | src/main/java/ar/com/leo/pickit/service/PickitGenerator.java:257-262 | the sorted list is ordered by (unidad, proveedor, subRubro, descripcion) with null as "", and is a permutation |
| PickList.PickListStable | src/main/java/ar/com/leo/pickit/service/PickitGenerator.java:257-262 | items with equal keys keep their relative order |
| PickList.UnitsAscend | src/main/java/ar/com/leo/pickit/service/PickitGenerator.java:258 | units never decrease down the sorted list |
| StableSort.Sort | src/main/java/ar/com/leo/pickit/service/PickitGenerator.java:257-262 | `List.sort` result: sorted and a permutation |
| StableSort.SortStable | src/main/java/ar/com/leo/pickit/service/PickitGenerator.java:257-262 | `List.sort` is stable: each key's elements keep their order |
| Ordering.KeysTransitive | src/main/java/ar/com/leo/pickit/service/PickitGenerator.java:257-268 | the comparator chain is transitive |
| Ordering.KeysAntisymmetric | src/main/java/ar/com/leo/pickit/service/PickitGenerator.java:257-268 | the comparator chain is antisymmetric |
| Ordering.KeysEqual | src/main/java/ar/com/leo/pickit/service/PickitGenerator.java:257-268 | the comparator chain returns 0 exactly on equal keys |
| Carts.SortOrders | src/main/java/ar/com/leo/pickit/service/PickitGenerator.java:266-268 | the orders sorted by creation date (null last), then order id, as a permutation |
| Carts.OrdersChronological | src/main/java/ar/com/leo/pickit/service/PickitGenerator.java:266-268 | undated orders come last; dates never decrease; equal dates are in order-id order |
| Carts.CartLines | src/main/java/ar/com/leo/pickit/service/PickitGenerator.java:309-334 | a combo SKU gives one line per component, with the component SKU, the quantity times the multiplier and the component's catalog description and unit; any other sale gives one line under its cart key (`Skus.CartSkuKey`) with its own quantity; a "SIN SKU: " line is described by the tag's payload with an empty sector, other error tags and invalid SKUs have an empty description and sector, and an all-digit SKU takes its catalog row's description and unit |
| Carts.CartItemsCover | src/main/java/ar/com/leo/pickit/service/PickitGenerator.java:309-336 | a cart has at least as many lines as its orders have items |
| Carts.CartList | src/main/java/ar/com/leo/pickit/service/PickitGenerator.java:291-340 | emitted carts carry consecutive letters starting at "A" |
| Carts.CartIffQualifies | src/main/java/ar/com/leo/pickit/service/PickitGenerator.java:297-307 | a venta group gets a cart exactly when it has at least three distinct normalized SKUs; others consume no letter |
| Carts.CartLabelsDistinct | src/main/java/ar/com/leo/pickit/service/PickitGenerator.java:291-294 | no two carts share a letter |
| Carts.BuildCarts | src/main/java/ar/com/leo/pickit/service/PickitGenerator.java:266-340 | the loop with `carroIndex--` builds exactly the cart list |
| Carts.SlaRow | src/main/java/ar/com/leo/pickit/service/PickitGenerator.java:277-287 | a group has an SLA row exactly when one of its orders has SLA data; the row counts the items of all its orders and takes status and expected date from the first order with SLA data |
| Carts.SlaRowsCover | src/main/java/ar/com/leo/pickit/service/PickitGenerator.java:275-288 | a venta appears in the summary exactly when its group has SLA data |
| Carts.SlaOrdenes | src/main/java/ar/com/leo/pickit/service/PickitGenerator.java:275-289 | the summary is sorted by expected date, null last, and holds exactly the rows of the venta groups |
| Carts.SlaOrdenesByDate | src/main/java/ar/com/leo/pickit/service/PickitGenerator.java:289 | dated rows come first, in ascending date |
| Carts.SlaOrdenesStable | src/main/java/ar/com/leo/pickit/service/PickitGenerator.java:289 | rows with equal expected dates keep the order of their venta groups, as the stable `List.sort` does |
| Carts.SlaOrdenesCover | src/main/java/ar/com/leo/pickit/service/PickitGenerator.java:275-289 | a venta has a row in the summary exactly when one of its orders has SLA data |
| Pickit.ManualSales | src/main/java/ar/com/leo/pickit/service/PickitGenerator.java:101-106 | one sale of origin MANUAL per manual product, with its SKU and quantity |
| Pickit.GenerarPickit | src/main/java/ar/com/leo/pickit/service/PickitGenerator.java:101-340 | fails exactly when there are no sales at all; otherwise the pick list is sorted, carts are lettered from "A", and the SLA summary is by date |
| Pickit.FilteredSales | src/main/java/ar/com/leo/pickit/service/PickitGenerator.java:101-158 | in same-day mode the filter removes exactly the fetched sales that are items of an order in an excluded group, and never a manual product, when the fetched sales are distinct objects that include every order item |
| Pickit.PickListTotal | src/main/java/ar/com/leo/pickit/service/PickitGenerator.java:188-262 | the pick list accounts for every unit of demand, combos weighted by their multipliers |
| MercadoLibre.ParseOrder | src/main/java/ar/com/leo/api/ml/MercadoLibreAPI.java:206-268 | an order is returned exactly when its id is new, it is not delivered and it has items; its items are the sales appended, in order, classified from seller_sku or seller_custom_field |
| MercadoLibre.ParseAll | src/main/java/ar/com/leo/api/ml/MercadoLibreAPI.java:141-180 | the seen set is every id; the sales list is the orders' items, order by order; every kept order has items |
| MercadoLibre.OrdersDistinct | src/main/java/ar/com/leo/api/ml/MercadoLibreAPI.java:207-208 | no order id is returned twice |
| MercadoLibre.SalesNumbered | src/main/java/ar/com/leo/api/ml/MercadoLibreAPI.java:251-263 | the sales are numbered, within their fetch, in the order they are appended |
| MercadoLibre.FetchDistinct | src/main/java/ar/com/leo/api/ml/MercadoLibreAPI.java:251-263 | the sales of one fetch have distinct identities, all tagged with that fetch |
| MercadoLibre.FetchItemsAmong | src/main/java/ar/com/leo/api/ml/MercadoLibreAPI.java:251-263 | every item of a collected order is one of the fetch's sales |
| MercadoLibre.LabelFilterIffNotLate | src/main/java/ar/com/leo/api/ml/MercadoLibreAPI.java:326-339 | a shipment's label is kept exactly when it has no SLA, no date, or a date not after the cutoff |
| MercadoLibre.TotalQty | src/main/java/ar/com/leo/api/ml/MercadoLibreAPI.java:309-311 | the `int` sum of the truncated quantities always lies in `int` range |
| MercadoLibre.TotalQtyExact | src/main/java/ar/com/leo/api/ml/MercadoLibreAPI.java:309-311 | without overflow, the total is the exact sum of the truncated quantities |
| MercadoLibre.OrderInfo | src/main/java/ar/com/leo/api/ml/MercadoLibreAPI.java:301-314 | the SKU and title are the first item's (empty without items), the quantity is the wrapped `int` total of the truncated item quantities but at least 1, and the order id is the order's own id as text |
| MercadoLibre.BuildShipmentMap | src/main/java/ar/com/leo/api/ml/MercadoLibreAPI.java:294-317 | the ids are the positive shipment ids in first-seen order; the map holds exactly those, each with the data of the first order seen |
| MercadoLibre.ShipFoldState | src/main/java/ar/com/leo/api/ml/MercadoLibreAPI.java:297-317 | the loop's state after any prefix of the orders is the first-seen map of that prefix |
| MercadoLibre.Batches | src/main/java/ar/com/leo/api/ml/MercadoLibreAPI.java:348-352 | consecutive batches of at most 50, all full but the last, covering every id once in order |
| MercadoLibre.ShipmentInfos | src/main/java/ar/com/leo/api/ml/MercadoLibreAPI.java:362-399 | one entry per positive shipment id, holding the label data of that shipment's orders |
| MercadoLibre.GroupInfo | src/main/java/ar/com/leo/api/ml/MercadoLibreAPI.java:376-397 | the quantity is the wrapped `int` total of the truncated quantities of all items, but at least 1; the order-id text is the first order's pack id, or its order id when it has no pack |
| MercadoLibre.ShipmentSkuLines | src/main/java/ar/com/leo/api/ml/MercadoLibreAPI.java:377-390 | splitting the joined SKU text on newlines gives back the non-empty SKUs of the shipment's items |
| MercadoLibre.ShipmentTitleLines | src/main/java/ar/com/leo/api/ml/MercadoLibreAPI.java:378-391 | the title text splits back into each item's title, or its SKU when the title is empty, one per item and in order |
| MercadoLibre.EnrichOne | src/main/java/ar/com/leo/api/ml/MercadoLibreAPI.java:471-495 | SKU and description are overridden only by non-blank values of the shipment's data, and kept as they are when the shipment has no data; quantity 1 and no ids without data; no turbo and no ids once the ids run out |
| MercadoLibre.Enrich | src/main/java/ar/com/leo/api/ml/MercadoLibreAPI.java:469-497 | the i-th label is paired with the i-th shipment id |
| MercadoLibre.EnrichIdempotent | src/main/java/ar/com/leo/api/ml/MercadoLibreAPI.java:469-497 | enriching twice is enriching once |
| MercadoLibre.EnrichedQuantities | src/main/java/ar/com/leo/api/ml/MercadoLibreAPI.java:475-489 | every enriched label asks for at least one copy |
| TiendaNube.ScanFulfillments | src/main/java/ar/com/leo/api/nube/TiendaNubeApi.java:383-392 | the scan finds a match exactly when the list exists, is non-empty and holds one |
| TiendaNube.TieneFulfillmentUnpacked | src/main/java/ar/com/leo/api/nube/TiendaNubeApi.java:383-392 | false for missing or empty fulfillments; else true iff some status equals "unpacked" ignoring case |
| TiendaNube.EsPickup | src/main/java/ar/com/leo/api/nube/TiendaNubeApi.java:359-368 | false for missing or empty fulfillments; else true iff some shipping type equals "pickup" ignoring case |
| TiendaNube.AcceptOrder | src/main/java/ar/com/leo/api/nube/TiendaNubeApi.java:110-117 | an order is counted exactly when it is unpacked and not a pickup with an owner note that is not empty after `trim`; an order without fulfillments never is; an unpacked order is dropped exactly when it is a pickup with a note |
| TiendaNube.ObtenerVentas | src/main/java/ar/com/leo/api/nube/TiendaNubeApi.java:107-140 | the count is the number of accepted orders; the sales are the classified lines of accepted orders, in order |
| TiendaNube.RejectedAddsNothing | src/main/java/ar/com/leo/api/nube/TiendaNubeApi.java:110-115 | a rejected order adds no sale and no count |
| TiendaNube.LinkTarget | src/main/java/ar/com/leo/api/nube/TiendaNubeApi.java:339-345 | a part yields a target only when its trimmed text carries `rel="next"` |
| TiendaNube.FirstLink | src/main/java/ar/com/leo/api/nube/TiendaNubeApi.java:338-348 | null exactly when no part yields a target |
| TiendaNube.FirstLinkAt | src/main/java/ar/com/leo/api/nube/TiendaNubeApi.java:338-348 | the result is the target of the first part that yields one |
| TiendaNube.ParseLinkNext | src/main/java/ar/com/leo/api/nube/TiendaNubeApi.java:334-336 | no header, no next page |
| TiendaNube.NextPartTarget | src/main/java/ar/com/leo/api/nube/TiendaNubeApi.java:339-345 | a `<url>; rel="next"` part yields the url |
| TiendaNube.LinkNextRoundTrip | src/main/java/ar/com/leo/api/nube/TiendaNubeApi.java:334-349 | a header whose first next-part is `<url>; rel="next"` gives back the url (section 3 of RFC 8288) |
| TiendaNube.LimpiarNombreEnvio | src/main/java/ar/com/leo/api/nube/TiendaNubeApi.java:300-307 | with '(' at index > 0 the name is cut there and trimmed, and has no '('; otherwise it is unchanged |
| TiendaNube.LimpiarIdempotent | src/main/java/ar/com/leo/api/nube/TiendaNubeApi.java:300-307 | cleaning a shipping name twice is cleaning it once |
| TiendaNube.BuildDomicilio | src/main/java/ar/com/leo/api/nube/TiendaNubeApi.java:309-319 | the address agrees with a by-cases reference: street, " " + number, " - " + floor, each only when non-blank, with no leading separator; a floor alone reads "- floor" |
| TiendaNube.DomicilioEmpty | src/main/java/ar/com/leo/api/nube/TiendaNubeApi.java:309-319 | all parts blank give "" |
| TiendaNube.DomicilioFull | src/main/java/ar/com/leo/api/nube/TiendaNubeApi.java:309-319 | all parts present give "street number - floor" |
| TiendaNube.BuildLocalidad | src/main/java/ar/com/leo/api/nube/TiendaNubeApi.java:265-273 | with both trimmed parts present the line is "locality, city"; with no city it is the locality; with a city only it is the city; it is blank exactly when both parts are |
| TiendaNube.RepairOffset | src/main/java/ar/com/leo/api/nube/TiendaNubeApi.java:325-327 | a text ending in sign and four digits gets ':' before its last two characters, and removing it gives the text back; any other text is unchanged |
| TiendaNube.ParseFechaISO | src/main/java/ar/com/leo/api/nube/TiendaNubeApi.java:321-332 | null exactly for a missing or blank date; otherwise the date with its offset repaired |
| TiendaNube.RepairIdempotent | src/main/java/ar/com/leo/api/nube/TiendaNubeApi.java:325-327 | repairing a repaired offset changes nothing |
| PickitReport.UnidadPrefix | src/main/java/ar/com/leo/pickit/excel/PickitExcelWriter.java:255-258 | "" for null or empty; else the first two characters upper-cased, or all of a shorter unit |
| PickitReport.UnidadPrefixIdempotent | src/main/java/ar/com/leo/pickit/excel/PickitExcelWriter.java:255-258 | the prefix of a prefix is itself |
| PickitReport.UnidadPrefixFirstTwo | src/main/java/ar/com/leo/pickit/excel/PickitExcelWriter.java:255-258 | units agreeing on their first two characters up to case share a prefix |
| PickitReport.SheetRows | src/main/java/ar/com/leo/pickit/excel/PickitExcelWriter.java:164-175 | the table ends with the last line and is empty only for an empty list |
| PickitReport.SheetRowsKeepLines | src/main/java/ar/com/leo/pickit/excel/PickitExcelWriter.java:164-175 | dropping the separators gives back the pick list |
| PickitReport.SheetRowsSeparated | src/main/java/ar/com/leo/pickit/excel/PickitExcelWriter.java:164-175 | a separator sits exactly between two adjacent lines with different prefixes, never first |
| PickitReport.StylePrecedence | src/main/java/ar/com/leo/pickit/excel/PickitExcelWriter.java:178-188 | the chosen style applies to the line and outranks every other style that applies: error > warning > highlight > normal |
| PickitReport.StockShort | src/main/java/ar/com/leo/pickit/excel/PickitExcelWriter.java:214-219 | the stock cell is flagged exactly for a non-error line with description and unit whose stock is below the quantity |
| PickitReport.UnresolvedNotShort | src/main/java/ar/com/leo/pickit/excel/PickitExcelWriter.java:214-219 | an unresolved line is never flagged |
| PickitReport.QuantityCell | src/main/java/ar/com/leo/pickit/excel/PickitExcelWriter.java:196-200 | the cell is an `int` exactly when the quantity is whole |
| PickitReport.QuantityCellValue | src/main/java/ar/com/leo/pickit/excel/PickitExcelWriter.java:196-200 | the cell shows the quantity, except a whole quantity beyond `int` range, which saturates |
| PickitReport.CartBlock | src/main/java/ar/com/leo/pickit/excel/PickitExcelWriter.java:399-433 | a cart order takes one header row plus one row per item |
| PickitReport.CartSheet | src/main/java/ar/com/leo/pickit/excel/PickitExcelWriter.java:395-435 | the loop writes the blocks in order and records each block's first and last row |
| PickitReport.BlockAt | src/main/java/ar/com/leo/pickit/excel/PickitExcelWriter.java:399-435 | each recorded range holds exactly its cart's block |
| PickitReport.BlockRangesContiguous | src/main/java/ar/com/leo/pickit/excel/PickitExcelWriter.java:395-435 | the ranges start at row 2, each spans its items, and each starts right after the previous one |
| PickitReport.RangesDisjoint | src/main/java/ar/com/leo/pickit/excel/PickitExcelWriter.java:434-440 | contiguous ranges never overlap |
| PedidosReport.AgruparPedidosML | src/main/java/ar/com/leo/pedidos/excel/PedidosExcelWriter.java:270-282 | one card per order id in first-seen order, its lines in list order, header fields from the first line |
| PedidosReport.AgruparPedidosTN | src/main/java/ar/com/leo/pedidos/excel/PedidosExcelWriter.java:284-296 | one card per order in first-seen order, its lines in list order, header fields from the first line |
| PedidosReport.MLCardsKeepLines | src/main/java/ar/com/leo/pedidos/excel/PedidosExcelWriter.java:270-282 | the cards' products add up to the lines: none lost, none duplicated |
| PedidosReport.Slots | src/main/java/ar/com/leo/pedidos/excel/PedidosExcelWriter.java:362-366 | the band's product slots are the larger card's count, at least 1 |
| PedidosReport.BandFitsCards | src/main/java/ar/com/leo/pedidos/excel/PedidosExcelWriter.java:362-367 | both cards of a band fit: the rows are the 4 header rows, a slot per product and a padding row |
| PedidosReport.BandRowsHeight | src/main/java/ar/com/leo/pedidos/excel/PedidosExcelWriter.java:369-389 | the heights set on the band's rows add up to the pair height used for breaks, 102 + 33 per slot |
| PedidosReport.PlaceBands | src/main/java/ar/com/leo/pedidos/excel/PedidosExcelWriter.java:357-398 | the loop's breaks and counters; the row advances by each band's rows |
| PedidosReport.RunRows | src/main/java/ar/com/leo/pedidos/excel/PedidosExcelWriter.java:396 | after the bands, the row is the sum of their rows |
| PedidosReport.PageBound | src/main/java/ar/com/leo/pedidos/excel/PedidosExcelWriter.java:374-378 | a page never exceeds 810 points unless one band alone does |
| PedidosReport.BreakRowsAscend | src/main/java/ar/com/leo/pedidos/excel/PedidosExcelWriter.java:374-378 | breaks fall on rows already written, in ascending order, never before the first band |
| PedidosReport.PedidoBands | src/main/java/ar/com/leo/pedidos/excel/PedidosExcelWriter.java:360-372 | one band per pair of cards, the last maybe alone, each of positive height |
| PedidosReport.EtiquetaHeight | src/main/java/ar/com/leo/pedidos/excel/PedidosExcelWriter.java:408-409 | a label band is 162 points high |
| PedidosReport.EtiquetaRun | src/main/java/ar/com/leo/pedidos/excel/PedidosExcelWriter.java:411-435 | after k label bands the row is 8k and the page holds the bands since the last break |
| PedidosReport.EtiquetaBreaks | src/main/java/ar/com/leo/pedidos/excel/PedidosExcelWriter.java:412-416 | a break comes before label band k exactly when k > 0 and k is a multiple of 5 |
| PedidosReport.NombreTexto | src/main/java/ar/com/leo/pedidos/excel/PedidosExcelWriter.java:453-460 | with both names it is name, two spaces, user in parentheses; with a name only it is the name; with no name it is the user name, or "" |
| PedidosReport.ProductRows | src/main/java/ar/com/leo/pedidos/excel/PedidosExcelWriter.java:561-577 | exactly the band's slots are written |
| PedidosReport.ProductRowsShowAll | src/main/java/ar/com/leo/pedidos/excel/PedidosExcelWriter.java:561-577 | every product is shown once in order, highlighted iff quantity > 1, and the remaining rows are blank |
| Seqs.DistinctFirstSeen | src/main/java/ar/com/leo/pickit/service/PickitGenerator.java:211-214 | `LinkedHashMap` keys come in first-seen order |
| Seqs.GroupsPartition | src/main/java/ar/com/leo/pedidos/excel/PedidosExcelWriter.java:271-272 | the groups of `groupingBy` into a `LinkedHashMap` hold as many elements as the list: none lost, none counted twice |
| Text.TrimIdempotent | src/main/java/ar/com/leo/api/nube/TiendaNubeApi.java:318 | `trim` of a trimmed text changes nothing |
| Text.SplitJoin | src/main/java/ar/com/leo/api/ml/MercadoLibreAPI.java:377-390 | splitting a join of separator-free parts gives the parts back |
| Numeric.IntCast | src/main/java/ar/com/leo/api/ml/MercadoLibreAPI.java:310 | `(int)` of a double truncates toward zero and saturates at the `int` bounds |
| Numeric.Wrap | src/main/java/ar/com/leo/api/ml/MercadoLibreAPI.java:310 | `int` overflow: the result is in `int` range, congruent to the exact value modulo 2^32, and the exact value when that fits |

## Left out

- HTTP calls, retries, paging fetches, OAuth tokens and credential files: I/O. Paging is represented by `ParseLinkNext` alone.
- Executors, futures and synchronized maps: concurrency. The merged sales, orders and SLA map are inputs.
- JSON, ZIP extraction, the ZPL parser and the spreadsheet readers: foreign code. Records, maps and `normalizeSku` are inputs.
- `OffsetDateTime.parse`, `LocalDate.now()` and time zones are not modelled:
  - `TiendaNube.ParseFechaISO` returns the repaired text instead of a parsed instant;
  - the cutoff is a parameter.
- Apache POI styles, fonts, borders, merges and print setup: only the rows, heights, breaks and styles chosen are kept.
- `obtenerPedidosCompletos`, `obtenerNombreEnvio`, `renderCardTNPedido` and `renderCardTNEtiqueta` are outside the modelled core. Only the helpers they call are modelled.
- `PedidosReport.PedidoBands` takes each card's product count; it is not tied to the cards themselves.
- Double rounding is not modelled: quantities are exact reals.
- Text.ToUpperChar: only ASCII and Latin-1 letters are upper-cased, and the three Latin-1 letters whose upper case lies outside Latin-1 or is two letters ('µ', 'ß', 'ÿ') are left as they are; Java maps them to 'Μ', "SS" and 'Ÿ'. Other scripts are not case-mapped. `String.toUpperCase()` also follows the default locale (a Turkish locale maps 'i' to 'İ'); the model uses the locale-independent mapping.
- Text.EqualsIgnoreCase: two characters match when their upper cases are equal. Java's `equalsIgnoreCase` also accepts them when the lower cases of those upper cases are equal, so `TiendaNube.TieneFulfillmentUnpacked` and `TiendaNube.EsPickup` reject a few values Java accepts, such as "unpac\u212Aed" (KELVIN SIGN) or "p\u0130ckup".
- Ordering.CompareStrings: characters are compared as Unicode code points, while `String.compareTo` compares UTF-16 code units. The two orders differ only between a supplementary-plane character and a character from U+E000 to U+FFFF.
- PickitReport.UnidadPrefix: the first two characters are two code points, while `substring(0, 2)` takes two UTF-16 code units. They differ only when the unit starts with a supplementary-plane character.
- Domain.Order: `OrdenML.getVentaId()` and `getNumeroVenta()` are not part of this model. The venta key is assumed to be the pack id when there is one, else the order id, as an integer; the cart and SLA rows carry that key where the source shows `getNumeroVenta()`.
- TiendaNube.ObtenerVentas: `totalOrdenes` is counted without `int` wrap-around, because a count of orders never reaches 2^31.

=== FILE: cart_labels.dfy ===
/**
 * Cart labels: the spreadsheet-column naming `generarLetraCarro` gives the
 * carts in order (A, B, ..., Z, AA, AB, ..., ZZ, AAA, ...). The label of
 * cart `i` is the bijective base-26 numeral of `i + 1` written with the
 * letters A..Z as the digits 1..26.
 */
module CartLabels {
  import opened Seqs

  predicate IsLetter(c: char) {
    'A' <= c <= 'Z'
  }

  predicate AllLetters(s: string) {
    forall i :: 0 <= i < |s| ==> IsLetter(s[i])
  }

  /** The letter for the digit value 0..25. */
  function Letter(d: nat): char
    requires d < 26
  {
    ('A' as int + d) as char
  }

  /** The bijective base-26 numeral of `m`; empty for 0. */
  function Numeral(m: nat): (r: string)
    ensures AllLetters(r)
    ensures m > 0 <==> |r| > 0
  {
    if m == 0 then "" else Numeral((m - 1) / 26) + [Letter((m - 1) % 26)]
  }

  /** The label of the cart at 0-based position `index`. */
  function CartLabel(index: nat): (r: string)
    ensures |r| > 0 && AllLetters(r)
  {
    Numeral(index + 1)
  }

  /** Reads a numeral back: A..Z are the digits 1..26. */
  function Value(s: string): nat
    requires AllLetters(s)
  {
    if |s| == 0 then 0
    else 26 * Value(DropLast(s)) + (Last(s) as int - 'A' as int + 1)
  }

  /** Reading back a numeral gives the number it was written for. */
  lemma {:induction false} ValueOfNumeral(m: nat)
    ensures Value(Numeral(m)) == m
  {
    if m > 0 {
      ValueOfNumeral((m - 1) / 26);
      assert DropLast(Numeral(m)) == Numeral((m - 1) / 26);
    }
  }

  /** Every string of letters is the numeral of its value. */
  lemma {:induction false} NumeralOfValue(s: string)
    requires AllLetters(s)
    ensures Numeral(Value(s)) == s
  {
    if |s| > 0 {
      var p := DropLast(s);
      NumeralOfValue(p);
      var d := Last(s) as int - 'A' as int;
      assert (Value(s) - 1) / 26 == Value(p) && (Value(s) - 1) % 26 == d;
      assert s == p + [Last(s)];
    }
  }

  /** Distinct carts get distinct labels. */
  lemma LabelsInjective(i: nat, j: nat)
    requires CartLabel(i) == CartLabel(j)
    ensures i == j
  {
    ValueOfNumeral(i + 1);
    ValueOfNumeral(j + 1);
  }

  /** Every non-empty string of capital letters labels exactly one cart. */
  lemma LabelsSurjective(s: string)
    requires |s| > 0 && AllLetters(s)
    ensures Value(s) >= 1 && CartLabel(Value(s) - 1) == s
  {
    NumeralOfValue(s);
  }

  /** The rollover points: A, Z, AA, ZZ, AAA. */
  lemma LabelExamples()
    ensures CartLabel(0) == "A" && CartLabel(25) == "Z"
    ensures CartLabel(26) == "AA" && CartLabel(701) == "ZZ" && CartLabel(702) == "AAA"
  {
    assert Numeral(1) == "A";
    assert Numeral(26) == "Z";
    assert Numeral(27) == Numeral(1) + "A";
    assert Numeral(702) == Numeral(26) + "Z";
    assert Numeral(703) == Numeral(27) + "A";
  }

  /**
   * `generarLetraCarro`: repeatedly takes the last letter of the numeral of
   * `index + 1` off the remaining value. A negative index yields the empty
   * string, as the source's loop never runs.
   */
  method GenerarLetraCarro(index: int) returns (s: string)
    ensures index >= 0 ==> s == CartLabel(index)
    ensures index < 0 ==> s == ""
  {
    s := "";
    if index < 0 {
      return;
    }
    var n: nat := index + 1;
    while n > 0
      invariant Numeral(n) + s == Numeral(index + 1)
      decreases n
    {
      n := n - 1;
      assert Numeral(n + 1) == Numeral(n / 26) + [Letter(n % 26)];
      s := [Letter(n % 26)] + s;
      n := n / 26;
    }
  }
}

=== FILE: carts.dfy ===
/**
 * Packing carts and the SLA summary of the pick-list pipeline.
 *
 * Orders are sorted by creation date (undated last), then order id, and
 * grouped by venta key in first-seen order. A group becomes a cart only when
 * its items carry at least three distinct SKUs; carts take consecutive
 * labels A, B, ... in group order, and a skipped group uses up no label.
 */
module Carts {
  import opened Wrappers
  import opened Text
  import opened Seqs
  import opened Skus
  import opened Domain
  import opened Ordering
  import opened StableSort
  import opened CartLabels
  import opened SlaFilter

  // ------------------------------------------------------------ order sort

  /** Creation date (a missing one after every date), then order id. */
  function OrderKey(o: Order): Key {
    [if o.createdAt.Some? then Num(o.createdAt.value) else Top, Num(o.orderId)]
  }

  function SortOrders(orders: seq<Order>): (r: seq<Order>)
    ensures Sorted(r, OrderKey)
    ensures multiset(r) == multiset(orders)
  {
    Sort(orders, OrderKey)
  }

  /**
   * In the sorted orders an undated order is followed only by undated ones,
   * dates never decrease, and orders of the same date (or both undated) come
   * in order-id order.
   */
  lemma OrdersChronological(orders: seq<Order>, i: nat, j: nat)
    requires i < j < |SortOrders(orders)|
    ensures var r := SortOrders(orders);
      && (r[i].createdAt.None? ==> r[j].createdAt.None?)
      && (r[i].createdAt.Some? && r[j].createdAt.Some? ==> r[i].createdAt.value <= r[j].createdAt.value)
      && (r[i].createdAt == r[j].createdAt ==> r[i].orderId <= r[j].orderId)
  {
    var r := SortOrders(orders);
    var a, b := OrderKey(r[i]), OrderKey(r[j]);
    assert CompareKeys(a, b) <= 0;
    if r[i].createdAt == r[j].createdAt {
      assert a[1..] == [Num(r[i].orderId)] && b[1..] == [Num(r[j].orderId)];
    }
  }

  // ------------------------------------------------------------ cart items

  /** The distinct SKUs of a group, as the threshold counts them. */
  function CartSkus(group: seq<Order>): set<string> {
    set s | s in GroupItems(group) :: CartSkuKey(s.sku)
  }

  /** A group with at least three distinct SKUs gets a cart. */
  predicate Qualifies(group: seq<Order>) {
    |CartSkus(group)| >= 3
  }

  /** One line of a cart (`CarrosItem`): SKU, quantity, description and sector. */
  datatype CartItem = CartItem(sku: string, quantity: real, description: Option<string>, sector: Option<string>)

  function Producto(catalog: Catalog, sku: string): Option<string> {
    if sku in catalog then catalog[sku].producto else Some("")
  }

  function Unidad(catalog: Catalog, sku: string): Option<string> {
    if sku in catalog then catalog[sku].unidad else Some("")
  }

  function CartComponent(q: real, catalog: Catalog): ComboEntry -> CartItem {
    (c: ComboEntry) =>
      CartItem(c.component, q * c.multiplier, Producto(catalog, c.component), Unidad(catalog, c.component))
  }

  /** An untagged all-digit SKU with a non-empty combo entry: its cart lines are the components. */
  predicate CartCombo(sku: string, combos: Combos) {
    !IsErrorSku(sku) && IsNumeric(sku) && sku in combos && |combos[sku]| > 0
  }

  /**
   * The cart lines of one sale. A missing-SKU tag shows the bare marker with
   * the payload as description; other tags show as they are; an untagged SKU
   * that is not all digits shows its `SKU INVALIDO` tag; a combo shows its
   * components with multiplied quantities (with no check on the sign); any
   * other SKU shows with its catalog description and sector.
   */
  function CartLines(s: Sale, combos: Combos, catalog: Catalog): (r: seq<CartItem>)
    ensures |r| >= 1
    ensures |r| > 1 ==> s.sku in combos && |r| == |combos[s.sku]|
    ensures IsErrorSku(s.sku) ==> |r| == 1
    ensures !CartCombo(s.sku, combos) ==> |r| == 1 && r[0].sku == CartSkuKey(s.sku) && r[0].quantity == s.quantity
    ensures StartsWith(s.sku, TagOf(MissingSku)) ==>
      r[0].description == Some(Payload(s.sku, MissingSku)) && r[0].sector == Some("")
    ensures !StartsWith(s.sku, TagOf(MissingSku)) && (IsErrorSku(s.sku) || IsBlank(s.sku) || !IsNumeric(s.sku)) ==>
      r[0].description == Some("") && r[0].sector == Some("")
    ensures !CartCombo(s.sku, combos) && IsNumeric(s.sku) ==>
      r[0].description == Producto(catalog, s.sku) && r[0].sector == Unidad(catalog, s.sku)
    ensures CartCombo(s.sku, combos) ==> r == Map(combos[s.sku], CartComponent(s.quantity, catalog))
  {
    var sku := s.sku;
    var tag := TagOf(MissingSku);
    NumericNotBlank(sku);
    ErrorIsNotNumeric(sku);
    if StartsWith(sku, tag) then
      assert sku[..8] == "SIN SKU:" && IsErrorSku(sku);
      [CartItem(SinSku, s.quantity, Some(Payload(sku, MissingSku)), Some(""))]
    else if IsErrorSku(sku) then
      [CartItem(sku, s.quantity, Some(""), Some(""))]
    else if IsBlank(sku) || !IsNumeric(sku) then
      [CartItem(Tag(InvalidSku, sku), s.quantity, Some(""), Some(""))]
    else if sku in combos && |combos[sku]| > 0 then
      Map(combos[sku], CartComponent(s.quantity, catalog))
    else
      [CartItem(sku, s.quantity, Producto(catalog, sku), Unidad(catalog, sku))]
  }

  function CartItemsOf(items: seq<Sale>, combos: Combos, catalog: Catalog): seq<CartItem> {
    if |items| == 0 then []
    else CartItemsOf(DropLast(items), combos, catalog) + CartLines(Last(items), combos, catalog)
  }

  /** Every sale contributes at least one cart line. */
  lemma {:induction false} CartItemsCover(items: seq<Sale>, combos: Combos, catalog: Catalog)
    ensures |CartItemsOf(items, combos, catalog)| >= |items|
  {
    if |items| > 0 {
      CartItemsCover(DropLast(items), combos, catalog);
    }
  }

  // ----------------------------------------------------------------- carts

  /** One packing cart (`CarrosOrden`). */
  datatype CartOrder = CartOrder(ventaId: int, createdAt: Option<int>, letter: string, items: seq<CartItem>)

  function FirstCreated(group: seq<Order>): Option<int> {
    if |group| > 0 then group[0].createdAt else None
  }

  /** The cart of venta `v`, labelled as the `index`-th cart. */
  function MakeCart(sorted: seq<Order>, v: int, index: nat, combos: Combos, catalog: Catalog): CartOrder {
    var group := VentaGroup(sorted, v);
    CartOrder(v, FirstCreated(group), CartLabel(index), CartItemsOf(GroupItems(group), combos, catalog))
  }

  function QualifiesIn(sorted: seq<Order>): int -> bool {
    (v: int) => Qualifies(VentaGroup(sorted, v))
  }

  /** The venta keys that get a cart, in first-seen order. */
  function CartVentas(sorted: seq<Order>): seq<int> {
    Filter(GroupKeys(sorted, VentaOf), QualifiesIn(sorted))
  }

  function CartsFrom(sorted: seq<Order>, ventas: seq<int>, combos: Combos, catalog: Catalog): seq<CartOrder> {
    seq(|ventas|, i requires 0 <= i < |ventas| => MakeCart(sorted, ventas[i], i, combos, catalog))
  }

  /** The carts: one per qualifying venta group, labelled consecutively from "A". */
  function CartList(orders: seq<Order>, combos: Combos, catalog: Catalog): (r: seq<CartOrder>)
    ensures forall i :: 0 <= i < |r| ==> r[i].letter == CartLabel(i)
  {
    var sorted := SortOrders(orders);
    CartsFrom(sorted, CartVentas(sorted), combos, catalog)
  }

  /**
   * A venta group gets a cart exactly when it has at least three distinct
   * SKUs; every cart belongs to one of the groups.
   */
  lemma CartIffQualifies(orders: seq<Order>, combos: Combos, catalog: Catalog, v: int)
    requires v in GroupKeys(SortOrders(orders), VentaOf)
    ensures (exists i :: 0 <= i < |CartList(orders, combos, catalog)| && CartList(orders, combos, catalog)[i].ventaId == v)
      <==> Qualifies(VentaGroup(SortOrders(orders), v))
  {
    var sorted := SortOrders(orders);
    var keys := GroupKeys(sorted, VentaOf);
    var vs := CartVentas(sorted);
    var r := CartList(orders, combos, catalog);
    FilterMembers(keys, QualifiesIn(sorted));
    if Qualifies(VentaGroup(sorted, v)) {
      var k :| 0 <= k < |keys| && keys[k] == v;
      assert v in vs;
      var i :| 0 <= i < |vs| && vs[i] == v;
      assert r[i].ventaId == v;
    }
    if exists i :: 0 <= i < |r| && r[i].ventaId == v {
      var i :| 0 <= i < |r| && r[i].ventaId == v;
      assert vs[i] == v;
    }
  }

  /** Distinct carts carry distinct labels. */
  lemma CartLabelsDistinct(orders: seq<Order>, combos: Combos, catalog: Catalog, i: nat, j: nat)
    requires i < j < |CartList(orders, combos, catalog)|
    ensures CartList(orders, combos, catalog)[i].letter != CartList(orders, combos, catalog)[j].letter
  {
    if CartLabel(i) == CartLabel(j) {
      LabelsInjective(i, j);
    }
  }

  /** The state of the cart loop after the first `g` group keys. */
  ghost predicate CartLoop(sorted: seq<Order>, keys: seq<int>, g: nat, ventas: seq<int>, carts: seq<CartOrder>,
                           combos: Combos, catalog: Catalog)
  {
    g <= |keys| && ventas == Filter(keys[..g], QualifiesIn(sorted))
      && carts == CartsFrom(sorted, ventas, combos, catalog)
  }

  /** One more group key: a qualifying group adds its cart with the next label, any other adds nothing. */
  lemma CartLoopStep(sorted: seq<Order>, keys: seq<int>, g: nat, ventas: seq<int>, carts: seq<CartOrder>,
                     combos: Combos, catalog: Catalog)
    requires g < |keys| && CartLoop(sorted, keys, g, ventas, carts, combos, catalog)
    ensures var v := keys[g];
      if Qualifies(VentaGroup(sorted, v)) then
        CartLoop(sorted, keys, g + 1, ventas + [v], carts + [MakeCart(sorted, v, |ventas|, combos, catalog)], combos, catalog)
      else
        CartLoop(sorted, keys, g + 1, ventas, carts, combos, catalog)
  {
    assert DropLast(keys[..g + 1]) == keys[..g];
    var v := keys[g];
    var next := CartsFrom(sorted, ventas + [v], combos, catalog);
    assert next == CartsFrom(sorted, ventas, combos, catalog) + [MakeCart(sorted, v, |ventas|, combos, catalog)];
  }

  /**
   * The cart loop of the source over the sorted orders: a label is drawn for
   * every group, and the counter is stepped back when the group is too small
   * for a cart.
   */
  method BuildCartsFrom(sorted: seq<Order>, combos: Combos, catalog: Catalog) returns (carts: seq<CartOrder>)
    ensures carts == CartsFrom(sorted, CartVentas(sorted), combos, catalog)
  {
    var keys := GroupKeys(sorted, VentaOf);
    carts := [];
    var carroIndex := 0;
    ghost var ventas: seq<int> := [];
    var g := 0;
    while g < |keys|
      invariant CartLoop(sorted, keys, g, ventas, carts, combos, catalog)
      invariant carroIndex == |ventas|
    {
      var v := keys[g];
      var group := VentaGroup(sorted, v);
      var letra := GenerarLetraCarro(carroIndex);
      carroIndex := carroIndex + 1;
      CartLoopStep(sorted, keys, g, ventas, carts, combos, catalog);
      if !Qualifies(group) {
        carroIndex := carroIndex - 1;
      } else {
        carts := carts + [CartOrder(v, FirstCreated(group), letra, CartItemsOf(GroupItems(group), combos, catalog))];
        ventas := ventas + [v];
      }
      g := g + 1;
    }
    assert keys[..g] == keys;
  }

  /** The carts of the orders, built by the source's loop. */
  method BuildCarts(orders: seq<Order>, combos: Combos, catalog: Catalog) returns (carts: seq<CartOrder>)
    ensures carts == CartList(orders, combos, catalog)
  {
    carts := BuildCartsFrom(SortOrders(orders), combos, catalog);
  }

  // ------------------------------------------------------------- SLA rows

  /** One row of the SLA summary (`SlaOrden`). */
  datatype SlaOrden = SlaOrden(ventaId: int, itemCount: int, status: string, expectedDate: Option<int>)

  function ItemsSize(o: Order): int {
    |o.items|
  }

  /** The SLA row of a group: taken from its first order with SLA data; none without. */
  function SlaRow(group: seq<Order>, v: int, sla: SlaMap): (r: Option<SlaOrden>)
    ensures r.Some? <==> exists i :: 0 <= i < |group| && HasSla(group[i], sla)
    ensures r.Some? ==> r.value.ventaId == v && r.value.itemCount == IntSum(group, ItemsSize)
    ensures r.Some? ==>
      var info := SlaOf(group[FirstWithSla(group, sla)], sla);
      r.value.status == info.status && r.value.expectedDate == info.expectedDate
  {
    var f := FirstWithSla(group, sla);
    if f < 0 then None
    else
      var info := SlaOf(group[f], sla);
      Some(SlaOrden(v, IntSum(group, ItemsSize), info.status, info.expectedDate))
  }

  function SlaRows(keys: seq<int>, sorted: seq<Order>, sla: SlaMap): seq<SlaOrden> {
    if |keys| == 0 then []
    else
      var row := SlaRow(VentaGroup(sorted, Last(keys)), Last(keys), sla);
      SlaRows(DropLast(keys), sorted, sla) + (if row.Some? then [row.value] else [])
  }

  function RowVenta(r: SlaOrden): int {
    r.ventaId
  }

  /** The rows of the listed ventas: the rows of all but the last, then the last one's, if any. */
  lemma SlaRowsSnoc(keys: seq<int>, sorted: seq<Order>, sla: SlaMap)
    requires |keys| > 0
    ensures var row := SlaRow(VentaGroup(sorted, Last(keys)), Last(keys), sla);
      Map(SlaRows(keys, sorted, sla), RowVenta)
        == Map(SlaRows(DropLast(keys), sorted, sla), RowVenta) + (if row.Some? then [Last(keys)] else [])
  {
    var row := SlaRow(VentaGroup(sorted, Last(keys)), Last(keys), sla);
    var rows := SlaRows(DropLast(keys), sorted, sla);
    assert SlaRows(keys, sorted, sla) == rows + (if row.Some? then [row.value] else []);
  }

  /** Every row belongs to a listed venta, and a listed venta has a row iff its group has SLA data. */
  lemma {:induction false} SlaRowsCover(keys: seq<int>, sorted: seq<Order>, sla: SlaMap, v: int)
    ensures v in Map(SlaRows(keys, sorted, sla), RowVenta)
      <==> v in keys && SlaRow(VentaGroup(sorted, v), v, sla).Some?
  {
    if |keys| > 0 {
      var p := DropLast(keys);
      SlaRowsCover(p, sorted, sla, v);
      SlaRowsSnoc(keys, sorted, sla);
      assert keys == p + [Last(keys)];
      assert v in keys <==> v in p || v == Last(keys);
    }
  }

  /** Expected date, a missing one after every date. */
  function SlaKey(s: SlaOrden): Key {
    [if s.expectedDate.Some? then Num(s.expectedDate.value) else Top]
  }

  /** The SLA summary: one row per venta group with SLA data, soonest expected date first. */
  function SlaOrdenes(orders: seq<Order>, sla: SlaMap): (r: seq<SlaOrden>)
    ensures Sorted(r, SlaKey)
    ensures multiset(r) == multiset(SlaRows(GroupKeys(SortOrders(orders), VentaOf), SortOrders(orders), sla))
  {
    var sorted := SortOrders(orders);
    Sort(SlaRows(GroupKeys(sorted, VentaOf), sorted, sla), SlaKey)
  }

  /** Rows without an expected date come last, and dates never decrease. */
  lemma SlaOrdenesByDate(orders: seq<Order>, sla: SlaMap, i: nat, j: nat)
    requires i < j < |SlaOrdenes(orders, sla)|
    ensures var r := SlaOrdenes(orders, sla);
      && (r[i].expectedDate.None? ==> r[j].expectedDate.None?)
      && (r[i].expectedDate.Some? && r[j].expectedDate.Some? ==> r[i].expectedDate.value <= r[j].expectedDate.value)
  {
    var r := SlaOrdenes(orders, sla);
    assert CompareKeys(SlaKey(r[i]), SlaKey(r[j])) <= 0;
  }

  /** Rows with equal expected dates keep the first-seen order of their venta groups. */
  lemma SlaOrdenesStable(orders: seq<Order>, sla: SlaMap, k: Key)
    ensures var sorted := SortOrders(orders);
      WithKey(SlaOrdenes(orders, sla), SlaKey, k)
        == WithKey(SlaRows(GroupKeys(sorted, VentaOf), sorted, sla), SlaKey, k)
  {
    var sorted := SortOrders(orders);
    SortStable(SlaRows(GroupKeys(sorted, VentaOf), sorted, sla), SlaKey, k);
  }

  /** A venta has a row in the SLA summary exactly when one of its orders has SLA data. */
  lemma SlaOrdenesCover(orders: seq<Order>, sla: SlaMap, v: int)
    ensures (exists k :: 0 <= k < |SlaOrdenes(orders, sla)| && SlaOrdenes(orders, sla)[k].ventaId == v)
      <==> exists i :: 0 <= i < |orders| && orders[i].VentaId() == v && HasSla(orders[i], sla)
  {
    var r := SlaOrdenes(orders, sla);
    if exists k :: 0 <= k < |r| && r[k].ventaId == v {
      var k :| 0 <= k < |r| && r[k].ventaId == v;
      RowHasSla(orders, sla, k);
    }
    if exists i :: 0 <= i < |orders| && orders[i].VentaId() == v && HasSla(orders[i], sla) {
      var i :| 0 <= i < |orders| && orders[i].VentaId() == v && HasSla(orders[i], sla);
      OrderGetsRow(orders, sla, i);
    }
  }

  /** Every row of the SLA summary comes from an order with SLA data. */
  lemma RowHasSla(orders: seq<Order>, sla: SlaMap, k: nat)
    requires k < |SlaOrdenes(orders, sla)|
    ensures exists i ::
      0 <= i < |orders| && HasSla(orders[i], sla) && orders[i].VentaId() == SlaOrdenes(orders, sla)[k].ventaId
  {
    var sorted := SortOrders(orders);
    var keys := GroupKeys(sorted, VentaOf);
    var rows := SlaRows(keys, sorted, sla);
    var row := SlaOrdenes(orders, sla)[k];
    var v := row.ventaId;
    assert row in multiset(rows);
    var m :| 0 <= m < |rows| && rows[m] == row;
    assert Map(rows, RowVenta)[m] == v;
    SlaRowsCover(keys, sorted, sla, v);
    var group := VentaGroup(sorted, v);
    var g :| 0 <= g < |group| && HasSla(group[g], sla);
    var x := group[g];
    GroupMember(sorted, v, g);
    assert x in multiset(orders);
    var i :| 0 <= i < |orders| && orders[i] == x;
  }

  /** A member of a venta group is one of the orders, with that venta key. */
  lemma GroupMember(orders: seq<Order>, v: int, g: nat)
    requires g < |VentaGroup(orders, v)|
    ensures VentaGroup(orders, v)[g] in orders && VentaGroup(orders, v)[g].VentaId() == v
  {
    FilterMembers(orders, KeyIs(VentaOf, v));
    assert VentaOf(VentaGroup(orders, v)[g]) == v;
  }

  /** An order with SLA data gives its venta a row in the SLA summary. */
  lemma OrderGetsRow(orders: seq<Order>, sla: SlaMap, i: nat)
    requires i < |orders| && HasSla(orders[i], sla)
    ensures exists k :: 0 <= k < |SlaOrdenes(orders, sla)| && SlaOrdenes(orders, sla)[k].ventaId == orders[i].VentaId()
  {
    var sorted := SortOrders(orders);
    var keys := GroupKeys(sorted, VentaOf);
    var v := orders[i].VentaId();
    assert orders[i] in multiset(sorted);
    GroupGetsRow(sorted, sla, orders[i]);
    SlaRowsCover(keys, sorted, sla, v);
    RowOfVenta(SlaRows(keys, sorted, sla), SlaOrdenes(orders, sla), v);
  }

  /** The group of an order with SLA data has a row. */
  lemma GroupGetsRow(sorted: seq<Order>, sla: SlaMap, x: Order)
    requires x in sorted && HasSla(x, sla)
    ensures SlaRow(VentaGroup(sorted, x.VentaId()), x.VentaId(), sla).Some?
  {
    var v := x.VentaId();
    var t :| 0 <= t < |sorted| && sorted[t] == x;
    assert VentaOf(sorted[t]) == v;
    FilterMembers(sorted, KeyIs(VentaOf, v));
    var group := VentaGroup(sorted, v);
    assert x in group;
  }

  /** A venta with a row among `rows` has one among any rearrangement of them. */
  lemma RowOfVenta(rows: seq<SlaOrden>, r: seq<SlaOrden>, v: int)
    requires multiset(r) == multiset(rows) && v in Map(rows, RowVenta)
    ensures exists k :: 0 <= k < |r| && r[k].ventaId == v
  {
    var m :| 0 <= m < |rows| && Map(rows, RowVenta)[m] == v;
    assert rows[m] in multiset(r);
    var k :| 0 <= k < |r| && r[k] == rows[m];
  }
}

=== FILE: demand.dfy ===
/**
 * From sale lines to demand per SKU: SKU cleaning, single-level combo
 * expansion and summation per SKU string in first-seen order.
 */
module Demand {
  import opened Text
  import opened Seqs
  import opened Skus
  import opened Domain

  // ---------------------------------------------------------------- cleaning

  /** A sale after cleaning: only its SKU changes. */
  function CleanSale(s: Sale): (r: Sale)
    ensures r.id == s.id && r.quantity == s.quantity && r.origin == s.origin && r.title == s.title
    ensures IsErrorSku(r.sku) || IsNumeric(r.sku)
  {
    s.(sku := CleanSku(s.sku))
  }

  function CleanSales(sales: seq<Sale>): (r: seq<Sale>)
    ensures |r| == |sales|
    ensures forall i :: 0 <= i < |r| ==> r[i] == CleanSale(sales[i])
  {
    Map(sales, CleanSale)
  }

  /**
   * An order whose items have been cleaned. The source cleans the sales
   * list, and an order's items are the very same objects, so they see the
   * same change.
   */
  function CleanOrder(o: Order): (r: Order)
    ensures r.orderId == o.orderId && r.packId == o.packId && r.shipmentId == o.shipmentId
    ensures r.createdAt == o.createdAt && |r.items| == |o.items|
    ensures forall j :: 0 <= j < |r.items| ==> r.items[j] == CleanSale(o.items[j])
  {
    o.(items := CleanSales(o.items))
  }

  function CleanOrders(orders: seq<Order>): (r: seq<Order>)
    ensures |r| == |orders|
    ensures forall i :: 0 <= i < |r| ==> r[i] == CleanOrder(orders[i])
  {
    Map(orders, CleanOrder)
  }

  /** Cleaning twice is cleaning once, for a whole sales list. */
  lemma CleanSalesIdempotent(sales: seq<Sale>)
    ensures CleanSales(CleanSales(sales)) == CleanSales(sales)
  {
    forall i | 0 <= i < |sales|
      ensures CleanSale(CleanSale(sales[i])) == CleanSale(sales[i])
    {
      CleanIdempotent(sales[i].sku);
    }
  }

  // --------------------------------------------------------------- expansion

  /** A sale whose SKU is a combo with at least one component. */
  predicate IsCombo(s: Sale, combos: Combos) {
    !IsErrorSku(s.sku) && s.sku in combos && |combos[s.sku]| > 0
  }

  /**
   * The sale of one component of a combo sale: the quantity is multiplied,
   * and a non-positive result is tagged `COMBO INVALIDO`. The new sale keeps
   * the origin and has no title.
   */
  function ComponentOf(s: Sale): ComboEntry -> Sale {
    (c: ComboEntry) =>
      var q := s.quantity * c.multiplier;
      Sale(s.id, if q <= 0.0 then Tag(InvalidCombo, c.component) else c.component, q, s.origin, "")
  }

  /** One sale expanded: its combo components, or the sale itself. */
  function ExpandSale(s: Sale, combos: Combos): (r: seq<Sale>)
    ensures !IsCombo(s, combos) ==> r == [s]
    ensures IsCombo(s, combos) ==> |r| == |combos[s.sku]|
    ensures IsCombo(s, combos) ==> forall j :: 0 <= j < |r| ==>
      var c := combos[s.sku][j];
      && r[j].quantity == s.quantity * c.multiplier
      && r[j].origin == s.origin
      && r[j].sku == (if s.quantity * c.multiplier <= 0.0 then Tag(InvalidCombo, c.component) else c.component)
  {
    if IsCombo(s, combos) then Map(combos[s.sku], ComponentOf(s)) else [s]
  }

  /** The expanded sales list, in order. */
  function Expand(sales: seq<Sale>, combos: Combos): seq<Sale> {
    if |sales| == 0 then [] else Expand(DropLast(sales), combos) + ExpandSale(Last(sales), combos)
  }

  /** Expansion works sale by sale. */
  lemma {:induction false} ExpandAppend(a: seq<Sale>, b: seq<Sale>, combos: Combos)
    ensures Expand(a + b, combos) == Expand(a, combos) + Expand(b, combos)
  {
    if |b| > 0 {
      assert DropLast(a + b) == a + DropLast(b);
      assert Last(a + b) == Last(b);
      ExpandAppend(a, DropLast(b), combos);
    } else {
      assert a + b == a;
    }
  }

  /** With no combo among the sales, expansion changes nothing. */
  lemma {:induction false} ExpandWithoutCombos(sales: seq<Sale>, combos: Combos)
    requires forall i :: 0 <= i < |sales| ==> !IsCombo(sales[i], combos)
    ensures Expand(sales, combos) == sales
  {
    if |sales| > 0 {
      ExpandWithoutCombos(DropLast(sales), combos);
      assert sales == DropLast(sales) + [Last(sales)];
    }
  }

  function Qty(s: Sale): real {
    s.quantity
  }

  function Multiplier(c: ComboEntry): real {
    c.multiplier
  }

  /** How many units of demand one unit of a sale turns into. */
  function Weight(s: Sale, combos: Combos): real {
    if IsCombo(s, combos) then Sum(combos[s.sku], Multiplier) else 1.0
  }

  /** The demand of the sales: each quantity weighted by its sale's weight. */
  function WeightedTotal(sales: seq<Sale>, combos: Combos): real {
    if |sales| == 0 then 0.0
    else WeightedTotal(DropLast(sales), combos) + SaleDemand(Last(sales), combos)
  }

  /** The demand of one sale. */
  function SaleDemand(s: Sale, combos: Combos): real {
    s.quantity * Weight(s, combos)
  }

  /** The components of one combo sale add up to its quantity times the sum of the multipliers. */
  lemma ComponentsTotal(s: Sale, es: seq<ComboEntry>)
    ensures Sum(Map(es, ComponentOf(s)), Qty) == s.quantity * Sum(es, Multiplier)
  {
    SumScaled(es, ComponentOf(s), Qty, Multiplier, s.quantity);
  }

  /**
   * Expansion preserves demand: the expanded quantities add up to each
   * sale's quantity weighted by the sum of its combo's multipliers (1 for a
   * sale that is not a combo).
   */
  lemma {:induction false} ExpandTotal(sales: seq<Sale>, combos: Combos)
    ensures Sum(Expand(sales, combos), Qty) == WeightedTotal(sales, combos)
  {
    if |sales| > 0 {
      var s := Last(sales);
      var e := Expand(DropLast(sales), combos);
      ExpandTotal(DropLast(sales), combos);
      SumAppend(e, ExpandSale(s, combos), Qty);
      SaleTotal(s, combos);
      assert Expand(sales, combos) == e + ExpandSale(s, combos);
    }
  }

  /** One sale's expansion adds up to its demand. */
  lemma SaleTotal(s: Sale, combos: Combos)
    ensures Sum(ExpandSale(s, combos), Qty) == SaleDemand(s, combos)
  {
    if IsCombo(s, combos) {
      ComboTotal(s, combos);
    } else {
      PlainTotal(s, combos);
    }
  }

  /** A combo sale's expansion adds up to its quantity times the sum of the multipliers. */
  lemma ComboTotal(s: Sale, combos: Combos)
    requires IsCombo(s, combos)
    ensures Sum(ExpandSale(s, combos), Qty) == s.quantity * Weight(s, combos)
  {
    var es := combos[s.sku];
    assert Weight(s, combos) == Sum(es, Multiplier);
    assert ExpandSale(s, combos) == Map(es, ComponentOf(s));
    ComponentsTotal(s, es);
  }

  /** A sale that is not a combo stays as it is. */
  lemma PlainTotal(s: Sale, combos: Combos)
    requires !IsCombo(s, combos)
    ensures Sum(ExpandSale(s, combos), Qty) == s.quantity * Weight(s, combos)
  {
    assert ExpandSale(s, combos) == [s];
    assert DropLast([s]) == [];
  }

  // ------------------------------------------------------------- aggregation

  function SkuOf(s: Sale): string {
    s.sku
  }

  /** The total quantity of the sales whose SKU is exactly `k`. */
  function AmountOf(sales: seq<Sale>, k: string): real {
    Sum(Group(sales, SkuOf, k), Qty)
  }

  /** One entry of the per-SKU totals (`skuCantidad`). */
  datatype SkuTotal = SkuTotal(sku: string, amount: real)

  function TotalsFor(keys: seq<string>, sales: seq<Sale>): seq<SkuTotal> {
    if |keys| == 0 then []
    else TotalsFor(DropLast(keys), sales) + [SkuTotal(Last(keys), AmountOf(sales, Last(keys)))]
  }

  /** The per-SKU totals: one entry per distinct SKU string, in first-seen order. */
  function Totals(sales: seq<Sale>): seq<SkuTotal> {
    TotalsFor(GroupKeys(sales, SkuOf), sales)
  }

  /** Adding a sale adds its quantity to its own SKU's total only. */
  lemma AmountStep(p: seq<Sale>, x: Sale, k: string)
    ensures AmountOf(p + [x], k) == AmountOf(p, k) + (if x.sku == k then x.quantity else 0.0)
  {
    GroupSnoc(p, x, SkuOf, k);
    SumAppend(Group(p, SkuOf, k), if x.sku == k then [x] else [], Qty);
    assert Sum([x], Qty) == Sum(DropLast([x]), Qty) + x.quantity;
  }

  /** A SKU no sale carries has total zero. */
  lemma AmountAbsent(p: seq<Sale>, k: string)
    requires k !in GroupKeys(p, SkuOf)
    ensures AmountOf(p, k) == 0.0
  {
    FilterNone(p, KeyIs(SkuOf, k));
  }

  function Amount(t: SkuTotal): real {
    t.amount
  }

  lemma {:induction false} TotalsForStep(keys: seq<string>, p: seq<Sale>, x: Sale)
    requires NoDuplicates(keys)
    ensures Sum(TotalsFor(keys, p + [x]), Amount)
      == Sum(TotalsFor(keys, p), Amount) + (if x.sku in keys then x.quantity else 0.0)
  {
    if |keys| > 0 {
      var ks := DropLast(keys);
      var k := Last(keys);
      assert keys == ks + [k];
      TotalsForStep(ks, p, x);
      AmountStep(p, x, k);
      assert DropLast(TotalsFor(keys, p + [x])) == TotalsFor(ks, p + [x]);
      assert DropLast(TotalsFor(keys, p)) == TotalsFor(ks, p);
      if x.sku == k {
        assert x.sku !in ks;
      }
    }
  }

  /** Appending a key appends its total. */
  lemma TotalsForSnoc(keys: seq<string>, k: string, sales: seq<Sale>)
    ensures Sum(TotalsFor(keys + [k], sales), Amount) == Sum(TotalsFor(keys, sales), Amount) + AmountOf(sales, k)
  {
    assert DropLast(keys + [k]) == keys;
    assert DropLast(TotalsFor(keys + [k], sales)) == TotalsFor(keys, sales);
  }

  /** Summation per SKU preserves the grand total. */
  lemma {:induction false} TotalsPreserveSum(sales: seq<Sale>)
    ensures Sum(Totals(sales), Amount) == Sum(sales, Qty)
  {
    if |sales| > 0 {
      var p := DropLast(sales);
      assert sales == p + [Last(sales)];
      TotalsPreserveSum(p);
      TotalsSnoc(p, Last(sales));
    }
  }

  /** One more sale adds its quantity to the grand total of the per-SKU totals. */
  lemma TotalsSnoc(p: seq<Sale>, x: Sale)
    ensures Sum(Totals(p + [x]), Amount) == Sum(Totals(p), Amount) + x.quantity
  {
    var keys := GroupKeys(p, SkuOf);
    TotalsForStep(keys, p, x);
    GroupKeysSnoc(p, x, SkuOf);
    if x.sku !in keys {
      TotalsNewKey(p, x);
    }
  }

  /** A sale with a new SKU appends a total holding exactly its quantity. */
  lemma TotalsNewKey(p: seq<Sale>, x: Sale)
    requires x.sku !in GroupKeys(p, SkuOf)
    ensures Sum(Totals(p + [x]), Amount) == Sum(TotalsFor(GroupKeys(p, SkuOf), p + [x]), Amount) + x.quantity
  {
    var keys := GroupKeys(p, SkuOf);
    GroupKeysSnoc(p, x, SkuOf);
    AmountStep(p, x, x.sku);
    AmountAbsent(p, x.sku);
    TotalsForSnoc(keys, x.sku, p + [x]);
  }

  /** The state of the merge loop after the sales `p`: first-seen keys, each with its total. */
  ghost predicate MergeState(p: seq<Sale>, keys: seq<string>, amount: map<string, real>) {
    && keys == GroupKeys(p, SkuOf)
    && (forall k :: k in amount <==> k in keys)
    && (forall k :: k in amount ==> amount[k] == AmountOf(p, k))
  }

  /** One `merge` call keeps the loop state in step with the sales seen so far. */
  lemma MergeStep(p: seq<Sale>, x: Sale, keys: seq<string>, amount: map<string, real>,
                  keys': seq<string>, amount': map<string, real>)
    requires MergeState(p, keys, amount)
    requires x.sku in amount ==> keys' == keys && amount' == amount[x.sku := amount[x.sku] + x.quantity]
    requires x.sku !in amount ==> keys' == keys + [x.sku] && amount' == amount[x.sku := x.quantity]
    ensures MergeState(p + [x], keys', amount')
  {
    GroupKeysSnoc(p, x, SkuOf);
    forall k | k in amount'
      ensures amount'[k] == AmountOf(p + [x], k)
    {
      AmountStep(p, x, k);
      if k == x.sku && x.sku !in amount {
        AmountAbsent(p, k);
      }
    }
  }

  /**
   * The merge loop over the sales (`skuCantidad.merge(sku, qty, Double::sum)`):
   * the keys come out in first-seen order and each holds the total of its SKU.
   */
  method MergeTotals(sales: seq<Sale>) returns (keys: seq<string>, amount: map<string, real>)
    ensures keys == GroupKeys(sales, SkuOf)
    ensures forall k :: k in amount <==> k in keys
    ensures forall k :: k in amount ==> amount[k] == AmountOf(sales, k)
  {
    keys := [];
    amount := map[];
    var i := 0;
    while i < |sales|
      invariant 0 <= i <= |sales|
      invariant MergeState(sales[..i], keys, amount)
    {
      var s := sales[i];
      PrefixSnoc(sales, i);
      var keys', amount' := keys, amount;
      if s.sku in amount {
        amount' := amount[s.sku := amount[s.sku] + s.quantity];
      } else {
        keys' := keys + [s.sku];
        amount' := amount[s.sku := s.quantity];
      }
      MergeStep(sales[..i], s, keys, amount, keys', amount');
      keys, amount := keys', amount';
      i := i + 1;
    }
    assert sales[..i] == sales;
  }

  /** The entry list of the merged map, read back in insertion order. */
  method AggregateTotals(sales: seq<Sale>) returns (r: seq<SkuTotal>)
    ensures r == Totals(sales)
  {
    var keys, amount := MergeTotals(sales);
    r := [];
    var j := 0;
    while j < |keys|
      invariant 0 <= j <= |keys|
      invariant r == TotalsFor(keys[..j], sales)
    {
      assert DropLast(keys[..j + 1]) == keys[..j];
      r := r + [SkuTotal(keys[j], amount[keys[j]])];
      j := j + 1;
    }
    assert keys[..j] == keys;
  }
}

=== FILE: domain.dfy ===
/**
 * The records the pick-list pipeline works on, as immutable values.
 *
 * Timestamps are instants as integers (seconds); a missing date is `None`.
 * Quantities are reals, the model of the source's doubles without rounding.
 */
module Domain {
  import opened Wrappers
  import opened Seqs

  /**
   * The identity of a `Venta` object. The source removes sales by identity
   * and mutates sales shared between the sales list and an order's items;
   * the model gives each sale an explicit identity instead. A MercadoLibre
   * line carries the number of the fetch that produced it (the ready-to-print
   * search and the seller-agreement search are separate fetches) and its
   * position in that fetch; a TiendaNube line carries its store's name and
   * its position in that store's collection; a manually entered product
   * carries its position in the manual list. Identities are therefore
   * distinct as long as the fetches are numbered differently and the stores
   * are named differently; `DistinctIds` states the property the filter
   * relies on.
   */
  datatype SaleId = Line(fetch: nat, n: nat) | Store(store: string, n: nat) | Manual(n: nat)

  /** One sale line (`Venta`): the SKU (possibly error-tagged), quantity, source and item title. */
  datatype Sale = Sale(id: SaleId, sku: string, quantity: real, origin: string, title: string)

  /** No two positions of the list hold the same sale object. */
  predicate DistinctIds(sales: seq<Sale>) {
    forall i, j :: 0 <= i < j < |sales| ==> sales[i].id != sales[j].id
  }

  /**
   * A MercadoLibre order (`OrdenML`). `packId` groups split orders into one
   * purchase: the venta key is the pack id when there is one, else the
   * order id.
   */
  datatype Order = Order(
    orderId: int,
    packId: Option<int>,
    shipmentId: Option<int>,
    createdAt: Option<int>,
    items: seq<Sale>)
  {
    function VentaId(): int {
      packId.GetOr(orderId)
    }
  }

  /** Every item of every order is one of the sales. */
  predicate ItemsAmong(orders: seq<Order>, sales: seq<Sale>) {
    forall i, j :: 0 <= i < |orders| && 0 <= j < |orders[i].items| ==> orders[i].items[j] in sales
  }

  /**
   * An order item and a sale with the same identity are the same object,
   * so they agree in every field.
   */
  predicate SharedItems(orders: seq<Order>, sales: seq<Sale>) {
    forall i, j, k | 0 <= i < |orders| && 0 <= j < |orders[i].items| && 0 <= k < |sales| ::
      orders[i].items[j].id == sales[k].id ==> orders[i].items[j] == sales[k]
  }

  /** Distinct sales that include every order item are shared with the orders. */
  lemma AmongShared(orders: seq<Order>, sales: seq<Sale>)
    requires DistinctIds(sales) && ItemsAmong(orders, sales)
    ensures SharedItems(orders, sales)
  {
    forall i, j, k | 0 <= i < |orders| && 0 <= j < |orders[i].items| && 0 <= k < |sales|
      && orders[i].items[j].id == sales[k].id
      ensures orders[i].items[j] == sales[k]
    {
      var m :| 0 <= m < |sales| && sales[m] == orders[i].items[j];
      assert sales[m].id == sales[k].id;
    }
  }

  function ItemsOf(o: Order): seq<Sale> {
    o.items
  }

  /** All items of a list of orders, order by order. */
  function GroupItems(group: seq<Order>): seq<Sale> {
    Flatten(Map(group, ItemsOf))
  }

  /** The service-level data of one shipment (`SlaInfo`). */
  datatype SlaInfo = SlaInfo(status: string, expectedDate: Option<int>, turbo: bool)

  /** One component of a combo: the component SKU and how many per combo. */
  datatype ComboEntry = ComboEntry(component: string, multiplier: real)

  /** One row of the stock catalog (`ProductoStock`); text cells may be empty (`None`). */
  datatype StockRecord = StockRecord(
    producto: Option<string>,
    proveedor: Option<string>,
    subRubro: Option<string>,
    unidad: Option<string>,
    stock: int)

  /** The combo catalog: combo SKU to its components. */
  type Combos = map<string, seq<ComboEntry>>

  /** The stock catalog: SKU to its row. */
  type Catalog = map<string, StockRecord>

  /** A product typed in by hand (`ProductoManual`). */
  datatype ManualProduct = ManualProduct(sku: string, quantity: real)
}

=== FILE: mercadolibre.dfy ===
/**
 * The decision logic of the MercadoLibre client: turning search results
 * into sales and orders, and preparing the shipping-label download.
 *
 * JSON documents are replaced by plain records: a field the document lacks
 * reads as "" (text) or `None` (ids, dates), and a field that is not an
 * array where one is expected is `None`. The SKU normaliser of the label
 * parser is a parameter (`None` stands for its `null`).
 */
module MercadoLibre {
  import opened Wrappers
  import opened Text
  import opened Seqs
  import opened Numeric
  import opened Skus
  import opened Domain
  import opened SlaFilter

  /** The size limit of one label request (`MAX_SHIPMENTS_PER_REQUEST`). */
  const MaxShipmentsPerRequest: nat := 50

  // ----------------------------------------------------------- parseOrder

  /** One `order_items` entry: the item's two SKU fields, its title, and the quantity. */
  datatype RawItem = RawItem(sellerSku: string, customField: string, title: string, quantity: real)

  /** One search result. */
  datatype RawOrder = RawOrder(
    id: int,
    tags: seq<string>,
    packId: Option<int>,
    shipmentId: Option<int>,
    createdAt: Option<int>,
    items: Option<seq<RawItem>>)

  type Normalizer = string -> Option<string>

  /** `seller_sku`, or `seller_custom_field` when that is blank. */
  function RawSku(it: RawItem): string {
    if IsBlank(it.sellerSku) then it.customField else it.sellerSku
  }

  /** The normalised SKU of an item; "" when the raw SKU is blank or the normaliser gives nothing. */
  function ItemSku(it: RawItem, normalize: Normalizer): string {
    var raw := RawSku(it);
    if IsBlank(raw) then "" else normalize(raw).GetOr("")
  }

  /** The sale of one item, numbered `n` in the sales list of fetch `fetch`. */
  function ItemSale(it: RawItem, normalize: Normalizer, fetch: nat, n: nat): Sale {
    Sale(Line(fetch, n), LineSku(ItemSku(it, normalize), it.title, it.quantity), it.quantity, "ML", it.title)
  }

  /** The order is new, not delivered, and has a non-empty item array. */
  predicate Accepted(o: RawOrder, seen: set<int>) {
    o.id !in seen && "delivered" !in o.tags && o.items.Some? && |o.items.value| > 0
  }

  /** What one call of `parseOrder` produces: the order (or nothing) and the sales it appended. */
  datatype Parsed = Parsed(order: Option<Order>, sales: seq<Sale>)

  /**
   * `parseOrder`: a repeated order id, a "delivered" tag, a missing item
   * array and an empty one give no order; otherwise every item becomes one
   * sale of fetch `fetch`, numbered on from `next`, appended both to the
   * sales and to the order's items.
   */
  function ParseOrder(o: RawOrder, seen: set<int>, fetch: nat, next: nat, normalize: Normalizer): (r: Parsed)
    ensures r.order.Some? <==> Accepted(o, seen)
    ensures r.order.None? ==> r.sales == []
    ensures r.order.Some? ==>
      var ord := r.order.value;
      && ord.items == r.sales
      && ord.orderId == o.id && ord.packId == o.packId
      && ord.shipmentId == o.shipmentId && ord.createdAt == o.createdAt
      && |r.sales| == |o.items.value|
    ensures forall j :: 0 <= j < |r.sales| ==>
      var it := o.items.value[j];
      && r.sales[j].id == Line(fetch, next + j) && r.sales[j].quantity == it.quantity
      && r.sales[j].title == it.title && r.sales[j].origin == "ML"
      && r.sales[j].sku == LineSku(ItemSku(it, normalize), it.title, it.quantity)
  {
    if !Accepted(o, seen) then Parsed(None, [])
    else
      var items := o.items.value;
      var sales := seq(|items|, j requires 0 <= j < |items| => ItemSale(items[j], normalize, fetch, next + j));
      Parsed(Some(Order(o.id, o.packId, o.shipmentId, o.createdAt, sales)), sales)
  }

  /** The sales and orders collected from a list of search results (`MLOrderResult`). */
  datatype MLOrderResult = MLOrderResult(ventas: seq<Sale>, ordenes: seq<Order>, seen: set<int>)

  function IdsOf(raws: seq<RawOrder>): set<int> {
    set i | 0 <= i < |raws| :: raws[i].id
  }

  /**
   * The collection loop over the search results of one fetch: each result
   * is parsed against the ids seen so far, and a returned order is kept.
   * The ready-to-print search and the seller-agreement search each run this
   * loop; `fetch` tells their sales apart.
   */
  function ParseAll(raws: seq<RawOrder>, normalize: Normalizer, fetch: nat): (r: MLOrderResult)
    ensures r.seen == IdsOf(raws)
    ensures r.ventas == GroupItems(r.ordenes)
    ensures forall i :: 0 <= i < |r.ordenes| ==> r.ordenes[i].orderId in r.seen && |r.ordenes[i].items| > 0
  {
    if |raws| == 0 then MLOrderResult([], [], {})
    else
      var prev := ParseAll(DropLast(raws), normalize, fetch);
      var o := Last(raws);
      var p := ParseOrder(o, prev.seen, fetch, |prev.ventas|, normalize);
      assert IdsOf(raws) == IdsOf(DropLast(raws)) + {o.id} by {
        assert raws == DropLast(raws) + [o];
      }
      var ordenes := prev.ordenes + (if p.order.Some? then [p.order.value] else []);
      assert GroupItems(ordenes) == prev.ventas + p.sales by {
        GroupItemsSnoc(prev.ordenes, p.order);
      }
      MLOrderResult(prev.ventas + p.sales, ordenes, prev.seen + {o.id})
  }

  /** Appending an order (or nothing) appends its items. */
  lemma GroupItemsSnoc(orders: seq<Order>, o: Option<Order>)
    ensures GroupItems(orders + (if o.Some? then [o.value] else []))
      == GroupItems(orders) + (if o.Some? then o.value.items else [])
  {
    if o.Some? {
      assert Map(orders + [o.value], ItemsOf) == Map(orders, ItemsOf) + [o.value.items];
      FlattenAppend(Map(orders, ItemsOf), [o.value.items]);
      assert Flatten([o.value.items]) == Flatten([]) + o.value.items;
    } else {
      assert orders + [] == orders;
    }
  }

  /** No two collected orders share an order id. */
  lemma {:induction false} OrdersDistinct(raws: seq<RawOrder>, normalize: Normalizer, fetch: nat, i: nat, j: nat)
    requires i < j < |ParseAll(raws, normalize, fetch).ordenes|
    ensures ParseAll(raws, normalize, fetch).ordenes[i].orderId != ParseAll(raws, normalize, fetch).ordenes[j].orderId
  {
    var prev := ParseAll(DropLast(raws), normalize, fetch);
    var r := ParseAll(raws, normalize, fetch);
    if j < |prev.ordenes| {
      OrdersDistinct(DropLast(raws), normalize, fetch, i, j);
    } else {
      assert r.ordenes[i] == prev.ordenes[i];
      assert prev.ordenes[i].orderId in prev.seen;
    }
  }

  /** Every sale carries the fetch number and its own position in the sales list as its identity. */
  lemma {:induction false} SalesNumbered(raws: seq<RawOrder>, normalize: Normalizer, fetch: nat, k: nat)
    requires k < |ParseAll(raws, normalize, fetch).ventas|
    ensures ParseAll(raws, normalize, fetch).ventas[k].id == Line(fetch, k)
  {
    var prev := ParseAll(DropLast(raws), normalize, fetch);
    if k < |prev.ventas| {
      SalesNumbered(DropLast(raws), normalize, fetch, k);
    }
  }

  /** The sales of one fetch are distinct objects, all lines of that fetch. */
  lemma FetchDistinct(raws: seq<RawOrder>, normalize: Normalizer, fetch: nat)
    ensures DistinctIds(ParseAll(raws, normalize, fetch).ventas)
    ensures forall k :: 0 <= k < |ParseAll(raws, normalize, fetch).ventas| ==>
      ParseAll(raws, normalize, fetch).ventas[k].id == Line(fetch, k)
  {
    var ventas := ParseAll(raws, normalize, fetch).ventas;
    forall k | 0 <= k < |ventas|
      ensures ventas[k].id == Line(fetch, k)
    {
      SalesNumbered(raws, normalize, fetch, k);
    }
  }

  /** Every item of an order collected by a fetch is one of that fetch's sales. */
  lemma {:induction false} FetchItemsAmong(raws: seq<RawOrder>, normalize: Normalizer, fetch: nat)
    ensures ItemsAmong(ParseAll(raws, normalize, fetch).ordenes, ParseAll(raws, normalize, fetch).ventas)
  {
    if |raws| > 0 {
      var r := ParseAll(raws, normalize, fetch);
      var prev := ParseAll(DropLast(raws), normalize, fetch);
      FetchItemsAmong(DropLast(raws), normalize, fetch);
      var p := ParseOrder(Last(raws), prev.seen, fetch, |prev.ventas|, normalize);
      assert r.ventas == prev.ventas + p.sales;
      assert r.ordenes == prev.ordenes + (if p.order.Some? then [p.order.value] else []);
      forall i, j | 0 <= i < |r.ordenes| && 0 <= j < |r.ordenes[i].items|
        ensures r.ordenes[i].items[j] in r.ventas
      {
        if i < |prev.ordenes| {
          assert r.ordenes[i] == prev.ordenes[i];
          assert prev.ordenes[i].items[j] in prev.ventas;
        } else {
          assert r.ordenes[i].items == p.sales;
          assert p.sales[j] == r.ventas[|prev.ventas| + j];
        }
      }
    }
  }

  // ------------------------------------------------------ label SLA filter

  /** A shipment's label is kept without SLA data, without an expected date, or when due by the cutoff. */
  predicate KeepLabel(id: int, sla: SlaMap, cutoff: int) {
    id !in sla || sla[id].expectedDate.None? || sla[id].expectedDate.value <= cutoff
  }

  function LabelKept(sla: SlaMap, cutoff: int): int -> bool {
    (id: int) => KeepLabel(id, sla, cutoff)
  }

  /** The label SLA filter: the shipments that are not late, in their order. */
  function FilterLabels(ids: seq<int>, sla: SlaMap, cutoff: int): seq<int> {
    Filter(ids, LabelKept(sla, cutoff))
  }

  /**
   * The label filter drops exactly the shipments the pick-list filter
   * calls late, and keeps the others in order.
   */
  lemma LabelFilterIffNotLate(ids: seq<int>, sla: SlaMap, cutoff: int, id: int)
    ensures id in FilterLabels(ids, sla, cutoff) <==> id in ids && !(id in sla && IsLate(sla[id], cutoff))
  {
    FilterMembers(ids, LabelKept(sla, cutoff));
  }

  // --------------------------------------------------------- shipment map

  /** What the label enrichment knows of a shipment (`SkuInfo`). */
  datatype SkuInfo = SkuInfo(sku: string, title: string, quantity: int, orderIds: string)

  /** The order has a usable shipment id: present and positive. */
  predicate HasShipment(o: Order) {
    o.shipmentId.Some? && o.shipmentId.value > 0
  }

  function Shipped(): Order -> bool {
    (o: Order) => HasShipment(o)
  }

  function ShipOf(o: Order): int {
    o.shipmentId.GetOr(0)
  }

  /** The `int` total of the items' quantities, each cast to `int`, with Java's wrap-around. */
  function TotalQty(items: seq<Sale>): (r: int)
    ensures InIntRange(r)
  {
    if |items| == 0 then 0 else AddInt(TotalQty(DropLast(items)), IntCast(Last(items).quantity))
  }

  /** Non-negative quantities whose truncated sum fits an `int` add up without wrapping. */
  lemma {:induction false} TotalQtyExact(items: seq<Sale>)
    requires forall i :: 0 <= i < |items| ==> items[i].quantity >= 0.0
    requires TruncSum(items) <= IntMax
    ensures TotalQty(items) == TruncSum(items)
  {
    if |items| > 0 {
      var p := DropLast(items);
      TruncSumNonNegative(p);
      TotalQtyExact(p);
    }
  }

  lemma {:induction false} TruncSumNonNegative(items: seq<Sale>)
    requires forall i :: 0 <= i < |items| ==> items[i].quantity >= 0.0
    ensures TruncSum(items) >= 0
  {
    if |items| > 0 {
      TruncSumNonNegative(DropLast(items));
    }
  }

  /** The plain sum of the truncated quantities. */
  function TruncSum(items: seq<Sale>): int {
    if |items| == 0 then 0 else TruncSum(DropLast(items)) + Truncate(Last(items).quantity)
  }

  /** The label data of one order: its first item's SKU and title, its total (at least 1) and its id. */
  function OrderInfo(o: Order): (r: SkuInfo)
    ensures r.quantity >= 1 && r.quantity == Max(TotalQty(o.items), 1)
    ensures |o.items| > 0 ==> r.sku == o.items[0].sku && r.title == o.items[0].title
    ensures |o.items| == 0 ==> r.sku == "" && r.title == ""
    ensures r.orderIds == IntToString(o.orderId)
  {
    var sku := if |o.items| > 0 then o.items[0].sku else "";
    var desc := if |o.items| > 0 then o.items[0].title else "";
    SkuInfo(sku, desc, Max(TotalQty(o.items), 1), IntToString(o.orderId))
  }

  /** The shipments of the orders, in first-seen order. */
  function ShipmentIds(orders: seq<Order>): seq<int> {
    GroupKeys(Filter(orders, Shipped()), ShipOf)
  }

  /** The orders of shipment `id`, in list order. */
  function ShipmentGroup(orders: seq<Order>, id: int): seq<Order> {
    Group(Filter(orders, Shipped()), ShipOf, id)
  }

  /** The state of the shipment-map loop after the orders `p`. */
  ghost predicate ShipState(p: seq<Order>, ids: seq<int>, info: map<int, SkuInfo>) {
    ShippedState(Filter(p, Shipped()), ids, info)
  }

  /** The shipment ids and their label data after the orders `p`. */
  datatype ShipMap = ShipMap(ids: seq<int>, info: map<int, SkuInfo>)

  /** One order's effect on the map: only the first order of a shipment is recorded. */
  function ShipAdd(m: ShipMap, o: Order): ShipMap {
    if HasShipment(o) && ShipOf(o) !in m.info then
      ShipMap(m.ids + [ShipOf(o)], m.info[ShipOf(o) := OrderInfo(o)])
    else m
  }

  function ShipFold(p: seq<Order>): ShipMap {
    if |p| == 0 then ShipMap([], map[]) else ShipAdd(ShipFold(DropLast(p)), Last(p))
  }

  /** The folded map is the first-seen grouping of the orders with a usable shipment. */
  lemma {:induction false} ShipFoldState(p: seq<Order>)
    ensures ShipState(p, ShipFold(p).ids, ShipFold(p).info)
  {
    if |p| == 0 {
      assert Filter(p, Shipped()) == [];
      assert Map([], ShipOf) == [];
    } else {
      var m := ShipFold(DropLast(p));
      ShipFoldState(DropLast(p));
      assert p == DropLast(p) + [Last(p)];
      ShipStep(DropLast(p), Last(p), m);
    }
  }

  /** One more order keeps the state in step: the first order of a shipment wins. */
  lemma ShipStep(p: seq<Order>, o: Order, m: ShipMap)
    requires ShipState(p, m.ids, m.info)
    ensures ShipState(p + [o], ShipAdd(m, o).ids, ShipAdd(m, o).info)
  {
    FilterAppend(p, [o], Shipped());
    if !HasShipment(o) {
      assert Filter([o], Shipped()) == [];
      assert Filter(p + [o], Shipped()) == Filter(p, Shipped());
    } else {
      assert Filter([o], Shipped()) == [o];
      if ShipOf(o) in m.info {
        ShipSeen(Filter(p, Shipped()), o, m);
      } else {
        ShipNew(Filter(p, Shipped()), o, m);
      }
    }
  }

  /** The shipment state of the orders whose shipped sub-list is `f`. */
  ghost predicate ShippedState(f: seq<Order>, ids: seq<int>, info: map<int, SkuInfo>) {
    && ids == GroupKeys(f, ShipOf)
    && (forall id :: id in info <==> id in ids)
    && (forall id :: id in info ==> |Group(f, ShipOf, id)| > 0 && info[id] == OrderInfo(Group(f, ShipOf, id)[0]))
  }

  /** A later order of a known shipment changes nothing. */
  lemma ShipSeen(f: seq<Order>, o: Order, m: ShipMap)
    requires ShippedState(f, m.ids, m.info) && ShipOf(o) in m.info
    ensures ShippedState(f + [o], m.ids, m.info)
  {
    GroupKeysSnoc(f, o, ShipOf);
    forall id | id in m.info
      ensures |Group(f + [o], ShipOf, id)| > 0 && m.info[id] == OrderInfo(Group(f + [o], ShipOf, id)[0])
    {
      GroupSnoc(f, o, ShipOf, id);
    }
  }

  /** The first order of a new shipment adds its id and its label data. */
  lemma ShipNew(f: seq<Order>, o: Order, m: ShipMap)
    requires ShippedState(f, m.ids, m.info) && ShipOf(o) !in m.info
    ensures ShippedState(f + [o], m.ids + [ShipOf(o)], m.info[ShipOf(o) := OrderInfo(o)])
  {
    var k := ShipOf(o);
    var info' := m.info[k := OrderInfo(o)];
    GroupKeysSnoc(f, o, ShipOf);
    forall id | id in info'
      ensures |Group(f + [o], ShipOf, id)| > 0 && info'[id] == OrderInfo(Group(f + [o], ShipOf, id)[0])
    {
      GroupSnoc(f, o, ShipOf, id);
      if id == k {
        FilterNone(f, KeyIs(ShipOf, k));
      }
    }
  }

  /**
   * The shipment-map loop of the label download: orders without a usable
   * shipment are skipped, and the first order seen for a shipment fixes
   * its label data.
   */
  method BuildShipmentMap(orders: seq<Order>) returns (ids: seq<int>, info: map<int, SkuInfo>)
    ensures ids == ShipmentIds(orders)
    ensures forall id :: id in info <==> id in ids
    ensures forall id :: id in info ==>
      |ShipmentGroup(orders, id)| > 0 && info[id] == OrderInfo(ShipmentGroup(orders, id)[0])
  {
    ids := [];
    info := map[];
    var i := 0;
    while i < |orders|
      invariant 0 <= i <= |orders|
      invariant ShipMap(ids, info) == ShipFold(orders[..i])
    {
      var o := orders[i];
      PrefixSnoc(orders, i);
      assert DropLast(orders[..i + 1]) == orders[..i];
      if HasShipment(o) && ShipOf(o) !in info {
        ids := ids + [ShipOf(o)];
        info := info[ShipOf(o) := OrderInfo(o)];
      }
      i := i + 1;
    }
    assert orders[..i] == orders;
    ShipFoldState(orders);
  }

  // --------------------------------------------------------------- batches

  /**
   * The request loop: consecutive batches of at most 50 shipment ids that
   * together give back the whole list in order; every batch but the last
   * is full.
   */
  method Batches<T>(ids: seq<T>) returns (bs: seq<seq<T>>)
    ensures Flatten(bs) == ids
    ensures forall k :: 0 <= k < |bs| ==> 0 < |bs[k]| <= MaxShipmentsPerRequest
    ensures forall k :: 0 <= k < |bs| - 1 ==> |bs[k]| == MaxShipmentsPerRequest
    ensures |bs| == (|ids| + MaxShipmentsPerRequest - 1) / MaxShipmentsPerRequest
  {
    bs := [];
    var i := 0;
    while i < |ids|
      invariant i == MaxShipmentsPerRequest * |bs|
      invariant i <= |ids| ==> Flatten(bs) == ids[..i]
      invariant i > |ids| ==> Flatten(bs) == ids && |ids| > i - MaxShipmentsPerRequest
      invariant forall k :: 0 <= k < |bs| ==> 0 < |bs[k]| <= MaxShipmentsPerRequest
      invariant forall k :: 0 <= k < |bs| - 1 ==> |bs[k]| == MaxShipmentsPerRequest
      invariant i <= |ids| ==> forall k :: 0 <= k < |bs| ==> |bs[k]| == MaxShipmentsPerRequest
    {
      var end := if i + MaxShipmentsPerRequest < |ids| then i + MaxShipmentsPerRequest else |ids|;
      var batch := ids[i..end];
      FlattenAppend(bs, [batch]);
      assert Flatten([batch]) == Flatten([]) + batch;
      assert ids[..end] == ids[..i] + batch;
      bs := bs + [batch];
      i := i + MaxShipmentsPerRequest;
    }
    if i == |ids| {
      assert ids[..i] == ids;
    }
  }

  // ---------------------------------------------------- labels for orders

  function SkuOf(s: Sale): string {
    s.sku
  }

  predicate NonEmpty(s: string) {
    |s| > 0
  }

  function NonEmptyText(): string -> bool {
    (s: string) => NonEmpty(s)
  }

  /** An item's line in the label description: its title, or its SKU when the title is empty. */
  function TitleOrSku(s: Sale): string {
    if |s.title| > 0 then s.title else s.sku
  }

  /** The first order's pack id, or its order id when it has no pack, as text; "" for no order. */
  function FirstOrderIds(group: seq<Order>): string {
    if |group| > 0 then IntToString(group[0].VentaId()) else ""
  }

  /**
   * The label data of one shipment's orders: the non-empty SKUs of all
   * their items one per line, the item titles one per line, the total
   * quantity (at least 1) and the first order's pack id, else its order id.
   */
  function GroupInfo(group: seq<Order>): (r: SkuInfo)
    ensures r.quantity >= 1 && r.quantity == Max(TotalQty(GroupItems(group)), 1)
    ensures |group| > 0 && group[0].packId.Some? ==> r.orderIds == IntToString(group[0].packId.value)
    ensures |group| > 0 && group[0].packId.None? ==> r.orderIds == IntToString(group[0].orderId)
    ensures |group| == 0 ==> r.orderIds == ""
  {
    var items := GroupItems(group);
    SkuInfo(
      Join(Filter(Map(items, SkuOf), NonEmptyText()), '\n'),
      Join(Map(items, TitleOrSku), '\n'),
      Max(TotalQty(items), 1),
      FirstOrderIds(group))
  }

  /** The label data of every shipment of the selected orders. */
  function ShipmentInfos(orders: seq<Order>): (r: map<int, SkuInfo>)
    ensures forall id :: id in r <==> id in ShipmentIds(orders)
    ensures forall id :: id in r ==> r[id] == GroupInfo(ShipmentGroup(orders, id))
  {
    map id | id in ShipmentIds(orders) :: GroupInfo(ShipmentGroup(orders, id))
  }

  /**
   * A shipment's SKU text lists its items' non-empty SKUs, one per line and
   * in order, as long as no SKU holds a line break itself.
   */
  lemma ShipmentSkuLines(orders: seq<Order>, id: int)
    requires id in ShipmentIds(orders)
    requires var skus := Filter(Map(GroupItems(ShipmentGroup(orders, id)), SkuOf), NonEmptyText());
      |skus| > 0 && forall i :: 0 <= i < |skus| ==> '\n' !in skus[i]
    ensures Split(ShipmentInfos(orders)[id].sku, '\n')
      == Filter(Map(GroupItems(ShipmentGroup(orders, id)), SkuOf), NonEmptyText())
  {
    var skus := Filter(Map(GroupItems(ShipmentGroup(orders, id)), SkuOf), NonEmptyText());
    SplitJoin(skus, '\n');
  }

  /**
   * A shipment's description lists, one per line and in order, each item's
   * title or its SKU when the title is empty, as long as none holds a line
   * break itself.
   */
  lemma ShipmentTitleLines(orders: seq<Order>, id: int)
    requires id in ShipmentIds(orders)
    requires var items := GroupItems(ShipmentGroup(orders, id));
      |items| > 0 && forall i :: 0 <= i < |items| ==> '\n' !in TitleOrSku(items[i])
    ensures Split(ShipmentInfos(orders)[id].title, '\n') == Map(GroupItems(ShipmentGroup(orders, id)), TitleOrSku)
  {
    var items := GroupItems(ShipmentGroup(orders, id));
    SplitJoin(Map(items, TitleOrSku), '\n');
  }

  // ------------------------------------------------------ label enrichment

  /** A parsed shipping label (`ZplLabel`). */
  datatype ZplLabel = ZplLabel(
    rawZpl: string,
    sku: string,
    description: string,
    details: string,
    quantity: int,
    turbo: bool,
    orderIds: string)

  /**
   * One label paired with the shipment id at its position, if any: non-blank
   * SKU and title of the shipment's data replace the label's own, and its
   * quantity and venta key are copied; without data the quantity is 1; the
   * turbo flag marks the turbo shipments; past the end of the ids every
   * default holds.
   */
  function EnrichOne(zpl: ZplLabel, id: Option<int>, skuMap: map<int, SkuInfo>, turbos: set<int>): (r: ZplLabel)
    ensures r.rawZpl == zpl.rawZpl && r.details == zpl.details
    ensures id.None? ==> r == zpl.(quantity := 1, turbo := false, orderIds := "")
    ensures id.Some? ==> r.turbo == (id.value in turbos)
    ensures id.Some? && id.value !in skuMap ==>
      r.sku == zpl.sku && r.description == zpl.description && r.quantity == 1 && r.orderIds == ""
    ensures id.Some? && id.value in skuMap ==>
      var info := skuMap[id.value];
      && r.sku == (if IsBlank(info.sku) then zpl.sku else info.sku)
      && r.description == (if IsBlank(info.title) then zpl.description else info.title)
      && r.quantity == info.quantity && r.orderIds == info.orderIds
  {
    if id.None? then ZplLabel(zpl.rawZpl, zpl.sku, zpl.description, zpl.details, 1, false, "")
    else
      var turbo := id.value in turbos;
      if id.value in skuMap then
        var info := skuMap[id.value];
        var sku := if !IsBlank(info.sku) then info.sku else zpl.sku;
        var desc := if !IsBlank(info.title) then info.title else zpl.description;
        ZplLabel(zpl.rawZpl, sku, desc, zpl.details, info.quantity, turbo, info.orderIds)
      else
        ZplLabel(zpl.rawZpl, zpl.sku, zpl.description, zpl.details, 1, turbo, "")
  }

  /** The enrichment loop: the i-th label takes the i-th shipment id of the batch. */
  function Enrich(labels: seq<ZplLabel>, ids: seq<int>, skuMap: map<int, SkuInfo>, turbos: set<int>): (r: seq<ZplLabel>)
    ensures |r| == |labels|
    ensures forall i :: 0 <= i < |r| ==>
      r[i] == EnrichOne(labels[i], if i < |ids| then Some(ids[i]) else None, skuMap, turbos)
  {
    seq(|labels|, i requires 0 <= i < |labels| =>
      EnrichOne(labels[i], if i < |ids| then Some(ids[i]) else None, skuMap, turbos))
  }

  /** Enriching an enriched batch again changes nothing. */
  lemma EnrichIdempotent(labels: seq<ZplLabel>, ids: seq<int>, skuMap: map<int, SkuInfo>, turbos: set<int>)
    ensures Enrich(Enrich(labels, ids, skuMap, turbos), ids, skuMap, turbos) == Enrich(labels, ids, skuMap, turbos)
  {
    var once := Enrich(labels, ids, skuMap, turbos);
    var twice := Enrich(once, ids, skuMap, turbos);
    forall i | 0 <= i < |labels|
      ensures twice[i] == once[i]
    {
      var id := if i < |ids| then Some(ids[i]) else None;
      assert once[i] == EnrichOne(labels[i], id, skuMap, turbos);
      assert twice[i] == EnrichOne(once[i], id, skuMap, turbos);
    }
  }

  /** With shipment data for every id, every paired label carries a quantity of at least 1. */
  lemma EnrichedQuantities(labels: seq<ZplLabel>, orders: seq<Order>, ids: seq<int>, turbos: set<int>, i: nat)
    requires i < |labels|
    ensures Enrich(labels, ids, ShipmentInfos(orders), turbos)[i].quantity >= 1
  {
    var m := ShipmentInfos(orders);
    if i < |ids| && ids[i] in m {
      assert m[ids[i]] == GroupInfo(ShipmentGroup(orders, ids[i]));
    }
  }
}

=== FILE: numeric.dfy ===
/**
 * The Java numeric conversions the pipeline relies on: the `(int)` cast of
 * a double (truncation toward zero, saturating at the 32-bit range) and
 * 32-bit `int` addition (wrapping around).
 */
module Numeric {
  const IntMin: int := -0x8000_0000
  const IntMax: int := 0x7FFF_FFFF

  predicate InIntRange(n: int) {
    IntMin <= n <= IntMax
  }

  /** Truncation toward zero. */
  function Truncate(x: real): (r: int)
    ensures x >= 0.0 ==> r as real <= x < r as real + 1.0
    ensures x < 0.0 ==> r as real - 1.0 < x <= r as real
  {
    if x >= 0.0 then x.Floor else -((-x).Floor)
  }

  /** `(int) x` for a double `x`: truncated, then clamped to the `int` range. */
  function IntCast(x: real): (r: int)
    ensures InIntRange(r)
    ensures InIntRange(Truncate(x)) ==> r == Truncate(x)
    ensures Truncate(x) > IntMax ==> r == IntMax
    ensures Truncate(x) < IntMin ==> r == IntMin
  {
    var t := Truncate(x);
    if t > IntMax then IntMax else if t < IntMin then IntMin else t
  }

  /** The 32-bit two's-complement value of `n`. */
  function Wrap(n: int): (r: int)
    ensures InIntRange(r)
    ensures (r - n) % 0x1_0000_0000 == 0
    ensures InIntRange(n) ==> r == n
  {
    var m := (n - IntMin) % 0x1_0000_0000;
    m + IntMin
  }

  /** `a + b` on Java `int`s. */
  function AddInt(a: int, b: int): int {
    Wrap(a + b)
  }

  /** `Math.max` on `int`s. */
  function Max(a: int, b: int): (r: int)
    ensures r >= a && r >= b && (r == a || r == b)
  {
    if a >= b then a else b
  }

  /** A double that is a whole number within range casts to exactly that number. */
  lemma CastWhole(n: int)
    requires InIntRange(n)
    ensures IntCast(n as real) == n
  {
  }
}

=== FILE: ordering.dfy ===
/**
 * Composite sort keys and their comparison, the model of the
 * `Comparator.comparing(..).thenComparing(..)` chains of the source.
 *
 * A key is a list of atoms compared left to right. Strings compare
 * character by character, a proper prefix first, like `String.compareTo`;
 * characters are compared as Unicode code points, which agrees with Java's
 * comparison of UTF-16 code units for every character outside the
 * supplementary planes.
 * `Top` is greater than every other atom; it stands for the
 * `OffsetDateTime.MAX` the source substitutes for a missing date.
 */
module Ordering {

  datatype Atom = Num(n: int) | Str(s: string) | Top

  type Key = seq<Atom>

  /** Lexicographic comparison by code point, normalised to -1, 0 or 1. */
  function CompareStrings(a: string, b: string): (r: int)
    ensures -1 <= r <= 1
  {
    if |a| == 0 && |b| == 0 then 0
    else if |a| == 0 then -1
    else if |b| == 0 then 1
    else if a[0] < b[0] then -1
    else if a[0] > b[0] then 1
    else CompareStrings(a[1..], b[1..])
  }

  lemma {:induction false} StringsEqual(a: string, b: string)
    ensures CompareStrings(a, b) == 0 <==> a == b
  {
    if |a| > 0 && |b| > 0 && a[0] == b[0] {
      StringsEqual(a[1..], b[1..]);
      assert a == [a[0]] + a[1..] && b == [b[0]] + b[1..];
    }
  }

  lemma {:induction false} StringsAntisymmetric(a: string, b: string)
    ensures CompareStrings(a, b) == -CompareStrings(b, a)
  {
    if |a| > 0 && |b| > 0 && a[0] == b[0] {
      StringsAntisymmetric(a[1..], b[1..]);
    }
  }

  lemma {:induction false} StringsTransitive(a: string, b: string, c: string)
    requires CompareStrings(a, b) <= 0 && CompareStrings(b, c) <= 0
    ensures CompareStrings(a, c) <= 0
  {
    if |a| > 0 && |b| > 0 && |c| > 0 && a[0] == b[0] && b[0] == c[0] {
      StringsTransitive(a[1..], b[1..], c[1..]);
    }
  }

  /** The position of an atom's kind: numbers, then strings, then `Top`. */
  function Rank(a: Atom): nat {
    match a
    case Num(_) => 0
    case Str(_) => 1
    case Top => 2
  }

  function CompareAtoms(a: Atom, b: Atom): (r: int)
    ensures -1 <= r <= 1
  {
    if Rank(a) < Rank(b) then -1
    else if Rank(a) > Rank(b) then 1
    else match (a, b)
      case (Num(x), Num(y)) => if x < y then -1 else if x > y then 1 else 0
      case (Str(x), Str(y)) => CompareStrings(x, y)
      case _ => 0
  }

  lemma AtomsEqual(a: Atom, b: Atom)
    ensures CompareAtoms(a, b) == 0 <==> a == b
  {
    if a.Str? && b.Str? {
      StringsEqual(a.s, b.s);
    }
  }

  lemma AtomsAntisymmetric(a: Atom, b: Atom)
    ensures CompareAtoms(a, b) == -CompareAtoms(b, a)
  {
    if a.Str? && b.Str? {
      StringsAntisymmetric(a.s, b.s);
    }
  }

  lemma AtomsTransitive(a: Atom, b: Atom, c: Atom)
    requires CompareAtoms(a, b) <= 0 && CompareAtoms(b, c) <= 0
    ensures CompareAtoms(a, c) <= 0
  {
    if a.Str? && b.Str? && c.Str? {
      StringsTransitive(a.s, b.s, c.s);
    }
  }

  /** Lexicographic comparison of keys: the first differing atom decides. */
  function CompareKeys(a: Key, b: Key): (r: int)
    ensures -1 <= r <= 1
  {
    if |a| == 0 && |b| == 0 then 0
    else if |a| == 0 then -1
    else if |b| == 0 then 1
    else if CompareAtoms(a[0], b[0]) != 0 then CompareAtoms(a[0], b[0])
    else CompareKeys(a[1..], b[1..])
  }

  /** Two keys compare equal exactly when they are the same key. */
  lemma {:induction false} KeysEqual(a: Key, b: Key)
    ensures CompareKeys(a, b) == 0 <==> a == b
  {
    if |a| > 0 && |b| > 0 {
      AtomsEqual(a[0], b[0]);
      if a[0] == b[0] {
        KeysEqual(a[1..], b[1..]);
        assert a == [a[0]] + a[1..] && b == [b[0]] + b[1..];
      }
    }
  }

  /** Swapping the arguments flips the sign. */
  lemma {:induction false} KeysAntisymmetric(a: Key, b: Key)
    ensures CompareKeys(a, b) == -CompareKeys(b, a)
  {
    if |a| > 0 && |b| > 0 {
      AtomsAntisymmetric(a[0], b[0]);
      KeysAntisymmetric(a[1..], b[1..]);
    }
  }

  /** "Not after" is transitive. */
  lemma {:induction false} KeysTransitive(a: Key, b: Key, c: Key)
    requires CompareKeys(a, b) <= 0 && CompareKeys(b, c) <= 0
    ensures CompareKeys(a, c) <= 0
  {
    if |a| > 0 && |b| > 0 && |c| > 0 {
      AtomsEqual(a[0], b[0]);
      AtomsEqual(b[0], c[0]);
      AtomsEqual(a[0], c[0]);
      AtomsAntisymmetric(a[0], c[0]);
      AtomsAntisymmetric(a[0], b[0]);
      AtomsAntisymmetric(b[0], c[0]);
      AtomsTransitive(a[0], b[0], c[0]);
      if a[0] == b[0] && b[0] == c[0] {
        KeysTransitive(a[1..], b[1..], c[1..]);
      }
    }
  }

  /** Strictly before, then not after, is strictly before. */
  lemma KeysStrictTransitive(a: Key, b: Key, c: Key)
    requires CompareKeys(a, b) < 0 && CompareKeys(b, c) <= 0
    ensures CompareKeys(a, c) < 0
  {
    KeysTransitive(a, b, c);
    KeysEqual(a, c);
    KeysAntisymmetric(a, b);
  }
}

=== FILE: pedidos_report.dfy ===
/**
 * The layout rules of the orders workbook: order lines grouped into one
 * card per order, cards placed two per band, the band's rows and height,
 * page breaks at 810 points, the name line of a pickup card and the product
 * rows of a card.
 *
 * Heights are points. Every height constant is a whole number well inside
 * the exact range of a float, so heights are integers here.
 */
module PedidosReport {
  import opened Wrappers
  import opened Text
  import opened Seqs

  // ---------------------------------------------------------------- records

  /** One MercadoLibre pickup line (`PedidoML`). */
  datatype PedidoML = PedidoML(
    orderId: int,
    fecha: Option<int>,
    usuario: Option<string>,
    nombreApellido: Option<string>,
    sku: string,
    cantidad: real,
    detalle: string,
    buyerId: int)

  /** One TiendaNube order line (`PedidoTN`). */
  datatype PedidoTN = PedidoTN(
    orderId: int,
    fecha: Option<int>,
    nombreApellido: string,
    sku: string,
    cantidad: real,
    detalle: string,
    tienda: string,
    tipoEnvio: string)

  /** One product row of a card. */
  datatype ProductLine = ProductLine(sku: string, cantidad: real, detalle: string)

  /** One MercadoLibre card: the order and its products. */
  datatype PedidoMLGroup = PedidoMLGroup(
    orderId: int,
    fecha: Option<int>,
    usuario: Option<string>,
    nombreApellido: Option<string>,
    productos: seq<ProductLine>)

  /** One TiendaNube card: the order and its products. */
  datatype PedidoTNGroup = PedidoTNGroup(
    orderId: int,
    fecha: Option<int>,
    nombreApellido: string,
    tienda: string,
    tipoEnvio: string,
    productos: seq<ProductLine>)

  // --------------------------------------------------------------- grouping

  function MLOrderId(p: PedidoML): int {
    p.orderId
  }

  function MLLine(p: PedidoML): ProductLine {
    ProductLine(p.sku, p.cantidad, p.detalle)
  }

  /**
   * `c` is the card of order `k` whose lines are `lines`: the order's
   * number, its header fields from the first line, and one product per
   * line in list order.
   */
  ghost predicate IsMLCard(c: PedidoMLGroup, k: int, lines: seq<PedidoML>) {
    && |lines| > 0
    && c.orderId == k
    && c.productos == Map(lines, MLLine)
    && c.fecha == lines[0].fecha
    && c.usuario == lines[0].usuario
    && c.nombreApellido == lines[0].nombreApellido
  }

  /** The card of the order `k`. */
  function MLCard(pedidos: seq<PedidoML>, k: int): (c: PedidoMLGroup)
    requires k in GroupKeys(pedidos, MLOrderId)
    ensures IsMLCard(c, k, Group(pedidos, MLOrderId, k))
  {
    var lines := Group(pedidos, MLOrderId, k);
    GroupNonEmpty(pedidos, MLOrderId, k);
    FilterMembers(pedidos, KeyIs(MLOrderId, k));
    var first := lines[0];
    PedidoMLGroup(first.orderId, first.fecha, first.usuario, first.nombreApellido, Map(lines, MLLine))
  }

  /**
   * The MercadoLibre cards: one per order id in first-seen order, each with
   * the order's lines in list order, dated and named by its first line.
   */
  function AgruparPedidosML(pedidos: seq<PedidoML>): (r: seq<PedidoMLGroup>)
    ensures |r| == |GroupKeys(pedidos, MLOrderId)|
    ensures forall g :: 0 <= g < |r| ==>
      IsMLCard(r[g], GroupKeys(pedidos, MLOrderId)[g], Group(pedidos, MLOrderId, GroupKeys(pedidos, MLOrderId)[g]))
  {
    var keys := GroupKeys(pedidos, MLOrderId);
    seq(|keys|, g requires 0 <= g < |keys| => MLCard(pedidos, keys[g]))
  }

  function TNOrderId(p: PedidoTN): int {
    p.orderId
  }

  function TNLine(p: PedidoTN): ProductLine {
    ProductLine(p.sku, p.cantidad, p.detalle)
  }

  /** `c` is the card of order `k` whose lines are `lines`. */
  ghost predicate IsTNCard(c: PedidoTNGroup, k: int, lines: seq<PedidoTN>) {
    && |lines| > 0
    && c.orderId == k
    && c.productos == Map(lines, TNLine)
    && c.fecha == lines[0].fecha
    && c.nombreApellido == lines[0].nombreApellido
    && c.tienda == lines[0].tienda
    && c.tipoEnvio == lines[0].tipoEnvio
  }

  /** The card of the order `k`. */
  function TNCard(pedidos: seq<PedidoTN>, k: int): (c: PedidoTNGroup)
    requires k in GroupKeys(pedidos, TNOrderId)
    ensures IsTNCard(c, k, Group(pedidos, TNOrderId, k))
  {
    var lines := Group(pedidos, TNOrderId, k);
    GroupNonEmpty(pedidos, TNOrderId, k);
    FilterMembers(pedidos, KeyIs(TNOrderId, k));
    var first := lines[0];
    PedidoTNGroup(first.orderId, first.fecha, first.nombreApellido, first.tienda, first.tipoEnvio, Map(lines, TNLine))
  }

  /**
   * The TiendaNube cards: one per order number in first-seen order, each
   * with the order's lines in list order, its header from the first line.
   */
  function AgruparPedidosTN(pedidos: seq<PedidoTN>): (r: seq<PedidoTNGroup>)
    ensures |r| == |GroupKeys(pedidos, TNOrderId)|
    ensures forall g :: 0 <= g < |r| ==>
      IsTNCard(r[g], GroupKeys(pedidos, TNOrderId)[g], Group(pedidos, TNOrderId, GroupKeys(pedidos, TNOrderId)[g]))
  {
    var keys := GroupKeys(pedidos, TNOrderId);
    seq(|keys|, g requires 0 <= g < |keys| => TNCard(pedidos, keys[g]))
  }

  function MLProductCount(c: PedidoMLGroup): int {
    |c.productos|
  }

  /** The cards' products add up to the lines: every line is on exactly one card. */
  lemma {:induction false} MLCardsKeepLines(pedidos: seq<PedidoML>)
    ensures IntSum(AgruparPedidosML(pedidos), MLProductCount) == |pedidos|
  {
    var keys := GroupKeys(pedidos, MLOrderId);
    MLCardsCount(pedidos, keys, |keys|);
    assert keys[..|keys|] == keys;
    assert AgruparPedidosML(pedidos)[..|keys|] == AgruparPedidosML(pedidos);
    GroupSizesTotal(pedidos, MLOrderId);
  }

  /** The first `n` cards hold the lines of the first `n` order ids. */
  lemma {:induction false} MLCardsCount(pedidos: seq<PedidoML>, keys: seq<int>, n: nat)
    requires keys == GroupKeys(pedidos, MLOrderId) && n <= |keys|
    ensures IntSum(AgruparPedidosML(pedidos)[..n], MLProductCount) == GroupSizes(keys[..n], pedidos, MLOrderId)
  {
    if n > 0 {
      var cards := AgruparPedidosML(pedidos);
      MLCardsCount(pedidos, keys, n - 1);
      assert DropLast(cards[..n]) == cards[..n - 1];
      assert DropLast(keys[..n]) == keys[..n - 1];
      assert IsMLCard(cards[n - 1], keys[n - 1], Group(pedidos, MLOrderId, keys[n - 1]));
    }
  }

  // ------------------------------------------------------------ pair sizing

  const PedidoHeaderHeights: seq<int> := [26, 26, 26, 20]
  const PedidoProductHeight: int := 33
  const PedidoPaddingHeight: int := 4
  const PedidoMinProducts: int := 1
  const MaxPageHeight: int := 810

  /** The sum of the heights. */
  function Total(hs: seq<int>): int {
    if |hs| == 0 then 0 else hs[0] + Total(hs[1..])
  }

  /** The four header rows of a band take 98 points. */
  lemma HeaderTotal()
    ensures Total(PedidoHeaderHeights) == 98
  {
    var h := PedidoHeaderHeights;
    assert h[1..][1..][1..][1..] == [];
  }

  /**
   * The product rows of a band: enough for the card with more products,
   * and at least one.
   */
  function Slots(left: nat, right: Option<nat>): (r: nat)
    ensures r >= 1 && r >= left && (right.Some? ==> r >= right.value)
    ensures r == 1 || r == left || (right.Some? && r == right.value)
  {
    var m := if right.Some? && right.value > left then right.value else left;
    if m > PedidoMinProducts then m else PedidoMinProducts
  }

  /** The rows of a band: the four header rows, the product rows and a padding row. */
  function CardRows(slots: nat): nat {
    |PedidoHeaderHeights| + slots + 1
  }

  /** The height of a band, as the page-break rule counts it. */
  function PairHeight(slots: nat): int {
    PedidoPaddingHeight + Total(PedidoHeaderHeights) + slots * PedidoProductHeight
  }

  /** The height given to row `r` of a band. */
  function RowHeight(slots: nat, r: nat): int
    requires r < CardRows(slots)
  {
    if r < |PedidoHeaderHeights| then PedidoHeaderHeights[r]
    else if r < |PedidoHeaderHeights| + slots then PedidoProductHeight
    else PedidoPaddingHeight
  }

  /** The heights of the first `n` rows of a band. */
  function RowHeights(slots: nat, n: nat): int
    requires n <= CardRows(slots)
  {
    if n == 0 then 0 else RowHeights(slots, n - 1) + RowHeight(slots, n - 1)
  }

  /** The product rows of a band are `n` rows of the product height. */
  lemma {:induction false} ProductRowsHeight(slots: nat, n: nat)
    requires n <= slots
    ensures RowHeights(slots, 4 + n) == 98 + n * PedidoProductHeight
  {
    if n > 0 {
      ProductRowsHeight(slots, n - 1);
    } else {
      assert RowHeights(slots, 1) == 26;
      assert RowHeights(slots, 3) == 78;
    }
  }

  /** The rows set for a band add up to the height the page-break rule uses: 102 + 33 per slot. */
  lemma BandRowsHeight(slots: nat)
    ensures RowHeights(slots, CardRows(slots)) == PairHeight(slots)
    ensures PairHeight(slots) == 102 + 33 * slots
  {
    HeaderTotal();
    ProductRowsHeight(slots, slots);
  }

  // ------------------------------------------------------------- pagination

  /** One band: its height and its rows. */
  datatype Band = Band(height: int, rows: nat)

  /** Where the layout loop stands: the next row and the height used on the current page. */
  datatype Cursor = Cursor(row: int, pageHeight: int)

  /** A break goes before the band when the page has something and the band does not fit. */
  predicate BreaksBefore(c: Cursor, b: Band) {
    c.pageHeight > 0 && c.pageHeight + b.height > MaxPageHeight
  }

  /** Placing one band: maybe start a new page, then take its rows and its height. */
  function Place(c: Cursor, b: Band): Cursor {
    var h := if BreaksBefore(c, b) then 0 else c.pageHeight;
    Cursor(c.row + b.rows, h + b.height)
  }

  /** The cursor after the bands. */
  function Run(bands: seq<Band>): Cursor {
    if |bands| == 0 then Cursor(0, 0) else Place(Run(DropLast(bands)), Last(bands))
  }

  /** The rows after which a page break is set: the last row before the band that does not fit. */
  function BreakRows(bands: seq<Band>): seq<int> {
    if |bands| == 0 then []
    else
      var c := Run(DropLast(bands));
      BreakRows(DropLast(bands)) + (if BreaksBefore(c, Last(bands)) then [c.row - 1] else [])
  }

  function BandRows(b: Band): int {
    b.rows
  }

  /**
   * The row cursor advances by exactly each band's rows: the next band
   * starts below all the rows written so far.
   */
  lemma {:induction false} RunRows(bands: seq<Band>)
    ensures Run(bands).row == IntSum(bands, BandRows)
  {
    if |bands| > 0 {
      RunRows(DropLast(bands));
    }
  }

  predicate PositiveHeights(bands: seq<Band>) {
    forall i :: 0 <= i < |bands| ==> bands[i].height > 0
  }

  /**
   * The current page never exceeds the page height, unless it holds a
   * single band taller than a page.
   */
  lemma {:induction false} PageBound(bands: seq<Band>)
    requires |bands| > 0 && PositiveHeights(bands)
    ensures 0 < Run(bands).pageHeight
    ensures Run(bands).pageHeight <= MaxPageHeight || Run(bands).pageHeight == Last(bands).height
  {
    if |bands| > 1 {
      assert PositiveHeights(DropLast(bands)) by {
        forall i | 0 <= i < |DropLast(bands)|
          ensures DropLast(bands)[i].height > 0
        {
          assert DropLast(bands)[i] == bands[i];
        }
      }
      PageBound(DropLast(bands));
    }
  }

  predicate PositiveRows(bands: seq<Band>) {
    forall i :: 0 <= i < |bands| ==> bands[i].rows > 0
  }

  /**
   * Page breaks fall on rows already written, one per page after the
   * first, in ascending order: none before the first band, none twice.
   */
  lemma {:induction false} BreakRowsAscend(bands: seq<Band>)
    requires PositiveRows(bands)
    ensures forall j :: 0 <= j < |BreakRows(bands)| ==> 0 <= BreakRows(bands)[j] < Run(bands).row - 1
    ensures forall j, k :: 0 <= j < k < |BreakRows(bands)| ==> BreakRows(bands)[j] < BreakRows(bands)[k]
  {
    if |bands| > 0 {
      var p := DropLast(bands);
      assert PositiveRows(p) by {
        forall i | 0 <= i < |p|
          ensures p[i].rows > 0
        {
          assert p[i] == bands[i];
        }
      }
      BreakRowsAscend(p);
      if |p| > 0 {
        RunRowsPositive(p);
      }
    }
  }

  /** Some rows have been written once a band is placed. */
  lemma RunRowsPositive(bands: seq<Band>)
    requires |bands| > 0 && PositiveRows(bands)
    ensures Run(bands).row > 0
  {
    RunRows(bands);
    IntSumPositive(bands);
  }

  lemma {:induction false} IntSumPositive(bands: seq<Band>)
    requires |bands| > 0 && PositiveRows(bands)
    ensures IntSum(bands, BandRows) > 0
  {
    if |bands| > 1 {
      var p := DropLast(bands);
      assert p[0] == bands[0];
      IntSumPositive(p);
    }
  }

  /**
   * The band loop of the order sheets: bands are placed top to bottom, and a
   * row break is set before a band that does not fit on a non-empty page.
   */
  method PlaceBands(bands: seq<Band>) returns (breaks: seq<int>, currentRow: int, pageHeight: int)
    ensures breaks == BreakRows(bands)
    ensures currentRow == IntSum(bands, BandRows)
    ensures Cursor(currentRow, pageHeight) == Run(bands)
  {
    breaks := [];
    currentRow := 0;
    pageHeight := 0;
    var i := 0;
    while i < |bands|
      invariant 0 <= i <= |bands|
      invariant Cursor(currentRow, pageHeight) == Run(bands[..i])
      invariant breaks == BreakRows(bands[..i])
    {
      var b := bands[i];
      PrefixSnoc(bands, i);
      assert DropLast(bands[..i + 1]) == bands[..i];
      if pageHeight > 0 && pageHeight + b.height > MaxPageHeight {
        breaks := breaks + [currentRow - 1];
        pageHeight := 0;
      }
      currentRow := currentRow + b.rows;
      pageHeight := pageHeight + b.height;
      i := i + 1;
    }
    assert bands[..i] == bands;
    RunRows(bands);
  }

  // ------------------------------------------------------ bands of the cards

  /** The number of bands for `n` cards: two per band, the last maybe alone. */
  function BandCount(n: nat): nat {
    (n + 1) / 2
  }

  /** The band of the cards `2k` and `2k + 1` (when there is one). */
  function PedidoBand(counts: seq<nat>, k: nat): Band
    requires 2 * k < |counts|
  {
    var right := if 2 * k + 1 < |counts| then Some(counts[2 * k + 1]) else None;
    var slots := Slots(counts[2 * k], right);
    Band(PairHeight(slots), CardRows(slots))
  }

  /** The bands of the order cards, from each card's product count. */
  function PedidoBands(counts: seq<nat>): (r: seq<Band>)
    ensures |r| == BandCount(|counts|)
    ensures PositiveHeights(r)
  {
    HeaderTotal();
    seq(BandCount(|counts|), k requires 0 <= k < BandCount(|counts|) => PedidoBand(counts, k))
  }

  /** Every card of a band gets a row per product. */
  lemma BandFitsCards(counts: seq<nat>, k: nat)
    requires 2 * k < |counts|
    ensures PedidoBand(counts, k).rows >= 5 + counts[2 * k]
    ensures 2 * k + 1 < |counts| ==> PedidoBand(counts, k).rows >= 5 + counts[2 * k + 1]
  {
  }

  const EtiquetaRowHeights: seq<int> := [18, 32, 28, 24, 22, 22, 8, 8]
  const EtiquetaCardRows: nat := 8

  /** A label band: eight rows of fixed heights. */
  function EtiquetaBand(): Band {
    Band(Total(EtiquetaRowHeights), EtiquetaCardRows)
  }

  /** A label band is 162 points high. */
  lemma EtiquetaHeight()
    ensures EtiquetaBand().height == 162
  {
    var h := EtiquetaRowHeights;
    assert h[1..][1..][1..][1..][1..][1..][1..][1..] == [];
  }

  /** The label bands: one per pair of labels. */
  function EtiquetaBands(n: nat): (r: seq<Band>)
    ensures |r| == BandCount(n)
  {
    seq(BandCount(n), k => EtiquetaBand())
  }

  /** After `k` label bands: `8k` rows, and the current page holds the bands since the last break. */
  lemma {:induction false} EtiquetaRun(n: nat, k: nat)
    requires 0 < k <= BandCount(n)
    ensures Run(EtiquetaBands(n)[..k]) == Cursor(8 * k, 162 * ((k - 1) % 5 + 1))
  {
    var bands := EtiquetaBands(n);
    EtiquetaHeight();
    if k > 1 {
      EtiquetaRun(n, k - 1);
      assert DropLast(bands[..k]) == bands[..k - 1];
    } else {
      assert DropLast(bands[..k]) == [];
    }
  }

  /** Five label bands fill a page: a break comes before every fifth band after the first page. */
  lemma EtiquetaBreaks(n: nat, k: nat)
    requires k < BandCount(n)
    ensures BreaksBefore(Run(EtiquetaBands(n)[..k]), EtiquetaBands(n)[k]) <==> k > 0 && k % 5 == 0
  {
    EtiquetaHeight();
    if k > 0 {
      EtiquetaRun(n, k);
    } else {
      assert EtiquetaBands(n)[..k] == [];
    }
  }

  // ------------------------------------------------------------- card text

  /**
   * The name line of a pickup card: the full name, followed by the user
   * name in parentheses when there is one; with no full name, the user name
   * alone, or nothing.
   */
  function NombreTexto(nombreApellido: Option<string>, usuario: Option<string>): (r: string)
    ensures nombreApellido.Some? && !IsBlank(nombreApellido.value) ==> StartsWith(r, nombreApellido.value)
    ensures IsBlank(r) <==> IsBlank(nombreApellido.GetOr("")) && IsBlank(usuario.GetOr(""))
    ensures nombreApellido.Some? && !IsBlank(nombreApellido.value) && usuario.Some? && !IsBlank(usuario.value) ==>
      var n, u := nombreApellido.value, usuario.value;
      |r| == |n| + |u| + 4 && r[..|n|] == n && r[|n|..|n| + 3] == "  (" && r[|n| + 3..|r| - 1] == u && Last(r) == ')'
    ensures nombreApellido.Some? && !IsBlank(nombreApellido.value) && (usuario.None? || IsBlank(usuario.value)) ==>
      r == nombreApellido.value
    ensures nombreApellido.None? || IsBlank(nombreApellido.value) ==> r == usuario.GetOr("")
  {
    if nombreApellido.Some? && !IsBlank(nombreApellido.value) then
      var n := nombreApellido.value;
      var i :| 0 <= i < |n| && !IsWhitespace(n[i]);
      if usuario.Some? && !IsBlank(usuario.value) then
        var r := n + "  (" + usuario.value + ")";
        assert r[..|n|] == n && r[i] == n[i];
        r
      else n
    else usuario.GetOr("")
  }

  // ------------------------------------------------------------ product rows

  /** A product row of a card: a product, highlighted when more than one unit, or blank. */
  datatype ProductRow = Filled(line: ProductLine, highlight: bool) | Blank

  /** The card's `slots` product rows: the products in order, then blank rows. */
  function ProductRows(productos: seq<ProductLine>, slots: nat): (r: seq<ProductRow>)
    ensures |r| == slots
  {
    seq(slots, i requires 0 <= i < slots =>
      if i < |productos| then Filled(productos[i], productos[i].cantidad > 1.0) else Blank)
  }

  /** The products the rows show, blanks dropped. */
  function Shown(rows: seq<ProductRow>): seq<ProductLine> {
    if |rows| == 0 then []
    else Shown(DropLast(rows)) + (if Last(rows).Filled? then [Last(rows).line] else [])
  }

  /**
   * With enough slots every product is shown once, in order, highlighted
   * exactly when it has more than one unit, and the remaining rows are blank.
   */
  lemma {:induction false} ProductRowsShowAll(productos: seq<ProductLine>, slots: nat)
    requires slots >= |productos|
    ensures Shown(ProductRows(productos, slots)) == productos
    ensures forall i :: 0 <= i < slots ==>
      (ProductRows(productos, slots)[i].Filled? <==> i < |productos|)
    ensures forall i :: 0 <= i < |productos| ==>
      (ProductRows(productos, slots)[i].highlight <==> productos[i].cantidad > 1.0)
  {
    ShownPrefix(productos, slots, slots);
    assert ProductRows(productos, slots)[..slots] == ProductRows(productos, slots);
  }

  /** The first `n` rows show the first `n` products (or all of them). */
  lemma {:induction false} ShownPrefix(productos: seq<ProductLine>, slots: nat, n: nat)
    requires n <= slots
    ensures Shown(ProductRows(productos, slots)[..n]) == productos[..if n < |productos| then n else |productos|]
  {
    var rows := ProductRows(productos, slots);
    if n > 0 {
      ShownPrefix(productos, slots, n - 1);
      assert DropLast(rows[..n]) == rows[..n - 1];
      if n - 1 < |productos| {
        assert productos[..n] == productos[..n - 1] + [productos[n - 1]];
      }
    }
  }
}

=== FILE: pick_list.dfy ===
/**
 * The pick list: each per-SKU total joined with the stock catalog, then
 * stably sorted by unit, supplier, sub-category and description.
 */
module PickList {
  import opened Wrappers
  import opened Text
  import opened Seqs
  import opened Skus
  import opened Domain
  import opened Demand
  import opened Ordering
  import opened StableSort

  /** One line of the pick list (`PickitItem`). */
  datatype PickItem = PickItem(
    codigo: string,
    cantidad: real,
    descripcion: Option<string>,
    proveedor: Option<string>,
    unidad: Option<string>,
    stock: int,
    subRubro: Option<string>)

  /** A line with empty text cells and no stock. */
  function Unresolved(codigo: string, cantidad: real, descripcion: string): PickItem {
    PickItem(codigo, cantidad, Some(descripcion), Some(""), Some(""), 0, Some(""))
  }

  /**
   * The pick-list line of one per-SKU total. A missing-SKU tag shows the bare
   * marker with the tag's payload as description; any other error tag, and a
   * SKU the catalog lacks, shows empty cells and no stock; a catalog hit
   * copies the catalog row. The line is kept whatever the stock.
   */
  function ResolveOne(t: SkuTotal, catalog: Catalog): (r: PickItem)
    ensures r.cantidad == t.amount
    ensures r.codigo == (if StartsWith(t.sku, TagOf(MissingSku)) then SinSku else t.sku)
    ensures IsErrorSku(t.sku) || t.sku !in catalog ==>
      r.stock == 0 && r.proveedor == Some("") && r.unidad == Some("") && r.subRubro == Some("")
    ensures StartsWith(t.sku, TagOf(MissingSku)) ==> r.descripcion == Some(Payload(t.sku, MissingSku))
    ensures !StartsWith(t.sku, TagOf(MissingSku)) && (IsErrorSku(t.sku) || t.sku !in catalog) ==>
      r.descripcion == Some("")
    ensures !IsErrorSku(t.sku) && t.sku in catalog ==>
      var p := catalog[t.sku];
      r.descripcion == p.producto && r.proveedor == p.proveedor && r.unidad == p.unidad
        && r.subRubro == p.subRubro && r.stock == p.stock
  {
    var tag := TagOf(MissingSku);
    if StartsWith(t.sku, tag) then
      assert t.sku[..8] == "SIN SKU:";
      Unresolved(SinSku, t.amount, t.sku[|tag|..])
    else if IsErrorSku(t.sku) then Unresolved(t.sku, t.amount, "")
    else if t.sku in catalog then
      var p := catalog[t.sku];
      PickItem(t.sku, t.amount, p.producto, p.proveedor, p.unidad, p.stock, p.subRubro)
    else Unresolved(t.sku, t.amount, "")
  }

  /** A missing-SKU tag resolves to the bare marker described by the tag's payload. */
  lemma ResolveMissingSku(title: string, q: real, catalog: Catalog)
    ensures ResolveOne(SkuTotal(Tag(MissingSku, title), q), catalog)
      == Unresolved(SinSku, q, title)
  {
    var s := Tag(MissingSku, title);
    assert s[..|TagOf(MissingSku)|] == TagOf(MissingSku);
    assert s[|TagOf(MissingSku)|..] == title;
  }

  /** One line per total, in the same order. */
  function Resolve(totals: seq<SkuTotal>, catalog: Catalog): (r: seq<PickItem>)
    ensures |r| == |totals|
    ensures forall i :: 0 <= i < |r| ==> r[i] == ResolveOne(totals[i], catalog)
  {
    seq(|totals|, i requires 0 <= i < |totals| => ResolveOne(totals[i], catalog))
  }

  function Cantidad(i: PickItem): real {
    i.cantidad
  }

  /** Resolution keeps every quantity: the lines add up to the totals. */
  lemma {:induction false} ResolveSum(totals: seq<SkuTotal>, catalog: Catalog)
    ensures Sum(Resolve(totals, catalog), Cantidad) == Sum(totals, Amount)
  {
    if |totals| > 0 {
      ResolveSum(DropLast(totals), catalog);
      assert DropLast(Resolve(totals, catalog)) == Resolve(DropLast(totals), catalog);
    }
  }

  /** The sort key: unit, supplier, sub-category, description, a missing cell read as "". */
  function PickKey(i: PickItem): Key {
    [Str(i.unidad.GetOr("")), Str(i.proveedor.GetOr("")), Str(i.subRubro.GetOr("")), Str(i.descripcion.GetOr(""))]
  }

  /** The sorted pick list: ordered by key, a permutation, and stable. */
  function SortPickList(items: seq<PickItem>): (r: seq<PickItem>)
    ensures Sorted(r, PickKey)
    ensures multiset(r) == multiset(items)
  {
    Sort(items, PickKey)
  }

  /** Lines with equal keys keep their relative order. */
  lemma PickListStable(items: seq<PickItem>, k: Key)
    ensures WithKey(SortPickList(items), PickKey, k) == WithKey(items, PickKey, k)
  {
    SortStable(items, PickKey, k);
  }

  /** A key comparison that is not "after" is not "after" on the first atom either. */
  lemma FirstAtomOrdered(a: Key, b: Key)
    requires |a| > 0 && |b| > 0 && CompareKeys(a, b) <= 0
    ensures CompareAtoms(a[0], b[0]) <= 0
  {
  }

  /** In the sorted list the units never decrease: lines of one unit are contiguous. */
  lemma UnitsAscend(items: seq<PickItem>, i: nat, j: nat)
    requires i <= j < |SortPickList(items)|
    ensures CompareStrings(SortPickList(items)[i].unidad.GetOr(""), SortPickList(items)[j].unidad.GetOr("")) <= 0
  {
    var r := SortPickList(items);
    if i < j {
      FirstAtomOrdered(PickKey(r[i]), PickKey(r[j]));
    } else {
      StringsEqual(r[i].unidad.GetOr(""), r[j].unidad.GetOr(""));
    }
  }
}

=== FILE: pickit.dfy ===
/**
 * `generarPickit` after the concurrent fetch: the whole pick-list pipeline
 * from the merged sales and MercadoLibre orders to the pick list, the carts
 * and the SLA summary.
 *
 * The fetched sales, the orders, the SLA map of their shipments, the cutoff
 * instant and both catalogs are inputs; fetching them is not modelled.
 */
module Pickit {
  import opened Wrappers
  import opened Seqs
  import opened Domain
  import opened StableSort
  import opened CartLabels
  import opened SlaFilter
  import opened Demand
  import opened PickList
  import opened Carts

  /** The manually entered products, as sales of origin `MANUAL`. */
  function ManualSales(manual: seq<ManualProduct>): (r: seq<Sale>)
    ensures |r| == |manual|
    ensures forall i :: 0 <= i < |r| ==>
      && r[i].id == Manual(i) && r[i].origin == "MANUAL"
      && r[i].sku == manual[i].sku && r[i].quantity == manual[i].quantity
  {
    seq(|manual|, i requires 0 <= i < |manual| => Sale(Manual(i), manual[i].sku, manual[i].quantity, "MANUAL", ""))
  }

  datatype PickitOutput = PickitOutput(pickList: seq<PickItem>, carts: seq<CartOrder>, slaOrdenes: seq<SlaOrden>)

  /** The run stops when there is nothing to pick at all. */
  datatype PickitError = NoSales

  /** The sales and orders after the SLA filter and SKU cleaning. */
  function Prepare(fetched: seq<Sale>, orders: seq<Order>, manual: seq<ManualProduct>,
                   sla: SlaMap, soloHoy: bool, cutoff: int): Survivors
  {
    var kept := ApplySlaFilter(fetched + ManualSales(manual), orders, sla, soloHoy, cutoff);
    Survivors(CleanSales(kept.sales), CleanOrders(kept.orders))
  }

  /** The pick list of a set of cleaned sales. */
  function PickListOf(sales: seq<Sale>, combos: Combos, catalog: Catalog): seq<PickItem> {
    SortPickList(Resolve(Totals(Expand(sales, combos)), catalog))
  }

  /**
   * The pipeline: manual products are appended to the fetched sales; with no
   * sales at all the run fails; otherwise the SLA filter, cleaning,
   * expansion, per-SKU totals, stock join and sort give the pick list, and
   * the surviving orders give the carts and the SLA summary.
   */
  function GenerarPickit(fetched: seq<Sale>, orders: seq<Order>, manual: seq<ManualProduct>,
                         sla: SlaMap, soloHoy: bool, cutoff: int, combos: Combos, catalog: Catalog)
    : (r: Result<PickitOutput, PickitError>)
    ensures r.Failure? <==> |fetched| == 0 && |manual| == 0
    ensures r.Success? ==> Sorted(r.value.pickList, PickKey)
    ensures r.Success? ==> forall i :: 0 <= i < |r.value.carts| ==> r.value.carts[i].letter == CartLabel(i)
    ensures r.Success? ==> Sorted(r.value.slaOrdenes, SlaKey)
  {
    if |fetched| + |manual| == 0 then Failure(NoSales)
    else
      var prepared := Prepare(fetched, orders, manual, sla, soloHoy, cutoff);
      Success(PickitOutput(
        PickListOf(prepared.sales, combos, catalog),
        CartList(prepared.orders, combos, catalog),
        SlaOrdenes(prepared.orders, sla)))
  }

  /**
   * In same-day mode the filter removes exactly the sales that are items of
   * an order in an excluded group, and never a manually entered product,
   * when the fetched sales are distinct objects that include every order
   * item.
   */
  lemma FilteredSales(fetched: seq<Sale>, orders: seq<Order>, manual: seq<ManualProduct>,
                      sla: SlaMap, cutoff: int, k: nat)
    requires |sla| > 0 && k < |fetched| + |manual|
    requires DistinctIds(fetched) && ItemsAmong(orders, fetched)
    requires forall i :: 0 <= i < |fetched| ==> !fetched[i].id.Manual?
    ensures var all := fetched + ManualSales(manual);
      all[k] in ApplySlaFilter(all, orders, sla, true, cutoff).sales <==> !InExcludedOrder(all[k], orders, sla, cutoff)
    ensures var all := fetched + ManualSales(manual);
      k >= |fetched| ==> all[k] in ApplySlaFilter(all, orders, sla, true, cutoff).sales
  {
    var all := fetched + ManualSales(manual);
    assert DistinctIds(all) by {
      forall i, j | 0 <= i < j < |all|
        ensures all[i].id != all[j].id
      {
        if j < |fetched| {
          assert all[i] == fetched[i] && all[j] == fetched[j];
        } else if i >= |fetched| {
          assert all[i].id == Manual(i - |fetched|) && all[j].id == Manual(j - |fetched|);
        } else {
          assert all[i] == fetched[i] && all[j].id.Manual?;
        }
      }
    }
    assert ItemsAmong(orders, all) by {
      forall i, j | 0 <= i < |orders| && 0 <= j < |orders[i].items|
        ensures orders[i].items[j] in all
      {
        var m :| 0 <= m < |fetched| && fetched[m] == orders[i].items[j];
        assert all[m] == fetched[m];
      }
    }
    AmongShared(orders, all);
    SaleFate(all, orders, sla, cutoff, k);
    if InExcludedOrder(all[k], orders, sla, cutoff) {
      var i :| 0 <= i < |orders| && all[k] in orders[i].items
        && GroupExcluded(VentaGroup(orders, orders[i].VentaId()), sla, cutoff);
      var j :| 0 <= j < |orders[i].items| && orders[i].items[j] == all[k];
      var m :| 0 <= m < |fetched| && fetched[m] == orders[i].items[j];
      assert !all[k].id.Manual?;
    }
  }

  /**
   * The pick list accounts for every unit of demand: its quantities add up
   * to the cleaned sales' quantities, each weighted by the sum of its
   * combo's multipliers.
   */
  lemma PickListTotal(sales: seq<Sale>, combos: Combos, catalog: Catalog)
    ensures Sum(PickListOf(sales, combos, catalog), Cantidad) == WeightedTotal(sales, combos)
  {
    var expanded := Expand(sales, combos);
    var resolved := Resolve(Totals(expanded), catalog);
    ExpandTotal(sales, combos);
    TotalsPreserveSum(expanded);
    ResolveSum(Totals(expanded), catalog);
    SumPermutation(SortPickList(resolved), resolved, Cantidad);
  }
}

=== FILE: pickit_report.dfy ===
/**
 * The layout rules of the pick-list workbook: the separator rows between
 * units, the style of a line, the stock-shortfall flag, how a quantity is
 * written to a cell, and the row blocks of the cart sheet.
 *
 * The sheet itself (fonts, colours, borders, print set-up) is not modelled;
 * a row is the data it shows and the style class it gets.
 */
module PickitReport {
  import opened Wrappers
  import opened Text
  import opened Seqs
  import opened Numeric
  import opened Skus
  import opened PickList
  import opened Carts

  // -------------------------------------------------------------- unit prefix

  /**
   * The unit prefix that decides where a separator goes: the first two
   * characters upper-cased (the whole unit when shorter), "" for a missing
   * or empty unit. Characters are code points here, where the source counts
   * UTF-16 code units.
   */
  function UnidadPrefix(unidad: Option<string>): (r: string)
    ensures unidad.None? || unidad.value == "" ==> r == ""
    ensures unidad.Some? ==> |r| == if |unidad.value| >= 2 then 2 else |unidad.value|
    ensures forall i :: 0 <= i < |r| ==> r[i] == ToUpperChar(unidad.value[i])
  {
    if unidad.None? || unidad.value == "" then ""
    else if |unidad.value| >= 2 then ToUpper(unidad.value[..2])
    else ToUpper(unidad.value)
  }

  /** Upper-casing an upper-cased character changes nothing. */
  lemma ToUpperCharIdempotent(c: char)
    ensures ToUpperChar(ToUpperChar(c)) == ToUpperChar(c)
  {
  }

  /** A prefix is its own prefix: the prefix of a prefix is the same. */
  lemma UnidadPrefixIdempotent(unidad: Option<string>)
    ensures UnidadPrefix(Some(UnidadPrefix(unidad))) == UnidadPrefix(unidad)
  {
    var r := UnidadPrefix(unidad);
    var r2 := UnidadPrefix(Some(r));
    forall i | 0 <= i < |r2|
      ensures r2[i] == r[i]
    {
      ToUpperCharIdempotent(unidad.value[i]);
    }
  }

  /** Units that agree, up to case, on their first two characters share a prefix. */
  lemma UnidadPrefixFirstTwo(a: string, b: string)
    requires |a| >= 2 && |b| >= 2
    requires ToUpperChar(a[0]) == ToUpperChar(b[0]) && ToUpperChar(a[1]) == ToUpperChar(b[1])
    ensures UnidadPrefix(Some(a)) == UnidadPrefix(Some(b))
  {
    var ra, rb := UnidadPrefix(Some(a)), UnidadPrefix(Some(b));
    assert ra[0] == rb[0] && ra[1] == rb[1];
  }

  // ------------------------------------------------------------- separators

  /** A row of the pick-list table: a separator, or one line of the list. */
  datatype SheetRow = Separator | ItemLine(item: PickItem)

  function Prefix(i: PickItem): string {
    UnidadPrefix(i.unidad)
  }

  /**
   * The table rows of the sorted pick list: each line in turn, preceded by
   * a separator when its unit prefix differs from the previous line's.
   */
  function SheetRows(items: seq<PickItem>): (r: seq<SheetRow>)
    ensures |items| == 0 <==> |r| == 0
    ensures |items| > 0 ==> Last(r) == ItemLine(Last(items))
  {
    if |items| == 0 then []
    else
      var sep := |items| > 1 && Prefix(items[|items| - 2]) != Prefix(Last(items));
      SheetRows(DropLast(items)) + (if sep then [Separator] else []) + [ItemLine(Last(items))]
  }

  /** The lines the rows show, separators dropped. */
  function LinesOf(rows: seq<SheetRow>): seq<PickItem> {
    if |rows| == 0 then []
    else LinesOf(DropLast(rows)) + (if Last(rows).ItemLine? then [Last(rows).item] else [])
  }

  /** Every separator sits between two lines of different prefixes: never first, never last. */
  ghost predicate SeparatorsBetween(rows: seq<SheetRow>) {
    forall p :: 0 <= p < |rows| && rows[p].Separator? ==>
      0 < p < |rows| - 1 && rows[p - 1].ItemLine? && rows[p + 1].ItemLine?
      && Prefix(rows[p - 1].item) != Prefix(rows[p + 1].item)
  }

  /** Two adjacent lines share their prefix: no separator is missing. */
  ghost predicate AdjacentSamePrefix(rows: seq<SheetRow>) {
    forall p :: 0 < p < |rows| && rows[p - 1].ItemLine? && rows[p].ItemLine? ==>
      Prefix(rows[p - 1].item) == Prefix(rows[p].item)
  }

  /** Separators sit exactly between two lines of different prefixes. */
  ghost predicate WellSeparated(rows: seq<SheetRow>) {
    SeparatorsBetween(rows) && AdjacentSamePrefix(rows)
  }

  lemma LinesOfAppend(rows: seq<SheetRow>, extra: seq<SheetRow>)
    ensures LinesOf(rows + extra) == LinesOf(rows) + LinesOf(extra)
    decreases |extra|
  {
    if |extra| > 0 {
      assert DropLast(rows + extra) == rows + DropLast(extra);
      LinesOfAppend(rows, DropLast(extra));
    } else {
      assert rows + extra == rows;
    }
  }

  /** Dropping the separators gives back the pick list, line for line. */
  lemma {:induction false} SheetRowsKeepLines(items: seq<PickItem>)
    ensures LinesOf(SheetRows(items)) == items
  {
    if |items| > 0 {
      var prev, x := SheetRows(DropLast(items)), Last(items);
      SheetRowsShape(items);
      SheetRowsKeepLines(DropLast(items));
      var rows := SheetRows(items);
      if |items| > 1 && Prefix(items[|items| - 2]) != Prefix(x) {
        assert DropLast(rows) == prev + [Separator];
        assert DropLast(prev + [Separator]) == prev;
      } else {
        assert DropLast(rows) == prev;
      }
      assert items == DropLast(items) + [x];
    }
  }

  /** The rows before the last line end with the previous line. */
  lemma SheetRowsPrev(items: seq<PickItem>)
    requires |items| > 1
    ensures Last(SheetRows(DropLast(items))) == ItemLine(items[|items| - 2])
  {
    assert Last(DropLast(items)) == items[|items| - 2];
  }

  /** The rows of a list: those of all but its last line, an optional separator, its last line. */
  lemma SheetRowsShape(items: seq<PickItem>)
    requires |items| > 0
    ensures var prev, x := SheetRows(DropLast(items)), Last(items);
      && (|items| > 1 ==> Last(prev) == ItemLine(items[|items| - 2]))
      && (|items| > 1 && Prefix(items[|items| - 2]) != Prefix(x) ==> SheetRows(items) == prev + [Separator, ItemLine(x)])
      && (|items| == 1 || Prefix(items[|items| - 2]) == Prefix(x) ==> SheetRows(items) == prev + [ItemLine(x)])
  {
    if |items| > 1 {
      SheetRowsPrev(items);
    }
  }

  /** Appending a line of the same prefix keeps every separator in place. */
  lemma SeparatorsAfterLine(prev: seq<SheetRow>, x: PickItem, rows: seq<SheetRow>)
    requires rows == prev + [ItemLine(x)] && SeparatorsBetween(prev)
    ensures SeparatorsBetween(rows)
  {
    forall p | 0 <= p < |rows| && rows[p].Separator?
      ensures 0 < p < |rows| - 1 && rows[p - 1].ItemLine? && rows[p + 1].ItemLine?
        && Prefix(rows[p - 1].item) != Prefix(rows[p + 1].item)
    {
      assert p < |prev|;
      assert rows[p] == prev[p] && rows[p - 1] == prev[p - 1] && rows[p + 1] == prev[p + 1];
    }
  }

  /** Appending a separator and a line of another prefix puts the separator between them. */
  lemma SeparatorsAfterSeparator(prev: seq<SheetRow>, x: PickItem, rows: seq<SheetRow>)
    requires rows == prev + [Separator, ItemLine(x)] && SeparatorsBetween(prev)
    requires |prev| > 0 && Last(prev).ItemLine? && Prefix(Last(prev).item) != Prefix(x)
    ensures SeparatorsBetween(rows)
  {
    forall p | 0 <= p < |rows| && rows[p].Separator?
      ensures 0 < p < |rows| - 1 && rows[p - 1].ItemLine? && rows[p + 1].ItemLine?
        && Prefix(rows[p - 1].item) != Prefix(rows[p + 1].item)
    {
      if p < |prev| {
        assert rows[p] == prev[p] && rows[p - 1] == prev[p - 1] && rows[p + 1] == prev[p + 1];
      } else {
        assert p == |prev|;
        assert rows[p - 1] == Last(prev) && rows[p + 1] == ItemLine(x);
      }
    }
  }

  /** Appending a line right after one of the same prefix keeps neighbours agreeing. */
  lemma AdjacentAfterLine(prev: seq<SheetRow>, x: PickItem, rows: seq<SheetRow>)
    requires rows == prev + [ItemLine(x)] && AdjacentSamePrefix(prev)
    requires |prev| > 0 ==> Last(prev).ItemLine? && Prefix(Last(prev).item) == Prefix(x)
    ensures AdjacentSamePrefix(rows)
  {
    forall p | 0 < p < |rows| && rows[p - 1].ItemLine? && rows[p].ItemLine?
      ensures Prefix(rows[p - 1].item) == Prefix(rows[p].item)
    {
      if p < |prev| {
        assert rows[p - 1] == prev[p - 1] && rows[p] == prev[p];
      } else {
        assert rows[p - 1] == Last(prev) && rows[p] == ItemLine(x);
      }
    }
  }

  /** A separator between the old rows and the new line leaves no new neighbours. */
  lemma AdjacentAfterSeparator(prev: seq<SheetRow>, x: PickItem, rows: seq<SheetRow>)
    requires rows == prev + [Separator, ItemLine(x)] && AdjacentSamePrefix(prev)
    ensures AdjacentSamePrefix(rows)
  {
    forall p | 0 < p < |rows| && rows[p - 1].ItemLine? && rows[p].ItemLine?
      ensures Prefix(rows[p - 1].item) == Prefix(rows[p].item)
    {
      assert p < |prev|;
      assert rows[p - 1] == prev[p - 1] && rows[p] == prev[p];
    }
  }

  /** One more line keeps the rows well separated. */
  lemma SheetRowsStep(items: seq<PickItem>)
    requires |items| > 0 && WellSeparated(SheetRows(DropLast(items)))
    ensures WellSeparated(SheetRows(items))
  {
    var prev, rows, x := SheetRows(DropLast(items)), SheetRows(items), Last(items);
    SheetRowsShape(items);
    if |items| > 1 && Prefix(items[|items| - 2]) != Prefix(x) {
      SeparatorsAfterSeparator(prev, x, rows);
      AdjacentAfterSeparator(prev, x, rows);
    } else {
      SeparatorsAfterLine(prev, x, rows);
      AdjacentAfterLine(prev, x, rows);
    }
  }

  /** The rows of every pick list are well separated. */
  lemma {:induction false} SheetRowsSeparated(items: seq<PickItem>)
    ensures WellSeparated(SheetRows(items))
  {
    if |items| > 0 {
      SheetRowsSeparated(DropLast(items));
      SheetRowsStep(items);
    }
  }

  // ----------------------------------------------------------------- styles

  /** The style class of a line, most severe first. */
  datatype Style = ErrorStyle | WarningStyle | Highlight | Normal

  function Rank(s: Style): nat {
    match s
    case ErrorStyle => 3
    case WarningStyle => 2
    case Highlight => 1
    case Normal => 0
  }

  /**
   * The style chosen for a line, from its SKU, its description, the field
   * whose absence warns (the unit on the pick list, the sector on the cart
   * sheet) and its quantity.
   */
  function LineStyle(sku: string, descripcion: Option<string>, warnField: Option<string>, cantidad: real)
    : (r: Style)
  {
    if IsErrorSku(sku) then ErrorStyle
    else if IsBlank(descripcion.GetOr("")) || IsBlank(warnField.GetOr("")) then WarningStyle
    else if cantidad > 1.0 then Highlight
    else Normal
  }

  /** Which styles a line qualifies for, each on its own. */
  predicate Applies(s: Style, sku: string, descripcion: Option<string>, warnField: Option<string>, cantidad: real) {
    match s
    case ErrorStyle => IsErrorSku(sku)
    case WarningStyle => IsBlank(descripcion.GetOr("")) || IsBlank(warnField.GetOr(""))
    case Highlight => cantidad > 1.0
    case Normal => true
  }

  /** The chosen style is the most severe one the line qualifies for. */
  lemma StylePrecedence(sku: string, descripcion: Option<string>, warnField: Option<string>, cantidad: real)
    ensures Applies(LineStyle(sku, descripcion, warnField, cantidad), sku, descripcion, warnField, cantidad)
    ensures forall s :: Applies(s, sku, descripcion, warnField, cantidad) ==>
      Rank(s) <= Rank(LineStyle(sku, descripcion, warnField, cantidad))
  {
  }

  /** The style of a pick-list line: the unit is the field whose absence warns. */
  function PickStyle(i: PickItem): Style {
    LineStyle(i.codigo, i.descripcion, i.unidad, i.cantidad)
  }

  /** The style of a cart line: the sector is the field whose absence warns. */
  function CartStyle(i: CartItem): Style {
    LineStyle(i.sku, i.description, i.sector, i.quantity)
  }

  /**
   * The stock cell is flagged only on a line that is neither an error nor a
   * warning and whose stock is below the quantity: a line with a good SKU,
   * a description and a unit that lacks stock. Enough stock is never flagged.
   */
  predicate StockShort(i: PickItem)
    ensures StockShort(i) <==>
      !IsErrorSku(i.codigo) && !IsBlank(i.descripcion.GetOr("")) && !IsBlank(i.unidad.GetOr(""))
      && (i.stock as real) < i.cantidad
  {
    var s := PickStyle(i);
    s != ErrorStyle && s != WarningStyle && (i.stock as real) < i.cantidad
  }

  /** A line the catalog did not resolve is never flagged: its unit cell is empty. */
  lemma UnresolvedNotShort(codigo: string, cantidad: real, descripcion: string)
    ensures !StockShort(Unresolved(codigo, cantidad, descripcion))
  {
  }

  // --------------------------------------------------------- numeric cells

  /** A numeric cell: an `int` value or a double value. */
  datatype NumCell = IntCell(n: int) | RealCell(x: real)

  function CellValue(c: NumCell): real {
    match c
    case IntCell(n) => n as real
    case RealCell(x) => x
  }

  predicate IsWhole(x: real) {
    x == x.Floor as real
  }

  /** A quantity is written as an `int` when it is whole, else as it is. */
  function QuantityCell(x: real): (r: NumCell)
    ensures r.IntCell? <==> IsWhole(x)
  {
    if IsWhole(x) then IntCell(IntCast(x)) else RealCell(x)
  }

  /**
   * The cell shows the quantity itself whenever a whole quantity fits an
   * `int`; a larger whole quantity is clamped by the cast.
   */
  lemma QuantityCellValue(x: real)
    ensures !IsWhole(x) ==> CellValue(QuantityCell(x)) == x
    ensures IsWhole(x) && InIntRange(x.Floor) ==> CellValue(QuantityCell(x)) == x
    ensures IsWhole(x) && x.Floor > IntMax ==> CellValue(QuantityCell(x)) == IntMax as real
  {
    if IsWhole(x) {
      assert Truncate(x) == x.Floor;
    }
  }

  // ------------------------------------------------------------- cart sheet

  /** A row of the cart sheet: a cart's header row, or one of its lines. */
  datatype CartRow = CartHeader(venta: int, letter: string) | CartLine(venta: int, item: CartItem, style: Style)

  /** The rows of one cart: its header, then its lines. */
  function CartBlock(c: CartOrder): (r: seq<CartRow>)
    ensures |r| == 1 + |c.items|
  {
    [CartHeader(c.ventaId, c.letter)]
      + seq(|c.items|, i requires 0 <= i < |c.items| => CartLine(c.ventaId, c.items[i], CartStyle(c.items[i])))
  }

  /** The sheet rows below the two title rows and the first sheet row of each block. */
  datatype Range = Range(first: int, last: int)

  /** The first sheet row of the carts' blocks, as written. */
  const FirstDataRow: int := 2

  /** The rows of the carts' blocks, one block after the other. */
  function Blocks(carts: seq<CartOrder>): seq<CartRow> {
    if |carts| == 0 then [] else Blocks(DropLast(carts)) + CartBlock(Last(carts))
  }

  /** The sheet rows of the `k`-th block. */
  function BlockRange(carts: seq<CartOrder>, k: nat): Range
    requires k < |carts|
  {
    Range(FirstDataRow + |Blocks(carts[..k])|, FirstDataRow + |Blocks(carts[..k + 1])| - 1)
  }

  /** A block takes one row for the header and one per line. */
  lemma BlockSize(carts: seq<CartOrder>, k: nat)
    requires k < |carts|
    ensures |Blocks(carts[..k + 1])| == |Blocks(carts[..k])| + 1 + |carts[k].items|
  {
    assert DropLast(carts[..k + 1]) == carts[..k];
  }

  /** The blocks of a prefix are a prefix of the blocks. */
  lemma {:induction false} BlocksPrefix(carts: seq<CartOrder>, k: nat)
    requires k <= |carts|
    ensures |Blocks(carts[..k])| <= |Blocks(carts)|
    ensures Blocks(carts)[..|Blocks(carts[..k])|] == Blocks(carts[..k])
    decreases |carts| - k
  {
    if k < |carts| {
      BlocksPrefix(carts, k + 1);
      assert DropLast(carts[..k + 1]) == carts[..k];
      var a, c := Blocks(carts[..k]), CartBlock(carts[k]);
      assert Blocks(carts[..k + 1]) == a + c;
      SliceAfterPrefix(Blocks(carts), a, c);
    } else {
      assert carts[..k] == carts;
    }
  }

  /** The `k`-th range holds exactly the `k`-th cart's block. */
  lemma BlockAt(carts: seq<CartOrder>, k: nat)
    requires k < |carts|
    ensures var r := BlockRange(carts, k);
      && FirstDataRow <= r.first <= r.last < FirstDataRow + |Blocks(carts)|
      && Blocks(carts)[r.first - FirstDataRow..r.last + 1 - FirstDataRow] == CartBlock(carts[k])
  {
    BlocksPrefix(carts, k + 1);
    BlockSize(carts, k);
    assert DropLast(carts[..k + 1]) == carts[..k];
    var a, c := Blocks(carts[..k]), CartBlock(carts[k]);
    assert Blocks(carts[..k + 1]) == a + c;
    SliceAfterPrefix(Blocks(carts), a, c);
    var r := BlockRange(carts, k);
    assert r.first - FirstDataRow == |a| && r.last + 1 - FirstDataRow == |a| + |c|;
  }

  /**
   * The cart-sheet loop: each cart writes its header and its lines, and its
   * block's first and last sheet rows are recorded for the borders.
   */
  method CartSheet(carts: seq<CartOrder>) returns (rows: seq<CartRow>, ranges: seq<Range>)
    ensures rows == Blocks(carts) && |ranges| == |carts|
    ensures forall k :: 0 <= k < |carts| ==> ranges[k] == BlockRange(carts, k)
  {
    rows := [];
    ranges := [];
    var rowIndex := FirstDataRow;
    var k := 0;
    while k < |carts|
      invariant 0 <= k <= |carts| && |ranges| == k
      invariant rows == Blocks(carts[..k]) && rowIndex == FirstDataRow + |rows|
      invariant forall j :: 0 <= j < k ==> ranges[j] == BlockRange(carts, j)
    {
      var block := CartBlock(carts[k]);
      var start := rowIndex;
      assert DropLast(carts[..k + 1]) == carts[..k];
      rows := rows + block;
      rowIndex := rowIndex + |block|;
      ranges := ranges + [Range(start, rowIndex - 1)];
      k := k + 1;
    }
    assert carts[..k] == carts;
  }

  /**
   * The blocks start right below the title rows, follow one another
   * without gaps, each spans its header and its lines, and the last ends
   * on the last row written.
   */
  lemma BlockRangesContiguous(carts: seq<CartOrder>)
    ensures |carts| > 0 ==> BlockRange(carts, 0).first == FirstDataRow
    ensures forall k :: 0 <= k < |carts| ==> BlockRange(carts, k).last == BlockRange(carts, k).first + |carts[k].items|
    ensures forall k :: 0 < k < |carts| ==> BlockRange(carts, k).first == BlockRange(carts, k - 1).last + 1
    ensures |carts| > 0 ==> BlockRange(carts, |carts| - 1).last == FirstDataRow + |Blocks(carts)| - 1
  {
    forall k | 0 <= k < |carts|
      ensures BlockRange(carts, k).last == BlockRange(carts, k).first + |carts[k].items|
    {
      BlockSize(carts, k);
    }
    if |carts| > 0 {
      assert carts[..0] == [];
      assert carts[..|carts|] == carts;
    }
  }

  /** Blocks never overlap: an earlier block ends before a later one starts. */
  lemma {:induction false} RangesDisjoint(ranges: seq<Range>, i: nat, j: nat)
    requires forall k :: 0 <= k < |ranges| ==> ranges[k].first <= ranges[k].last
    requires forall k :: 0 < k < |ranges| ==> ranges[k].first == ranges[k - 1].last + 1
    requires i < j < |ranges|
    ensures ranges[i].last < ranges[j].first
    decreases j - i
  {
    if i + 1 < j {
      RangesDisjoint(ranges, i, j - 1);
    }
  }
}

=== FILE: seqs.dfy ===
/**
 * List utilities shared by every stage: filtering, first-seen de-duplication
 * (the iteration order of Java's LinkedHashMap / LinkedHashSet), grouping
 * by a key in first-seen order, sums and concatenation of lists.
 *
 * Functions over a list recurse on its last element, mirroring the Java
 * loops that build their results with `add`.
 */
module Seqs {

  function Last<T>(s: seq<T>): T
    requires |s| > 0
  {
    s[|s| - 1]
  }

  function DropLast<T>(s: seq<T>): seq<T>
    requires |s| > 0
  {
    s[..|s| - 1]
  }

  /** The elements that satisfy `p`, in their original order. */
  function Filter<T>(s: seq<T>, p: T -> bool): (r: seq<T>)
    ensures |r| <= |s|
  {
    if |s| == 0 then [] else Filter(DropLast(s), p) + (if p(Last(s)) then [Last(s)] else [])
  }

  /** The filtered list holds exactly the elements that pass. */
  lemma {:induction false} FilterMembers<T>(s: seq<T>, p: T -> bool)
    ensures forall i :: 0 <= i < |Filter(s, p)| ==> Filter(s, p)[i] in s && p(Filter(s, p)[i])
    ensures forall i :: 0 <= i < |s| && p(s[i]) ==> s[i] in Filter(s, p)
  {
    if |s| > 0 {
      FilterMembers(DropLast(s), p);
      assert s == DropLast(s) + [Last(s)];
    }
  }

  /** Filtering distributes over concatenation. */
  lemma {:induction false} FilterAppend<T>(a: seq<T>, b: seq<T>, p: T -> bool)
    ensures Filter(a + b, p) == Filter(a, p) + Filter(b, p)
  {
    if |b| > 0 {
      assert DropLast(a + b) == a + DropLast(b);
      assert Last(a + b) == Last(b);
      FilterAppend(a, DropLast(b), p);
    } else {
      assert a + b == a;
    }
  }

  /** Filtering a list all of whose elements pass keeps it whole. */
  lemma {:induction false} FilterAll<T>(s: seq<T>, p: T -> bool)
    requires forall i :: 0 <= i < |s| ==> p(s[i])
    ensures Filter(s, p) == s
  {
    if |s| > 0 {
      FilterAll(DropLast(s), p);
    }
  }

  /** Filtering a list none of whose elements pass leaves nothing. */
  lemma {:induction false} FilterNone<T>(s: seq<T>, p: T -> bool)
    requires forall i :: 0 <= i < |s| ==> !p(s[i])
    ensures Filter(s, p) == []
  {
    if |s| > 0 {
      FilterNone(DropLast(s), p);
    }
  }

  /** `f` applied to every element. */
  function Map<T, U>(s: seq<T>, f: T -> U): (r: seq<U>)
    ensures |r| == |s|
    ensures forall i :: 0 <= i < |s| ==> r[i] == f(s[i])
  {
    seq(|s|, i requires 0 <= i < |s| => f(s[i]))
  }

  predicate NoDuplicates<T(==)>(s: seq<T>) {
    forall i, j :: 0 <= i < j < |s| ==> s[i] != s[j]
  }

  /** The position of the first occurrence of `x`. */
  function FirstIndex<T(==)>(s: seq<T>, x: T): (r: nat)
    requires x in s
    ensures r < |s| && s[r] == x && x !in s[..r]
  {
    if s[0] == x then 0
    else
      var k := FirstIndex(s[1..], x);
      assert s[..k + 1] == [s[0]] + s[1..][..k];
      k + 1
  }

  /** The first occurrence of `x` in `s` is also its first occurrence in `s + t`. */
  lemma FirstIndexAppend<T>(s: seq<T>, t: seq<T>, x: T)
    requires x in s
    ensures FirstIndex(s + t, x) == FirstIndex(s, x)
  {
    var i := FirstIndex(s, x);
    assert (s + t)[i] == x;
  }

  /**
   * The distinct elements in first-seen order: what a LinkedHashSet (or the
   * key set of a LinkedHashMap) holds after adding every element of `s`.
   */
  function Distinct<T(==)>(s: seq<T>): (r: seq<T>)
    ensures NoDuplicates(r)
    ensures forall i :: 0 <= i < |r| ==> r[i] in s
    ensures forall i :: 0 <= i < |s| ==> s[i] in r
  {
    if |s| == 0 then []
    else
      var d := Distinct(DropLast(s));
      if Last(s) in d then d else d + [Last(s)]
  }

  /** The keys of `Distinct` come out in the order of their first occurrence. */
  lemma {:induction false} DistinctFirstSeen<T>(s: seq<T>)
    ensures forall i, j :: 0 <= i < j < |Distinct(s)| ==>
      FirstIndex(s, Distinct(s)[i]) < FirstIndex(s, Distinct(s)[j])
  {
    if |s| > 0 {
      var p := DropLast(s);
      var x := Last(s);
      DistinctFirstSeen(p);
      var d := Distinct(p);
      assert s == p + [x];
      forall y | y in p
        ensures FirstIndex(s, y) == FirstIndex(p, y)
      {
        FirstIndexAppend(p, [x], y);
      }
      if x !in d {
        assert FirstIndex(s, x) == |p| by {
          assert s[|p|] == x;
        }
      }
    }
  }

  /** The elements of `s` whose key is `k`, in order: one group of a groupingBy. */
  function Group<T, K(==)>(s: seq<T>, key: T -> K, k: K): seq<T> {
    Filter(s, KeyIs(key, k))
  }

  /** The test "has key `k`". */
  function KeyIs<T, K(==)>(key: T -> K, k: K): T -> bool {
    x => key(x) == k
  }

  /** The group keys of `s` in first-seen order (LinkedHashMap insertion order). */
  function GroupKeys<T, K(==)>(s: seq<T>, key: T -> K): (r: seq<K>)
    ensures NoDuplicates(r)
    ensures forall j :: 0 <= j < |r| ==> r[j] in Map(s, key)
    ensures forall i :: 0 <= i < |s| ==> key(s[i]) in r
  {
    Distinct(Map(s, key))
  }

  /** Adding an element adds its key at the end, unless the key was already seen. */
  lemma GroupKeysSnoc<T, K>(s: seq<T>, x: T, key: T -> K)
    ensures GroupKeys(s + [x], key)
      == if key(x) in GroupKeys(s, key) then GroupKeys(s, key) else GroupKeys(s, key) + [key(x)]
  {
    assert DropLast(Map(s + [x], key)) == Map(s, key);
  }

  /** Adding an element extends its own group only. */
  lemma GroupSnoc<T, K>(s: seq<T>, x: T, key: T -> K, k: K)
    ensures Group(s + [x], key, k) == Group(s, key, k) + (if key(x) == k then [x] else [])
  {
    assert DropLast(s + [x]) == s;
  }

  /** A group is non-empty exactly when its key occurs. */
  lemma GroupNonEmpty<T, K>(s: seq<T>, key: T -> K, k: K)
    requires k in GroupKeys(s, key)
    ensures |Group(s, key, k)| > 0
  {
    var j :| 0 <= j < |GroupKeys(s, key)| && GroupKeys(s, key)[j] == k;
    var i :| 0 <= i < |s| && Map(s, key)[i] == k;
    FilterMembers(s, KeyIs(key, k));
    assert s[i] in Group(s, key, k);
  }

  /** The groups of the given keys, one after the other. */
  function GroupsOf<T, K(==)>(keys: seq<K>, s: seq<T>, key: T -> K): (r: seq<seq<T>>)
    ensures |r| == |keys|
    ensures forall g :: 0 <= g < |keys| ==> r[g] == Group(s, key, keys[g])
  {
    if |keys| == 0 then [] else GroupsOf(DropLast(keys), s, key) + [Group(s, key, Last(keys))]
  }

  /** The values of a groupingBy into a LinkedHashMap: the groups in first-seen key order. */
  function Groups<T, K(==)>(s: seq<T>, key: T -> K): seq<seq<T>> {
    GroupsOf(GroupKeys(s, key), s, key)
  }

  /** No group is empty. */
  lemma GroupsNonEmpty<T, K>(s: seq<T>, key: T -> K)
    ensures forall g :: 0 <= g < |Groups(s, key)| ==> |Groups(s, key)[g]| > 0
  {
    var keys := GroupKeys(s, key);
    forall g | 0 <= g < |keys|
      ensures |Group(s, key, keys[g])| > 0
    {
      GroupNonEmpty(s, key, keys[g]);
    }
  }

  /** The total size of the groups of the given keys. */
  function GroupSizes<T, K(==)>(keys: seq<K>, s: seq<T>, key: T -> K): nat {
    if |keys| == 0 then 0 else GroupSizes(DropLast(keys), s, key) + |Group(s, key, Last(keys))|
  }

  /** A new element adds one to the total exactly when its key is among the keys. */
  lemma {:induction false} GroupSizesSnoc<T, K>(keys: seq<K>, s: seq<T>, x: T, key: T -> K)
    requires NoDuplicates(keys)
    ensures GroupSizes(keys, s + [x], key) == GroupSizes(keys, s, key) + (if key(x) in keys then 1 else 0)
  {
    if |keys| > 0 {
      var init, k := DropLast(keys), Last(keys);
      assert keys == init + [k];
      GroupSizesSnoc(init, s, x, key);
      GroupSnoc(s, x, key, k);
      assert key(x) == k ==> key(x) !in init;
    }
  }

  /** Every element falls in exactly one group: the sizes add up to the length. */
  lemma {:induction false} GroupSizesTotal<T, K>(s: seq<T>, key: T -> K)
    ensures GroupSizes(GroupKeys(s, key), s, key) == |s|
  {
    if |s| > 0 {
      var p, x := DropLast(s), Last(s);
      var keys := GroupKeys(p, key);
      assert s == p + [x];
      GroupSizesTotal(p, key);
      GroupKeysSnoc(p, x, key);
      GroupSizesSnoc(keys, p, x, key);
      if key(x) !in keys {
        FilterNone(p, KeyIs(key, key(x)));
        GroupSnoc(p, x, key, key(x));
        assert DropLast(keys + [key(x)]) == keys;
      }
    }
  }

  /** The flattened groups are as long as the sizes say. */
  lemma {:induction false} GroupsOfLength<T, K>(keys: seq<K>, s: seq<T>, key: T -> K)
    ensures |Flatten(GroupsOf(keys, s, key))| == GroupSizes(keys, s, key)
  {
    if |keys| > 0 {
      GroupsOfLength(DropLast(keys), s, key);
      assert DropLast(GroupsOf(keys, s, key)) == GroupsOf(DropLast(keys), s, key);
    }
  }

  /** Grouping loses and duplicates nothing: the groups hold as many elements as the list. */
  lemma GroupsPartition<T, K>(s: seq<T>, key: T -> K)
    ensures |Flatten(Groups(s, key))| == |s|
  {
    GroupsOfLength(GroupKeys(s, key), s, key);
    GroupSizesTotal(s, key);
  }

  /** A prefix one longer is the prefix and the next element. */
  lemma PrefixSnoc<T>(s: seq<T>, i: nat)
    requires i < |s|
    ensures s[..i + 1] == s[..i] + [s[i]]
  {
    assert s[..i + 1] == s[..i] + [s[i]];
  }

  /** A sequence that starts with `a + c` holds `c` right after `a`. */
  lemma SliceAfterPrefix<T>(whole: seq<T>, a: seq<T>, c: seq<T>)
    requires |a| + |c| <= |whole| && whole[..|a| + |c|] == a + c
    ensures whole[..|a|] == a
    ensures whole[|a|..|a| + |c|] == c
  {
    assert whole[..|a|] == (a + c)[..|a|];
    assert whole[|a|..|a| + |c|] == (a + c)[|a|..];
  }

  /** The sum of `f` over the elements. */
  function Sum<T>(s: seq<T>, f: T -> real): real {
    if |s| == 0 then 0.0 else Sum(DropLast(s), f) + f(Last(s))
  }

  /** Sums distribute over concatenation. */
  lemma {:induction false} SumAppend<T>(a: seq<T>, b: seq<T>, f: T -> real)
    ensures Sum(a + b, f) == Sum(a, f) + Sum(b, f)
  {
    if |b| > 0 {
      assert DropLast(a + b) == a + DropLast(b);
      SumAppend(a, DropLast(b), f);
    } else {
      assert a + b == a;
    }
  }

  /** Summing a mapped list whose every term is `q` times `g` of its source gives `q` times the sum of `g`. */
  lemma {:induction false} SumScaled<T, U>(s: seq<T>, h: T -> U, f: U -> real, g: T -> real, q: real)
    requires forall i :: 0 <= i < |s| ==> f(h(s[i])) == q * g(s[i])
    ensures Sum(Map(s, h), f) == q * Sum(s, g)
  {
    if |s| > 0 {
      var m := Map(s, h);
      var a, x := Sum(DropLast(s), g), g(Last(s));
      assert DropLast(m) == Map(DropLast(s), h);
      SumScaled(DropLast(s), h, f, g, q);
      assert f(Last(m)) == q * x;
      Distribute(q, Sum(s, g), a, x);
    }
  }

  lemma Distribute(q: real, total: real, a: real, b: real)
    requires total == a + b
    ensures q * total == q * a + q * b
  {
  }

  /** Reordering a list does not change its sum. */
  lemma {:induction false} SumPermutation<T>(a: seq<T>, b: seq<T>, f: T -> real)
    requires multiset(a) == multiset(b)
    ensures Sum(a, f) == Sum(b, f)
  {
    if |a| == 0 {
      assert |multiset(b)| == 0;
    } else {
      var x := Last(a);
      assert a == DropLast(a) + [x];
      assert x in multiset(b);
      var i :| 0 <= i < |b| && b[i] == x;
      var rest := b[..i] + b[i + 1..];
      assert b == b[..i] + [x] + b[i + 1..];
      calc {
        multiset(DropLast(a)) + multiset{x};
        multiset(a);
        multiset(b);
        multiset(b[..i] + [x] + b[i + 1..]);
        multiset(b[..i]) + multiset{x} + multiset(b[i + 1..]);
        multiset(rest) + multiset{x};
      }
      assert multiset(DropLast(a)) == multiset(DropLast(a)) + multiset{x} - multiset{x};
      assert multiset(rest) == multiset(rest) + multiset{x} - multiset{x};
      SumPermutation(DropLast(a), rest, f);
      SumAppend(b[..i] + [x], b[i + 1..], f);
      SumAppend(b[..i], [x], f);
      SumAppend(b[..i], b[i + 1..], f);
      assert Sum([x], f) == Sum(DropLast([x]), f) + f(x);
    }
  }

  /** The integer sum of `f` over the elements. */
  function IntSum<T>(s: seq<T>, f: T -> int): int {
    if |s| == 0 then 0 else IntSum(DropLast(s), f) + f(Last(s))
  }

  /** The lists one after the other. */
  function Flatten<T>(ss: seq<seq<T>>): seq<T> {
    if |ss| == 0 then [] else Flatten(DropLast(ss)) + Last(ss)
  }

  /** Flattening distributes over concatenation. */
  lemma {:induction false} FlattenAppend<T>(a: seq<seq<T>>, b: seq<seq<T>>)
    ensures Flatten(a + b) == Flatten(a) + Flatten(b)
  {
    if |b| > 0 {
      assert DropLast(a + b) == a + DropLast(b);
      FlattenAppend(a, DropLast(b));
    } else {
      assert a + b == a;
    }
  }
}

=== FILE: skus.dfy ===
/**
 * SKU strings and their inline error tags.
 *
 * The pipeline carries errors inside the SKU field as a tag prefix followed
 * by a payload (`"SIN SKU: " + title`, `"CANT INVALIDA: " + sku`, ...).
 * `IsErrorSku` is the test every stage uses to recognise them; `KindOf`
 * reads a tag back as a tagged-union value. `CleanSku` is the normaliser
 * every sale goes through before combo expansion.
 */
module Skus {
  import opened Text
  import opened Wrappers

  /** The kinds of inline error a SKU can carry. */
  datatype ErrorKind = MissingSku | InvalidSku | InvalidQuantity | InvalidCombo

  /** The tag text written in front of the payload for each kind. */
  function TagOf(kind: ErrorKind): string {
    match kind
    case MissingSku => "SIN SKU: "
    case InvalidSku => "SKU INVALIDO: "
    case InvalidQuantity => "CANT INVALIDA: "
    case InvalidCombo => "COMBO INVALIDO: "
  }

  /** An error-tagged SKU. */
  function Tag(kind: ErrorKind, payload: string): string {
    TagOf(kind) + payload
  }

  /** The bare marker the stock resolver puts in place of a `SIN SKU: ` tag. */
  const SinSku: string := "SIN SKU"

  /**
   * `esSkuConError`: the bare marker, or one of the four tag prefixes
   * (recognised with or without the space after the colon).
   */
  predicate IsErrorSku(s: string) {
    s == SinSku
    || StartsWith(s, "SIN SKU:")
    || StartsWith(s, "SKU INVALIDO:")
    || StartsWith(s, "CANT INVALIDA:")
    || StartsWith(s, "COMBO INVALIDO:")
  }

  /** The kind of error a SKU carries, if any: the tagged-union reading of the string. */
  function KindOf(s: string): (r: Option<ErrorKind>)
    ensures r.Some? <==> IsErrorSku(s)
  {
    if s == SinSku || StartsWith(s, "SIN SKU:") then Some(MissingSku)
    else if StartsWith(s, "SKU INVALIDO:") then Some(InvalidSku)
    else if StartsWith(s, "CANT INVALIDA:") then Some(InvalidQuantity)
    else if StartsWith(s, "COMBO INVALIDO:") then Some(InvalidCombo)
    else None
  }

  /** Every tag is recognised as an error, and as the kind it was written with. */
  lemma TagRoundTrip(kind: ErrorKind, payload: string)
    ensures IsErrorSku(Tag(kind, payload))
    ensures KindOf(Tag(kind, payload)) == Some(kind)
  {
    var s := Tag(kind, payload);
    var t := TagOf(kind);
    assert s[..|t| - 1] == t[..|t| - 1];
    match kind
    case MissingSku =>
      assert t[..|t| - 1] == "SIN SKU:";
    case InvalidSku =>
      assert t[..|t| - 1] == "SKU INVALIDO:";
      DiffersAt(s, "SIN SKU:", 1);
    case InvalidQuantity =>
      assert t[..|t| - 1] == "CANT INVALIDA:";
      DiffersAt(s, "SIN SKU:", 0);
      DiffersAt(s, "SKU INVALIDO:", 0);
    case InvalidCombo =>
      assert t[..|t| - 1] == "COMBO INVALIDO:";
      DiffersAt(s, "SIN SKU:", 0);
      DiffersAt(s, "SKU INVALIDO:", 0);
      DiffersAt(s, "CANT INVALIDA:", 1);
  }

  /** A string of digits is never mistaken for an error tag. */
  lemma NumericIsNotError(s: string)
    requires IsNumeric(s)
    ensures !IsErrorSku(s)
  {
    DiffersAt(s, "SIN SKU:", 0);
    DiffersAt(s, "SKU INVALIDO:", 0);
    DiffersAt(s, "CANT INVALIDA:", 0);
    DiffersAt(s, "COMBO INVALIDO:", 0);
  }

  /** An error tag is never all digits. */
  lemma ErrorIsNotNumeric(s: string)
    ensures IsErrorSku(s) ==> !IsNumeric(s)
  {
    if IsNumeric(s) {
      NumericIsNotError(s);
    }
  }

  /** `sku.substring(0, sku.indexOf(' '))` when there is a space after the first character. */
  function CutAtSpace(t: string): (r: string)
    ensures |r| <= |t| && r == t[..|r|]
    ensures |t| == 0 || t[0] != ' ' ==> ' ' !in r
    ensures |r| < |t| ==> |r| > 0 && t[|r|] == ' '
    ensures (forall k :: 0 < k < |t| ==> t[k] != ' ') ==> r == t
  {
    var k := IndexOf(t, ' ');
    if k > 0 then t[..k] else t
  }

  /** Drops the leading non-digits (`^[^0-9]*`). */
  function DropNonDigitsStart(s: string): (r: string)
    ensures |r| <= |s| && r == s[|s| - |r|..]
    ensures forall k :: 0 <= k < |s| - |r| ==> !IsDigit(s[k])
    ensures |r| == 0 || IsDigit(r[0])
  {
    if |s| > 0 && !IsDigit(s[0]) then
      var r := DropNonDigitsStart(s[1..]);
      assert r == s[|s| - |r|..];
      r
    else s
  }

  /** Drops the trailing non-digits (`[^0-9]*$`). */
  function DropNonDigitsEnd(s: string): (r: string)
    ensures |r| <= |s| && r == s[..|r|]
    ensures forall k :: |r| <= k < |s| ==> !IsDigit(s[k])
    ensures |r| == 0 || IsDigit(r[|r| - 1])
  {
    if |s| > 0 && !IsDigit(s[|s| - 1]) then DropNonDigitsEnd(s[..|s| - 1]) else s
  }

  /** `replaceAll("^[^0-9]*|[^0-9]*$", "")`: strips non-digits from both ends. */
  function StripNonDigitEnds(s: string): (r: string)
    ensures |r| == 0 || (IsDigit(r[0]) && IsDigit(r[|r| - 1]))
  {
    DropNonDigitsEnd(DropNonDigitsStart(s))
  }

  /**
   * The first cleaning pass: a SKU whose trimmed form is tagged is left
   * exactly as it was (untrimmed); any other is trimmed, cut at its first
   * space and stripped of non-digits at both ends.
   */
  function CleanPass(s: string): string {
    var t := Trim(s);
    if IsErrorSku(t) then s else StripNonDigitEnds(CutAtSpace(t))
  }

  /** The second pass: an untagged SKU that is not all digits becomes `SKU INVALIDO: ` + itself. */
  function ValidatePass(s: string): (r: string)
    ensures IsErrorSku(r) || IsNumeric(r)
    ensures IsErrorSku(s) || IsNumeric(s) ==> r == s
    ensures !IsErrorSku(s) && !IsNumeric(s) ==> r == Tag(InvalidSku, s)
  {
    NumericNotBlank(s);
    if IsErrorSku(s) then s
    else if IsBlank(s) || !IsNumeric(s) then
      TagRoundTrip(InvalidSku, s);
      Tag(InvalidSku, s)
    else s
  }

  /** The SKU a sale carries after cleaning. */
  function CleanSku(s: string): (r: string)
    ensures IsErrorSku(r) || IsNumeric(r)
  {
    ValidatePass(CleanPass(s))
  }

  /** Trimming a string keeps any prefix it has that ends in a non-trimmable character. */
  lemma TrimKeepsPrefix(s: string, p: string)
    requires StartsWith(s, p) && |p| > 0 && !IsTrimmable(p[0]) && !IsTrimmable(p[|p| - 1])
    ensures StartsWith(Trim(s), p)
  {
    var a := TrimStart(s);
    assert a == s;
    var b := TrimEnd(a);
    assert s[|p| - 1] == s[..|p|][|p| - 1];
    assert b[..|p|] == s[..|p|];
  }

  /** Trimming an error-tagged SKU leaves it error-tagged. */
  lemma TrimKeepsError(s: string)
    requires IsErrorSku(s)
    ensures IsErrorSku(Trim(s))
  {
    if s == SinSku {
      TrimIdentity(s);
    } else if StartsWith(s, "SIN SKU:") {
      TrimKeepsPrefix(s, "SIN SKU:");
    } else if StartsWith(s, "SKU INVALIDO:") {
      TrimKeepsPrefix(s, "SKU INVALIDO:");
    } else if StartsWith(s, "CANT INVALIDA:") {
      TrimKeepsPrefix(s, "CANT INVALIDA:");
    } else {
      TrimKeepsPrefix(s, "COMBO INVALIDO:");
    }
  }

  /** Cleaning never touches an error-tagged SKU. */
  lemma CleanKeepsErrors(s: string)
    requires IsErrorSku(s)
    ensures CleanSku(s) == s
  {
    TrimKeepsError(s);
  }

  /** Cleaning a SKU that is already all digits changes nothing. */
  lemma CleanKeepsNumeric(s: string)
    requires IsNumeric(s)
    ensures CleanSku(s) == s
  {
    NumericIsNotError(s);
    TrimIdentity(s);
    assert CutAtSpace(s) == s;
    assert DropNonDigitsStart(s) == s;
    assert DropNonDigitsEnd(s) == s;
  }

  /** Cleaning is idempotent. */
  lemma CleanIdempotent(s: string)
    ensures CleanSku(CleanSku(s)) == CleanSku(s)
  {
    var c := CleanSku(s);
    if IsErrorSku(c) { CleanKeepsErrors(c); } else { CleanKeepsNumeric(c); }
  }

  /**
   * A cleaned SKU that is not tagged is the digit core of the raw one: the
   * first space-delimited word of the trimmed SKU with non-digits stripped
   * from both ends.
   */
  lemma CleanNumericCore(s: string)
    requires !IsErrorSku(CleanSku(s))
    ensures CleanSku(s) == StripNonDigitEnds(CutAtSpace(Trim(s)))
    ensures IsNumeric(CleanSku(s))
  {
    if IsErrorSku(Trim(s)) {
      TagRoundTrip(InvalidSku, s);
    }
  }

  /**
   * The key a cart counts a SKU under when it tallies distinct SKUs
   * (`skusOriginales`): every missing-SKU tag counts as the bare marker,
   * other tags count as themselves, and an untagged non-numeric SKU counts
   * as its `SKU INVALIDO` tag.
   */
  function CartSkuKey(s: string): (r: string)
    ensures StartsWith(s, "SIN SKU: ") ==> r == SinSku
    ensures !StartsWith(s, "SIN SKU: ") && (IsErrorSku(s) || IsNumeric(s)) ==> r == s
    ensures !IsErrorSku(s) && !IsNumeric(s) ==> r == Tag(InvalidSku, s)
    ensures IsErrorSku(r) || IsNumeric(r)
  {
    NumericNotBlank(s);
    if StartsWith(s, "SIN SKU: ") then SinSku
    else if IsErrorSku(s) then s
    else if IsBlank(s) || !IsNumeric(s) then
      TagRoundTrip(InvalidSku, s);
      Tag(InvalidSku, s)
    else s
  }
  // ------------------------------------------------------ marketplace lines

  /**
   * The SKU a marketplace line item is recorded under. A non-positive
   * quantity tags the line `CANT INVALIDA` (with the SKU, or the item name
   * when the SKU is blank) whatever the SKU; otherwise a blank SKU tags it
   * `SIN SKU` with the name; any other SKU is kept as it is.
   */
  function LineSku(sku: string, name: string, quantity: real): (r: string)
    ensures quantity <= 0.0 ==> KindOf(r) == Some(InvalidQuantity)
    ensures quantity > 0.0 && IsBlank(sku) ==> KindOf(r) == Some(MissingSku)
    ensures quantity > 0.0 && !IsBlank(sku) ==> r == sku
    ensures IsErrorSku(r) <==> quantity <= 0.0 || IsBlank(sku) || IsErrorSku(sku)
    ensures quantity <= 0.0 ==>
      StartsWith(r, TagOf(InvalidQuantity)) && Payload(r, InvalidQuantity) == (if IsBlank(sku) then name else sku)
    ensures quantity > 0.0 && IsBlank(sku) ==>
      StartsWith(r, TagOf(MissingSku)) && Payload(r, MissingSku) == name
  {
    if quantity <= 0.0 then
      var payload := if IsBlank(sku) then name else sku;
      TagRoundTrip(InvalidQuantity, payload);
      assert Tag(InvalidQuantity, payload)[..|TagOf(InvalidQuantity)|] == TagOf(InvalidQuantity);
      Tag(InvalidQuantity, payload)
    else if IsBlank(sku) then
      TagRoundTrip(MissingSku, name);
      assert Tag(MissingSku, name)[..|TagOf(MissingSku)|] == TagOf(MissingSku);
      Tag(MissingSku, name)
    else sku
  }

  /** The text after a tag: what was written after the tag's prefix. */
  function Payload(s: string, kind: ErrorKind): string
    requires StartsWith(s, TagOf(kind))
  {
    s[|TagOf(kind)|..]
  }

}

=== FILE: sla_filter.dfy ===
/**
 * The same-day dispatch filter of the pick-list pipeline.
 *
 * Orders are grouped by venta key in first-seen order. Each group is judged
 * by the first of its orders whose shipment has SLA data: the whole group
 * is excluded when that shipment's expected date exists and is strictly
 * after the cutoff (the end of the current day). A group with no SLA data,
 * or whose deciding date is missing or not after the cutoff, is kept.
 * Excluding a group removes its orders and, by identity, every sale that is
 * an item of one of its orders.
 */
module SlaFilter {
  import opened Wrappers
  import opened Seqs
  import opened Domain

  type SlaMap = map<int, SlaInfo>

  /** The order's shipment has SLA data. */
  predicate HasSla(o: Order, sla: SlaMap) {
    o.shipmentId.Some? && o.shipmentId.value in sla
  }

  function SlaOf(o: Order, sla: SlaMap): SlaInfo
    requires HasSla(o, sla)
  {
    sla[o.shipmentId.value]
  }

  /** The position of the first order with SLA data, or -1 when none has. */
  function FirstWithSla(group: seq<Order>, sla: SlaMap): (r: int)
    ensures -1 <= r < |group|
    ensures r == -1 <==> forall i :: 0 <= i < |group| ==> !HasSla(group[i], sla)
    ensures r >= 0 ==> HasSla(group[r], sla) && forall i :: 0 <= i < r ==> !HasSla(group[i], sla)
  {
    if |group| == 0 then -1
    else if HasSla(group[0], sla) then 0
    else
      var k := FirstWithSla(group[1..], sla);
      if k < 0 then -1 else k + 1
  }

  /** Strictly after the cutoff; a missing date is never late. */
  predicate IsLate(info: SlaInfo, cutoff: int) {
    info.expectedDate.Some? && info.expectedDate.value > cutoff
  }

  /** The group's deciding shipment is late. */
  predicate GroupExcluded(group: seq<Order>, sla: SlaMap, cutoff: int) {
    var i := FirstWithSla(group, sla);
    i >= 0 && IsLate(SlaOf(group[i], sla), cutoff)
  }

  function VentaOf(o: Order): int {
    o.VentaId()
  }

  /** The orders of venta `v`, in list order. */
  function VentaGroup(orders: seq<Order>, v: int): seq<Order> {
    Group(orders, VentaOf, v)
  }

  /** The venta keys whose group is excluded. */
  function ExcludedVentas(orders: seq<Order>, sla: SlaMap, cutoff: int): set<int> {
    set v | v in GroupKeys(orders, VentaOf) && GroupExcluded(VentaGroup(orders, v), sla, cutoff)
  }

  /**
   * A group is excluded exactly when some order in it has SLA data, no
   * earlier order has, and that order's date is after the cutoff.
   */
  lemma ExclusionCases(group: seq<Order>, sla: SlaMap, cutoff: int)
    ensures GroupExcluded(group, sla, cutoff) <==>
      exists i :: 0 <= i < |group| && HasSla(group[i], sla)
        && (forall j :: 0 <= j < i ==> !HasSla(group[j], sla))
        && IsLate(SlaOf(group[i], sla), cutoff)
  {
    if exists i :: 0 <= i < |group| && HasSla(group[i], sla)
        && (forall j :: 0 <= j < i ==> !HasSla(group[j], sla))
        && IsLate(SlaOf(group[i], sla), cutoff)
    {
      var i :| 0 <= i < |group| && HasSla(group[i], sla)
        && (forall j :: 0 <= j < i ==> !HasSla(group[j], sla))
        && IsLate(SlaOf(group[i], sla), cutoff);
      var f := FirstWithSla(group, sla);
      assert f != -1 by { assert HasSla(group[i], sla); }
      assert f == i;
    }
  }

  /** The loop that judges one group: scan for the first order with SLA data and stop there. */
  method DecideGroup(group: seq<Order>, sla: SlaMap, cutoff: int) returns (exclude: bool)
    ensures exclude == GroupExcluded(group, sla, cutoff)
  {
    exclude := false;
    var i := 0;
    while i < |group|
      invariant 0 <= i <= |group|
      invariant forall j :: 0 <= j < i ==> !HasSla(group[j], sla)
    {
      if HasSla(group[i], sla) {
        assert FirstWithSla(group, sla) == i;
        exclude := IsLate(SlaOf(group[i], sla), cutoff);
        return;
      }
      i := i + 1;
    }
  }

  /** The loop over the groups that collects the venta keys to exclude. */
  method CollectExcluded(orders: seq<Order>, sla: SlaMap, cutoff: int) returns (ex: set<int>)
    ensures ex == ExcludedVentas(orders, sla, cutoff)
  {
    var keys := GroupKeys(orders, VentaOf);
    ex := {};
    var g := 0;
    while g < |keys|
      invariant 0 <= g <= |keys|
      invariant ex == set v | v in keys[..g] && GroupExcluded(VentaGroup(orders, v), sla, cutoff)
    {
      var exclude := DecideGroup(VentaGroup(orders, keys[g]), sla, cutoff);
      assert keys[..g + 1] == keys[..g] + [keys[g]];
      if exclude {
        ex := ex + {keys[g]};
      }
      g := g + 1;
    }
    assert keys[..g] == keys;
  }

  /** The identities of every item of every order whose venta is excluded. */
  function RemovedIds(orders: seq<Order>, ex: set<int>): set<SaleId> {
    set i, j | 0 <= i < |orders| && orders[i].VentaId() in ex && 0 <= j < |orders[i].items|
      :: orders[i].items[j].id
  }

  function NotRemoved(ids: set<SaleId>): Sale -> bool {
    (s: Sale) => s.id !in ids
  }

  function VentaKept(ex: set<int>): Order -> bool {
    (o: Order) => o.VentaId() !in ex
  }

  /** The sales and orders that survive the filter. */
  datatype Survivors = Survivors(sales: seq<Sale>, orders: seq<Order>)

  /**
   * The filter. It only runs in same-day mode with a non-empty SLA map;
   * otherwise both lists are returned as they are.
   */
  function ApplySlaFilter(sales: seq<Sale>, orders: seq<Order>, sla: SlaMap, soloHoy: bool, cutoff: int)
    : (r: Survivors)
    ensures !soloHoy || |sla| == 0 ==> r == Survivors(sales, orders)
    ensures |r.sales| <= |sales| && |r.orders| <= |orders|
  {
    if soloHoy && |sla| > 0 then
      var ex := ExcludedVentas(orders, sla, cutoff);
      Survivors(Filter(sales, NotRemoved(RemovedIds(orders, ex))), Filter(orders, VentaKept(ex)))
    else
      Survivors(sales, orders)
  }

  /** In same-day mode an order survives exactly when its venta group is not excluded. */
  lemma OrderFate(sales: seq<Sale>, orders: seq<Order>, sla: SlaMap, cutoff: int, k: nat)
    requires |sla| > 0 && k < |orders|
    ensures orders[k] in ApplySlaFilter(sales, orders, sla, true, cutoff).orders
      <==> !GroupExcluded(VentaGroup(orders, orders[k].VentaId()), sla, cutoff)
  {
    var ex := ExcludedVentas(orders, sla, cutoff);
    FilterMembers(orders, VentaKept(ex));
    assert orders[k].VentaId() == VentaOf(orders[k]);
    var kept := Filter(orders, VentaKept(ex));
    if orders[k] in kept {
      var i :| 0 <= i < |kept| && kept[i] == orders[k];
    }
  }

  /** The sale is an item of an order whose venta group is excluded. */
  predicate InExcludedOrder(s: Sale, orders: seq<Order>, sla: SlaMap, cutoff: int) {
    exists i :: 0 <= i < |orders| && s in orders[i].items
      && GroupExcluded(VentaGroup(orders, orders[i].VentaId()), sla, cutoff)
  }

  /**
   * In same-day mode a sale survives exactly when it is not an item of an
   * order in an excluded group, provided that an order item and a sale with
   * the same identity are the same object, as they are in the source.
   */
  lemma SaleFate(sales: seq<Sale>, orders: seq<Order>, sla: SlaMap, cutoff: int, k: nat)
    requires |sla| > 0 && k < |sales| && SharedItems(orders, sales)
    ensures sales[k] in ApplySlaFilter(sales, orders, sla, true, cutoff).sales
      <==> !InExcludedOrder(sales[k], orders, sla, cutoff)
  {
    var ex := ExcludedVentas(orders, sla, cutoff);
    var p := NotRemoved(RemovedIds(orders, ex));
    FilterMembers(sales, p);
    var kept := Filter(sales, p);
    if sales[k] in kept {
      var m :| 0 <= m < |kept| && kept[m] == sales[k];
    }
    if InExcludedOrder(sales[k], orders, sla, cutoff) {
      var i :| 0 <= i < |orders| && sales[k] in orders[i].items
        && GroupExcluded(VentaGroup(orders, orders[i].VentaId()), sla, cutoff);
      var j :| 0 <= j < |orders[i].items| && orders[i].items[j] == sales[k];
      assert orders[i].VentaId() == VentaOf(orders[i]);
      assert sales[k].id in RemovedIds(orders, ex);
    }
    if sales[k].id in RemovedIds(orders, ex) {
      var i, j :| 0 <= i < |orders| && orders[i].VentaId() in ex && 0 <= j < |orders[i].items|
        && orders[i].items[j].id == sales[k].id;
      assert orders[i].items[j] == sales[k];
      assert orders[i].VentaId() == VentaOf(orders[i]);
    }
  }

  /**
   * Manually entered products are never items of an order, so when every
   * order item is a marketplace line they all survive the filter.
   */
  lemma ManualSalesSurvive(sales: seq<Sale>, orders: seq<Order>, sla: SlaMap, soloHoy: bool, cutoff: int, k: nat)
    requires k < |sales| && sales[k].id.Manual?
    requires forall i, j :: 0 <= i < |orders| && 0 <= j < |orders[i].items| ==> orders[i].items[j].id.Line?
    ensures sales[k] in ApplySlaFilter(sales, orders, sla, soloHoy, cutoff).sales
  {
    if soloHoy && |sla| > 0 {
      var ids := RemovedIds(orders, ExcludedVentas(orders, sla, cutoff));
      assert sales[k].id !in ids;
      FilterMembers(sales, NotRemoved(ids));
    }
  }
}

=== FILE: stable_sort.dfy ===
/**
 * `List.sort` with a key comparator: a stable sort. Modelled as insertion
 * sort, which places each element after every earlier element whose key is
 * not greater than its own.
 */
module StableSort {
  import opened Ordering
  import opened Seqs

  /** Every element's key is not after the key of any later element. */
  ghost predicate Sorted<T>(s: seq<T>, key: T -> Key) {
    forall i, j :: 0 <= i < j < |s| ==> CompareKeys(key(s[i]), key(s[j])) <= 0
  }

  /** The elements whose key is exactly `k`, in order. */
  function WithKey<T>(s: seq<T>, key: T -> Key, k: Key): seq<T> {
    Filter(s, HasKey(key, k))
  }

  function HasKey<T>(key: T -> Key, k: Key): T -> bool {
    x => key(x) == k
  }

  /** Inserts `x` before the first element whose key is strictly greater. */
  function Insert<T>(t: seq<T>, x: T, key: T -> Key): (r: seq<T>)
    ensures multiset(r) == multiset(t) + multiset{x}
  {
    if |t| == 0 then [x]
    else if CompareKeys(key(x), key(t[0])) < 0 then [x] + t
    else
      assert t == [t[0]] + t[1..];
      [t[0]] + Insert(t[1..], x, key)
  }

  /** Inserting into a sorted list keeps it sorted. */
  lemma {:induction false} InsertSorted<T>(t: seq<T>, x: T, key: T -> Key)
    requires Sorted(t, key)
    ensures Sorted(Insert(t, x, key), key)
  {
    if |t| == 0 {
    } else if CompareKeys(key(x), key(t[0])) < 0 {
      var r := [x] + t;
      forall j | 0 < j < |r|
        ensures CompareKeys(key(x), key(r[j])) <= 0
      {
        if j > 1 { KeysStrictTransitive(key(x), key(t[0]), key(t[j - 1])); }
      }
    } else {
      var rest := Insert(t[1..], x, key);
      SortedTail(t, key);
      InsertSorted(t[1..], x, key);
      KeysAntisymmetric(key(x), key(t[0]));
      forall j | 0 <= j < |rest|
        ensures CompareKeys(key(t[0]), key(rest[j])) <= 0
      {
        assert rest[j] in multiset(rest);
        if rest[j] != x {
          assert rest[j] in multiset(t[1..]);
          var m :| 0 <= m < |t[1..]| && t[1..][m] == rest[j];
          assert t[m + 1] == rest[j];
        }
      }
      assert Insert(t, x, key) == [t[0]] + rest;
    }
  }

  /** Stable sort by `key`: ordered by key, and a permutation of the input. */
  function Sort<T>(s: seq<T>, key: T -> Key): (r: seq<T>)
    ensures Sorted(r, key)
    ensures multiset(r) == multiset(s)
  {
    if |s| == 0 then []
    else
      assert s == DropLast(s) + [Last(s)];
      InsertSorted(Sort(DropLast(s), key), Last(s), key);
      Insert(Sort(DropLast(s), key), Last(s), key)
  }

  /** A sorted list holds no element with a key strictly before its first one. */
  lemma NoneBefore<T>(t: seq<T>, key: T -> Key, k: Key)
    requires Sorted(t, key) && |t| > 0 && CompareKeys(k, key(t[0])) < 0
    ensures WithKey(t, key, k) == []
  {
    var w := WithKey(t, key, k);
    FilterMembers(t, HasKey(key, k));
    if |w| > 0 {
      var i :| 0 <= i < |t| && t[i] == w[0];
      if i > 0 { KeysStrictTransitive(k, key(t[0]), key(t[i])); }
      KeysEqual(k, key(t[i]));
      assert false;
    }
  }

  /** Inserting `x` adds it after every element that shares its key. */
  lemma {:induction false} InsertStable<T>(t: seq<T>, x: T, key: T -> Key, k: Key)
    requires Sorted(t, key)
    ensures WithKey(Insert(t, x, key), key, k) == WithKey(t, key, k) + WithKey([x], key, k)
    decreases |t|, 2
  {
    var p := HasKey(key, k);
    assert WithKey([x], key, k) == if key(x) == k then [x] else [] by {
      assert DropLast([x]) == [];
    }
    if |t| == 0 {
      assert Insert(t, x, key) == [x];
      assert WithKey(t, key, k) == [];
    } else if CompareKeys(key(x), key(t[0])) < 0 {
      assert Insert(t, x, key) == [x] + t;
      FilterAppend([x], t, p);
      if key(x) == k {
        NoneBefore(t, key, k);
      }
    } else {
      InsertStableStep(t, x, key, k);
    }
  }

  lemma {:induction false} InsertStableStep<T>(t: seq<T>, x: T, key: T -> Key, k: Key)
    requires Sorted(t, key) && |t| > 0 && CompareKeys(key(x), key(t[0])) >= 0
    ensures WithKey(Insert(t, x, key), key, k) == WithKey(t, key, k) + WithKey([x], key, k)
    decreases |t|, 1
  {
    var p := HasKey(key, k);
    var tail := t[1..];
    var rest := Insert(tail, x, key);
    InsertStableTail(t, x, key, k);
    FilterAppend([t[0]], rest, p);
    FilterAppend([t[0]], tail, p);
    calc {
      WithKey(Insert(t, x, key), key, k);
      { assert Insert(t, x, key) == [t[0]] + rest; }
      Filter([t[0]] + rest, p);
      Filter([t[0]], p) + Filter(rest, p);
      Filter([t[0]], p) + (Filter(tail, p) + Filter([x], p));
      (Filter([t[0]], p) + Filter(tail, p)) + Filter([x], p);
      Filter([t[0]] + tail, p) + Filter([x], p);
      { assert [t[0]] + tail == t; }
      WithKey(t, key, k) + WithKey([x], key, k);
    }
  }

  lemma {:induction false} InsertStableTail<T>(t: seq<T>, x: T, key: T -> Key, k: Key)
    requires Sorted(t, key) && |t| > 0
    ensures WithKey(Insert(t[1..], x, key), key, k) == WithKey(t[1..], key, k) + WithKey([x], key, k)
    decreases |t|, 0
  {
    SortedTail(t, key);
    InsertStable(t[1..], x, key, k);
  }

  lemma SortedTail<T>(t: seq<T>, key: T -> Key)
    requires Sorted(t, key) && |t| > 0
    ensures Sorted(t[1..], key)
  {
    forall i, j | 0 <= i < j < |t[1..]|
      ensures CompareKeys(key(t[1..][i]), key(t[1..][j])) <= 0
    {
      assert t[1..][i] == t[i + 1] && t[1..][j] == t[j + 1];
    }
  }

  /**
   * Stability: for every key, the elements carrying that key appear in the
   * sorted list in the same relative order as in the input.
   */
  lemma {:induction false} SortStable<T>(s: seq<T>, key: T -> Key, k: Key)
    ensures WithKey(Sort(s, key), key, k) == WithKey(s, key, k)
  {
    if |s| > 0 {
      var p := DropLast(s);
      SortStable(p, key, k);
      InsertStable(Sort(p, key), Last(s), key, k);
      assert s == p + [Last(s)];
      FilterAppend(p, [Last(s)], HasKey(key, k));
    }
  }
}

=== FILE: text.dfy ===
/**
 * The handful of java.lang.String operations the pipeline relies on, over
 * `string` (a sequence of chars): trim, isBlank, startsWith, indexOf,
 * contains, split on a single character, toUpperCase, equalsIgnoreCase and
 * the decimal rendering of a long.
 */
module Text {

  /** Characters `String.trim` removes: every code point up to U+0020. */
  predicate IsTrimmable(c: char) {
    c <= ' '
  }

  /** `Character.isWhitespace`, the test behind `String.isBlank`. */
  predicate IsWhitespace(c: char) {
    c == ' ' || c == '\t' || c == '\n' || c == '\U{000B}' || c == '\U{000C}' || c == '\r'
    || ('\U{001C}' <= c <= '\U{001F}')
    || c == '\U{1680}' || ('\U{2000}' <= c <= '\U{2006}') || ('\U{2008}' <= c <= '\U{200A}')
    || c == '\U{2028}' || c == '\U{2029}' || c == '\U{205F}' || c == '\U{3000}'
  }

  /** `String.isBlank`: empty or white space only. */
  predicate IsBlank(s: string) {
    forall i :: 0 <= i < |s| ==> IsWhitespace(s[i])
  }

  predicate IsDigit(c: char) {
    '0' <= c <= '9'
  }

  predicate AllDigits(s: string) {
    forall i :: 0 <= i < |s| ==> IsDigit(s[i])
  }

  /** `s.matches("\\d+")`: one or more ASCII digits and nothing else. */
  predicate IsNumeric(s: string) {
    |s| > 0 && AllDigits(s)
  }

  /** A string of digits is not blank. */
  lemma NumericNotBlank(s: string)
    ensures IsNumeric(s) ==> !IsBlank(s)
  {
    if IsNumeric(s) { assert IsDigit(s[0]); }
  }

  /** A string that differs from `q` at a position both share does not start with `q`. */
  lemma DiffersAt(s: string, q: string, i: nat)
    requires i < |s| && i < |q| && s[i] != q[i]
    ensures !StartsWith(s, q)
  {
  }

  /** Drops the leading characters `trim` removes. */
  function TrimStart(s: string): (r: string)
    ensures |r| <= |s| && r == s[|s| - |r|..]
    ensures forall k :: 0 <= k < |s| - |r| ==> IsTrimmable(s[k])
    ensures |r| == 0 || !IsTrimmable(r[0])
  {
    if |s| > 0 && IsTrimmable(s[0]) then TrimStart(s[1..]) else s
  }

  /** Drops the trailing characters `trim` removes. */
  function TrimEnd(s: string): (r: string)
    ensures |r| <= |s| && r == s[..|r|]
    ensures forall k :: |r| <= k < |s| ==> IsTrimmable(s[k])
    ensures |r| == 0 || !IsTrimmable(r[|r| - 1])
  {
    if |s| > 0 && IsTrimmable(s[|s| - 1]) then TrimEnd(s[..|s| - 1]) else s
  }

  /** `String.trim`. */
  function Trim(s: string): (r: string)
    ensures |r| == 0 || (!IsTrimmable(r[0]) && !IsTrimmable(r[|r| - 1]))
  {
    TrimEnd(TrimStart(s))
  }

  /** Trimming is the identity on a string with nothing to trim at either end. */
  lemma TrimIdentity(s: string)
    requires |s| == 0 || (!IsTrimmable(s[0]) && !IsTrimmable(s[|s| - 1]))
    ensures Trim(s) == s
  {
  }

  /** Trimming twice is trimming once. */
  lemma TrimIdempotent(s: string)
    ensures Trim(Trim(s)) == Trim(s)
  {
    TrimIdentity(Trim(s));
  }

  predicate StartsWith(s: string, prefix: string) {
    |prefix| <= |s| && s[..|prefix|] == prefix
  }

  /** `String.indexOf(char)`: the first position of `c`, or -1. */
  function IndexOf(s: string, c: char): (r: int)
    ensures -1 <= r < |s|
    ensures r == -1 <==> c !in s
    ensures r >= 0 ==> s[r] == c && c !in s[..r]
  {
    if |s| == 0 then -1
    else if s[0] == c then 0
    else
      var k := IndexOf(s[1..], c);
      if k < 0 then -1
      else
        assert s[..k + 1] == [s[0]] + s[1..][..k];
        k + 1
  }

  /** `String.contains`: `t` occurs in `s` at some position. */
  predicate Contains(s: string, t: string) {
    StartsWith(s, t) || (|s| > 0 && Contains(s[1..], t))
  }

  /** A string contains every string it starts with, and every string a suffix of it contains. */
  lemma ContainsAt(s: string, i: nat, t: string)
    requires i + |t| <= |s| && s[i..i + |t|] == t
    ensures Contains(s, t)
  {
    if i > 0 {
      assert s[1..][i - 1..i - 1 + |t|] == t;
      ContainsAt(s[1..], i - 1, t);
    }
  }

  /** `Character.toUpperCase` for ASCII and Latin-1 letters. */
  function ToUpperChar(c: char): char {
    if 'a' <= c <= 'z' then (c as int - 32) as char
    else if '\U{00E0}' <= c <= '\U{00FE}' && c != '\U{00F7}' then (c as int - 32) as char
    else c
  }

  /** `String.toUpperCase`, character by character. */
  function ToUpper(s: string): (r: string)
    ensures |r| == |s|
    ensures forall i :: 0 <= i < |s| ==> r[i] == ToUpperChar(s[i])
  {
    if |s| == 0 then [] else [ToUpperChar(s[0])] + ToUpper(s[1..])
  }

  /** `String.equalsIgnoreCase`: same length and pairwise equal up to case. */
  predicate EqualsIgnoreCase(a: string, b: string) {
    |a| == |b| && forall i :: 0 <= i < |a| ==> ToUpperChar(a[i]) == ToUpperChar(b[i])
  }

  /** Joins the parts with a one-character separator. */
  function Join(parts: seq<string>, sep: char): string {
    if |parts| == 0 then ""
    else if |parts| == 1 then parts[0]
    else parts[0] + [sep] + Join(parts[1..], sep)
  }

  /**
   * `String.split` on a single literal character, keeping every part. Java
   * drops trailing empty parts; callers here only search the parts for a
   * non-empty marker, which an empty part never holds.
   */
  function Split(s: string, sep: char): (r: seq<string>)
    ensures |r| > 0
    ensures forall i :: 0 <= i < |r| ==> sep !in r[i]
    ensures Join(r, sep) == s
  {
    var k := IndexOf(s, sep);
    if k < 0 then [s]
    else
      var rest := Split(s[k + 1..], sep);
      assert s == s[..k] + [sep] + s[k + 1..];
      [s[..k]] + rest
  }

  /** The first `c` in `a + [c] + b` is right after `a` when `a` has none. */
  lemma IndexOfAfter(a: string, c: char, b: string)
    requires c !in a
    ensures IndexOf(a + [c] + b, c) == |a|
  {
    var s := a + [c] + b;
    var r := IndexOf(s, c);
    assert s[|a|] == c;
    assert s[..|a|] == a;
  }

  /** Splitting a join gives the parts back when no part holds the separator. */
  lemma {:induction false} SplitJoin(parts: seq<string>, sep: char)
    requires |parts| > 0
    requires forall i :: 0 <= i < |parts| ==> sep !in parts[i]
    ensures Split(Join(parts, sep), sep) == parts
  {
    if |parts| == 1 {
      assert IndexOf(parts[0], sep) == -1;
    } else {
      var head, tail := parts[0], parts[1..];
      var rest := Join(tail, sep);
      var s := head + [sep] + rest;
      assert Join(parts, sep) == s;
      IndexOfAfter(head, sep, rest);
      assert s[..|head|] == head;
      assert s[|head| + 1..] == rest;
      assert Split(s, sep) == [head] + Split(rest, sep);
      SplitJoin(tail, sep);
      assert parts == [head] + tail;
    }
  }

  /** The decimal digit for 0..9. */
  function DigitChar(d: nat): char
    requires d < 10
  {
    ('0' as int + d) as char
  }

  /** `String.valueOf(long)` for a non-negative value. */
  function NatToString(n: nat): (r: string)
    ensures IsNumeric(r)
  {
    if n < 10 then [DigitChar(n)] else NatToString(n / 10) + [DigitChar(n % 10)]
  }

  /** `String.valueOf(long)`. */
  function IntToString(n: int): (r: string)
    ensures n >= 0 ==> IsNumeric(r)
    ensures n < 0 ==> |r| > 1 && r[0] == '-' && IsNumeric(r[1..])
  {
    if n >= 0 then NatToString(n) else "-" + NatToString(-n)
  }

  /** The value of a string of decimal digits. */
  function DigitsValue(s: string): nat
    requires AllDigits(s)
  {
    if |s| == 0 then 0 else 10 * DigitsValue(s[..|s| - 1]) + (s[|s| - 1] as int - '0' as int)
  }

  /** Rendering a natural number and reading it back gives the number. */
  lemma {:induction false} NatToStringRoundTrip(n: nat)
    ensures DigitsValue(NatToString(n)) == n
  {
    if n >= 10 {
      NatToStringRoundTrip(n / 10);
      var s := NatToString(n);
      assert s[..|s| - 1] == NatToString(n / 10);
    }
  }
}

=== FILE: tiendanube.dfy ===
/**
 * The pure decisions of the TiendaNube client: which orders of a page count,
 * how their product lines become sales, and the string builders used for
 * paging, shipping names, addresses and timestamps.
 *
 * A JSON order is a plain record here. A field the JSON lacks reads as ""
 * (or 0), as `path(..).asString("")` does; an array field that is missing or
 * not an array is `None`.
 */
module TiendaNube {
  import opened Wrappers
  import opened Text
  import opened Seqs
  import opened Skus
  import opened Domain

  /** One fulfillment order: its status and its shipping type. */
  datatype Fulfillment = Fulfillment(status: string, shippingType: string)

  /** One product line of an order. */
  datatype TnProduct = TnProduct(sku: string, quantity: real, name: string)

  /** The fields of an order the sale collection reads. */
  datatype TnOrder = TnOrder(
    number: int,
    fulfillments: Option<seq<Fulfillment>>,
    ownerNote: string,
    products: Option<seq<TnProduct>>)

  // ------------------------------------------------------------ fulfillments

  predicate IsUnpacked(f: Fulfillment) {
    EqualsIgnoreCase("unpacked", f.status)
  }

  predicate IsPickupType(f: Fulfillment) {
    EqualsIgnoreCase("pickup", f.shippingType)
  }

  /**
   * Some fulfillment passes `test`. Orders without fulfillments (older orders)
   * never pass, whatever their order-level fields say.
   */
  predicate SomeFulfillment(o: TnOrder, test: Fulfillment -> bool) {
    o.fulfillments.Some? && |o.fulfillments.value| > 0
    && exists i :: 0 <= i < |o.fulfillments.value| && test(o.fulfillments.value[i])
  }

  /**
   * The scan shared by the unpacked and pickup checks: false for a missing or
   * empty array, else stop at the first fulfillment that passes.
   */
  method ScanFulfillments(o: TnOrder, test: Fulfillment -> bool) returns (found: bool)
    ensures found <==> SomeFulfillment(o, test)
  {
    if o.fulfillments.None? || |o.fulfillments.value| == 0 {
      return false;
    }
    var fs := o.fulfillments.value;
    var i := 0;
    while i < |fs|
      invariant 0 <= i <= |fs|
      invariant forall j :: 0 <= j < i ==> !test(fs[j])
    {
      if test(fs[i]) {
        return true;
      }
      i := i + 1;
    }
    return false;
  }

  /** The order still has a fulfillment waiting to be packed. */
  method TieneFulfillmentUnpacked(o: TnOrder) returns (r: bool)
    ensures r <==> (o.fulfillments.Some?
      && exists i :: 0 <= i < |o.fulfillments.value| && IsUnpacked(o.fulfillments.value[i]))
  {
    r := ScanFulfillments(o, IsUnpacked);
  }

  /** The order is collected at the shop. */
  method EsPickup(o: TnOrder) returns (r: bool)
    ensures r <==> (o.fulfillments.Some?
      && exists i :: 0 <= i < |o.fulfillments.value| && IsPickupType(o.fulfillments.value[i]))
  {
    r := ScanFulfillments(o, IsPickupType);
  }

  /** The shop owner left a note (anything but white space up to U+0020). */
  predicate TieneNota(o: TnOrder) {
    Trim(o.ownerNote) != ""
  }

  /** The order counts: it is unpacked, and not a pickup the owner annotated. */
  predicate Accepted(o: TnOrder) {
    SomeFulfillment(o, IsUnpacked) && !(SomeFulfillment(o, IsPickupType) && TieneNota(o))
  }

  function AcceptedOrder(): TnOrder -> bool {
    (o: TnOrder) => Accepted(o)
  }

  /** The decision of the order loop, computed with the two scans. */
  method AcceptOrder(o: TnOrder) returns (accept: bool)
    ensures accept <==> Accepted(o)
    ensures o.fulfillments.None? || o.fulfillments.value == [] ==> !accept
    ensures SomeFulfillment(o, IsUnpacked) ==>
      (accept <==> !SomeFulfillment(o, IsPickupType) || Trim(o.ownerNote) == "")
  {
    var unpacked := TieneFulfillmentUnpacked(o);
    if !unpacked {
      return false;
    }
    var pickup := EsPickup(o);
    accept := !(pickup && TieneNota(o));
  }

  // -------------------------------------------------------------- collection

  function ProductsOf(o: TnOrder): seq<TnProduct> {
    o.products.GetOr([])
  }

  /** The product lines the loop visits: those of accepted orders, order by order. */
  function Lines(orders: seq<TnOrder>): seq<TnProduct> {
    Flatten(Map(Filter(orders, AcceptedOrder()), ProductsOf))
  }

  /** The sale recorded for the `k`-th visited line in store `store`. */
  function LineSale(p: TnProduct, k: nat, store: string): Sale {
    Sale(Store(store, k), LineSku(p.sku, p.name, p.quantity), p.quantity, store, "")
  }

  /** The sales of the lines, numbered from 0. */
  function SalesOf(ps: seq<TnProduct>, store: string): (r: seq<Sale>)
    ensures |r| == |ps|
  {
    seq(|ps|, k requires 0 <= k < |ps| => LineSale(ps[k], k, store))
  }

  /** The result of one store's sale collection (`VentasResult`). */
  datatype VentasResult = VentasResult(ventas: seq<Sale>, totalOrdenes: nat)

  lemma SalesOfSnoc(ps: seq<TnProduct>, p: TnProduct, store: string)
    ensures SalesOf(ps + [p], store) == SalesOf(ps, store) + [LineSale(p, |ps|, store)]
  {
  }

  /** One more order adds its product lines exactly when it is accepted. */
  lemma LinesSnoc(orders: seq<TnOrder>, o: TnOrder)
    ensures Lines(orders + [o]) == Lines(orders) + (if Accepted(o) then ProductsOf(o) else [])
    ensures |Filter(orders + [o], AcceptedOrder())| == |Filter(orders, AcceptedOrder())| + (if Accepted(o) then 1 else 0)
  {
    var f := Filter(orders, AcceptedOrder());
    assert DropLast(orders + [o]) == orders;
    if Accepted(o) {
      assert Filter(orders + [o], AcceptedOrder()) == f + [o];
      assert DropLast(Map(f + [o], ProductsOf)) == Map(f, ProductsOf);
    } else {
      assert Filter(orders + [o], AcceptedOrder()) == f;
    }
  }

  /**
   * The order loop of one store's sale collection, over the orders of every
   * page in turn. Each accepted order is counted; each of its product lines
   * becomes a sale under the line's classified SKU, the store's name as
   * origin and the next number; an accepted order without a product array
   * is counted and adds nothing.
   */
  method ObtenerVentas(orders: seq<TnOrder>, store: string) returns (r: VentasResult)
    ensures r.totalOrdenes == |Filter(orders, AcceptedOrder())|
    ensures |r.ventas| == |Lines(orders)|
    ensures forall k :: 0 <= k < |r.ventas| ==> r.ventas[k] == LineSale(Lines(orders)[k], k, store)
  {
    var ventas: seq<Sale> := [];
    var total: nat := 0;
    var i := 0;
    while i < |orders|
      invariant 0 <= i <= |orders|
      invariant ventas == SalesOf(Lines(orders[..i]), store)
      invariant total == |Filter(orders[..i], AcceptedOrder())|
    {
      var o := orders[i];
      PrefixSnoc(orders, i);
      LinesSnoc(orders[..i], o);
      var accept := AcceptOrder(o);
      if accept {
        total := total + 1;
        if o.products.Some? {
          var ps := o.products.value;
          var j := 0;
          while j < |ps|
            invariant 0 <= j <= |ps|
            invariant ventas == SalesOf(Lines(orders[..i]) + ps[..j], store)
          {
            assert ps[..j + 1] == ps[..j] + [ps[j]];
            SalesOfSnoc(Lines(orders[..i]) + ps[..j], ps[j], store);
            assert Lines(orders[..i]) + ps[..j + 1] == Lines(orders[..i]) + ps[..j] + [ps[j]];
            ventas := ventas + [LineSale(ps[j], |ventas|, store)];
            j := j + 1;
          }
          assert ps[..j] == ps;
        }
      }
      i := i + 1;
    }
    assert orders[..i] == orders;
    r := VentasResult(ventas, total);
  }

  /** A skipped order changes neither the sales nor the count. */
  lemma RejectedAddsNothing(orders: seq<TnOrder>, o: TnOrder)
    requires !Accepted(o)
    ensures Lines(orders + [o]) == Lines(orders)
    ensures |Filter(orders + [o], AcceptedOrder())| == |Filter(orders, AcceptedOrder())|
  {
    LinesSnoc(orders, o);
  }

  // ------------------------------------------------------------------ paging

  /** The parameter that marks the link to the next page. */
  const RelNext: string := "rel=\"next\""

  /** The target of one Link-header part, when it is the next-page link. */
  function LinkTarget(part: string): (r: Option<string>)
    ensures r.Some? ==> Contains(Trim(part), RelNext)
  {
    var t := Trim(part);
    if Contains(t, RelNext) then
      var start := IndexOf(t, '<');
      var end := IndexOf(t, '>');
      if start >= 0 && end > start then Some(t[start + 1..end]) else None
    else None
  }

  /** The target of the first part that has one. */
  function FirstLink(parts: seq<string>): (r: Option<string>)
    ensures r.None? <==> forall i :: 0 <= i < |parts| ==> LinkTarget(parts[i]).None?
  {
    if |parts| == 0 then None
    else if LinkTarget(parts[0]).Some? then LinkTarget(parts[0])
    else FirstLink(parts[1..])
  }

  /**
   * The next-page URL of a `Link` header (section 3 of RFC 8288): the
   * header is split at commas, and the first part that carries
   * `rel="next"` and a `<`...`>` pair gives the text between them. No
   * header, or no such part, means no next page.
   */
  function ParseLinkNext(header: Option<string>): (r: Option<string>)
    ensures header.None? ==> r.None?
  {
    if header.None? then None else FirstLink(Split(header.value, ','))
  }

  /** The next-page part the API writes: `<url>; rel="next"`. */
  function NextPart(url: string): string {
    "<" + url + ">; " + RelNext
  }

  /** The part starts and ends with characters trim keeps and carries the marker. */
  lemma NextPartShape(url: string)
    ensures Trim(NextPart(url)) == NextPart(url)
    ensures Contains(NextPart(url), RelNext)
  {
    var t := NextPart(url);
    assert t[0] == '<' && t[|t| - 1] == '"';
    TrimIdentity(t);
    assert t[|url| + 4..|url| + 4 + |RelNext|] == RelNext;
    ContainsAt(t, |url| + 4, RelNext);
  }

  /** The brackets of the part are the first '<' and the first '>'. */
  lemma NextPartBrackets(url: string)
    requires '<' !in url && '>' !in url
    ensures IndexOf(NextPart(url), '<') == 0
    ensures IndexOf(NextPart(url), '>') == |url| + 1
    ensures NextPart(url)[1..|url| + 1] == url
  {
    var t := NextPart(url);
    assert t == "<" + url + [ '>' ] + "; " + RelNext;
    IndexOfAfter("<" + url, '>', "; " + RelNext);
  }

  /** A `<url>; rel="next"` part yields its URL. */
  lemma NextPartTarget(url: string)
    requires '<' !in url && '>' !in url
    ensures LinkTarget(NextPart(url)) == Some(url)
  {
    NextPartShape(url);
    NextPartBrackets(url);
  }

  /**
   * Round trip: a header whose earlier parts are not next-page links and
   * which then carries `<url>; rel="next"` gives back `url`, whatever follows.
   */
  lemma {:induction false} LinkNextRoundTrip(before: seq<string>, url: string, after: seq<string>)
    requires forall i :: 0 <= i < |before| ==> ',' !in before[i] && LinkTarget(before[i]).None?
    requires forall i :: 0 <= i < |after| ==> ',' !in after[i]
    requires ',' !in url && '<' !in url && '>' !in url
    ensures ParseLinkNext(Some(Join(before + [NextPart(url)] + after, ','))) == Some(url)
  {
    var parts := before + [NextPart(url)] + after;
    forall i | 0 <= i < |parts|
      ensures ',' !in parts[i]
    {
      if i < |before| {
      } else if i == |before| {
        assert parts[i] == NextPart(url);
      } else {
        assert parts[i] == after[i - |before| - 1];
      }
    }
    SplitJoin(parts, ',');
    NextPartTarget(url);
    assert parts[|before|] == NextPart(url);
    FirstLinkAt(parts, |before|);
  }

  /** The first part with a target decides. */
  lemma {:induction false} FirstLinkAt(parts: seq<string>, k: nat)
    requires k < |parts| && LinkTarget(parts[k]).Some?
    requires forall j :: 0 <= j < k ==> LinkTarget(parts[j]).None?
    ensures FirstLink(parts) == LinkTarget(parts[k])
  {
    if k > 0 {
      FirstLinkAt(parts[1..], k - 1);
    }
  }

  // ---------------------------------------------------------- shipping name

  /**
   * The shipping method's name without its parenthesised detail: cut at the
   * first '(' and trim, but only when that '(' is not the first character.
   */
  function LimpiarNombreEnvio(name: string): (r: string)
    ensures IndexOf(name, '(') <= 0 ==> r == name
    ensures IndexOf(name, '(') > 0 ==> '(' !in r && r == Trim(name[..IndexOf(name, '(')])
  {
    var k := IndexOf(name, '(');
    if k > 0 then
      TrimWithout(name[..k], '(');
      Trim(name[..k])
    else name
  }

  /** Trimming removes characters and adds none. */
  lemma TrimWithout(s: string, c: char)
    requires c !in s
    ensures c !in Trim(s)
  {
    var a := TrimStart(s);
    assert a == s[|s| - |a|..];
    assert c !in a by {
      forall i | 0 <= i < |a| ensures a[i] != c {
        assert a[i] == s[|s| - |a| + i];
      }
    }
    var b := TrimEnd(a);
    assert b == a[..|b|];
    assert c !in b by {
      forall i | 0 <= i < |b| ensures b[i] != c {
        assert b[i] == a[i];
      }
    }
  }

  /** Cleaning a cleaned name changes nothing. */
  lemma LimpiarIdempotent(name: string)
    ensures LimpiarNombreEnvio(LimpiarNombreEnvio(name)) == LimpiarNombreEnvio(name)
  {
  }

  // --------------------------------------------------------------- addresses

  /** The street line before its final trim; each part is skipped when blank. */
  function Assemble(calle: string, numero: string, piso: string): string {
    (if !IsBlank(calle) then calle else "")
      + (if !IsBlank(numero) then " " + numero else "")
      + (if !IsBlank(piso) then " - " + piso else "")
  }

  /**
   * The street line of a shipping address: street, then " " and number,
   * then " - " and floor, each part trimmed and skipped when blank, the
   * whole trimmed again.
   */
  function BuildDomicilio(address: string, number: string, floor: string): (r: string)
    ensures r == ExpectedDomicilio(Trim(address), Trim(number), Trim(floor))
  {
    AssembleTrim(Trim(address), Trim(number), Trim(floor));
    Trim(Assemble(Trim(address), Trim(number), Trim(floor)))
  }

  /** Nothing to trim at either end: what `String.trim` returns. */
  predicate Trimmed(s: string) {
    |s| == 0 || (!IsTrimmable(s[0]) && !IsTrimmable(Last(s)))
  }

  /**
   * The street line by cases on which parts are present. A separator is
   * dropped only at the very start: with no street the number comes first,
   * and a floor alone reads "- floor".
   */
  function ExpectedDomicilio(calle: string, numero: string, piso: string): string {
    var tail := if !IsBlank(piso) then " - " + piso else "";
    if !IsBlank(calle) then calle + (if !IsBlank(numero) then " " + numero else "") + tail
    else if !IsBlank(numero) then numero + tail
    else if !IsBlank(piso) then "- " + piso
    else ""
  }

  /** Trimming drops the leading trimmable characters and keeps the rest when it ends well. */
  lemma {:induction false} TrimDropsLead(lead: string, s: string)
    requires forall i :: 0 <= i < |lead| ==> IsTrimmable(lead[i])
    requires |s| > 0 && !IsTrimmable(s[0]) && !IsTrimmable(Last(s))
    ensures Trim(lead + s) == s
  {
    if |lead| > 0 {
      assert (lead + s)[1..] == lead[1..] + s;
      TrimDropsLead(lead[1..], s);
    } else {
      assert lead + s == s;
      TrimIdentity(s);
    }
  }

  /** The last character of an optional separated part, or of what precedes it. */
  lemma EndsTrimmed(head: string, sep: string, part: string, present: bool)
    requires |head| > 0 && !IsTrimmable(Last(head))
    requires present ==> |part| > 0 && !IsTrimmable(Last(part))
    ensures var s := head + (if present then sep + part else "");
      |s| > 0 && s[0] == head[0] && !IsTrimmable(Last(s))
  {
  }

  /** With a street, nothing is trimmed. */
  lemma AssembleWithStreet(calle: string, numero: string, piso: string)
    requires Trimmed(calle) && Trimmed(numero) && Trimmed(piso) && !IsBlank(calle)
    ensures Trim(Assemble(calle, numero, piso)) == ExpectedDomicilio(calle, numero, piso)
  {
    var tail := if !IsBlank(piso) then " - " + piso else "";
    var h := calle + (if !IsBlank(numero) then " " + numero else "");
    EndsTrimmed(calle, " ", numero, !IsBlank(numero));
    EndsTrimmed(h, " - ", piso, !IsBlank(piso));
    TrimDropsLead("", h + tail);
  }

  /** Without a street but with a number, the leading space goes. */
  lemma AssembleWithNumber(calle: string, numero: string, piso: string)
    requires Trimmed(numero) && Trimmed(piso) && IsBlank(calle) && !IsBlank(numero)
    ensures Trim(Assemble(calle, numero, piso)) == ExpectedDomicilio(calle, numero, piso)
  {
    var tail := if !IsBlank(piso) then " - " + piso else "";
    EndsTrimmed(numero, " - ", piso, !IsBlank(piso));
    assert Assemble(calle, numero, piso) == " " + (numero + tail);
    TrimDropsLead(" ", numero + tail);
  }

  /** A floor alone loses the leading space of its separator. */
  lemma AssembleFloorOnly(calle: string, numero: string, piso: string)
    requires Trimmed(piso) && IsBlank(calle) && IsBlank(numero) && !IsBlank(piso)
    ensures Trim(Assemble(calle, numero, piso)) == ExpectedDomicilio(calle, numero, piso)
  {
    assert Assemble(calle, numero, piso) == " " + ("- " + piso);
    TrimDropsLead(" ", "- " + piso);
  }

  /** The final trim of the assembled line gives the expected line. */
  lemma AssembleTrim(calle: string, numero: string, piso: string)
    requires Trimmed(calle) && Trimmed(numero) && Trimmed(piso)
    ensures Trim(Assemble(calle, numero, piso)) == ExpectedDomicilio(calle, numero, piso)
  {
    if !IsBlank(calle) {
      AssembleWithStreet(calle, numero, piso);
    } else if !IsBlank(numero) {
      AssembleWithNumber(calle, numero, piso);
    } else if !IsBlank(piso) {
      AssembleFloorOnly(calle, numero, piso);
    } else {
      assert Assemble(calle, numero, piso) == "";
    }
  }

  /** No part present gives an empty line. */
  lemma DomicilioEmpty(address: string, number: string, floor: string)
    requires IsBlank(Trim(address)) && IsBlank(Trim(number)) && IsBlank(Trim(floor))
    ensures BuildDomicilio(address, number, floor) == ""
  {
  }

  /** All parts present give "street number - floor". */
  lemma DomicilioFull(address: string, number: string, floor: string)
    requires !IsBlank(Trim(address)) && !IsBlank(Trim(number)) && !IsBlank(Trim(floor))
    ensures BuildDomicilio(address, number, floor) == Trim(address) + " " + Trim(number) + " - " + Trim(floor)
  {
    ExpectedFull(Trim(address), Trim(number), Trim(floor));
  }

  lemma ExpectedFull(c: string, n: string, p: string)
    requires !IsBlank(c) && !IsBlank(n) && !IsBlank(p)
    ensures ExpectedDomicilio(c, n, p) == c + " " + n + " - " + p
  {
    assert ExpectedDomicilio(c, n, p) == c + (" " + n) + (" - " + p);
  }

  /**
   * The locality line: "locality, city" when both are present, else the
   * city when present, else the locality (both trimmed).
   */
  function BuildLocalidad(locality: string, city: string): (r: string)
    ensures IsBlank(r) <==> IsBlank(Trim(locality)) && IsBlank(Trim(city))
    ensures !IsBlank(Trim(locality)) ==> StartsWith(r, Trim(locality))
    ensures !IsBlank(Trim(city)) ==> |Trim(city)| <= |r| && r[|r| - |Trim(city)|..] == Trim(city)
    ensures !IsBlank(Trim(locality)) && !IsBlank(Trim(city)) ==> r == Trim(locality) + ", " + Trim(city)
    ensures IsBlank(Trim(city)) ==> r == Trim(locality)
    ensures IsBlank(Trim(locality)) && !IsBlank(Trim(city)) ==> r == Trim(city)
  {
    var l, c := Trim(locality), Trim(city);
    if !IsBlank(l) && !IsBlank(c) then
      NotBlankPrefix(l, ", " + c);
      assert (l + ", " + c)[..|l|] == l;
      l + ", " + c
    else if IsBlank(c) then l
    else c
  }

  /** A string that starts with something not blank is not blank. */
  lemma NotBlankPrefix(s: string, t: string)
    requires !IsBlank(s)
    ensures !IsBlank(s + t)
  {
    var i :| 0 <= i < |s| && !IsWhitespace(s[i]);
    assert (s + t)[i] == s[i];
  }

  // -------------------------------------------------------------- timestamps

  /** The characters `.` does not match in a Java regular expression. */
  predicate IsLineTerminator(c: char) {
    c == '\n' || c == '\r' || c == '\U{0085}' || c == '\U{2028}' || c == '\U{2029}'
  }

  /**
   * `s.matches(".*[+-]\\d{4}$")`: a line without terminators ending in a
   * sign and four ASCII digits, an offset written without its colon.
   */
  predicate OffsetWithoutColon(s: string) {
    |s| >= 5
    && (s[|s| - 5] == '+' || s[|s| - 5] == '-')
    && AllDigits(s[|s| - 4..])
    && forall i :: 0 <= i < |s| - 5 ==> !IsLineTerminator(s[i])
  }

  /** Inserts ':' before the last two characters when the offset lacks its colon. */
  function RepairOffset(s: string): (r: string)
    ensures OffsetWithoutColon(s) ==> |r| == |s| + 1 && r[|r| - 3] == ':'
    ensures !OffsetWithoutColon(s) ==> r == s
    ensures OffsetWithoutColon(s) ==> r[..|r| - 3] + r[|r| - 2..] == s
  {
    if OffsetWithoutColon(s) then
      var r := s[..|s| - 2] + ":" + s[|s| - 2..];
      assert r[..|r| - 3] == s[..|s| - 2] && r[|r| - 2..] == s[|s| - 2..];
      r
    else s
  }

  /**
   * The text handed to the date parser: nothing for a missing or blank
   * value, else the value with its offset repaired.
   */
  function ParseFechaISO(dateStr: Option<string>): (r: Option<string>)
    ensures r.None? <==> dateStr.None? || IsBlank(dateStr.value)
    ensures r.Some? ==> r.value == RepairOffset(dateStr.value)
  {
    if dateStr.None? || IsBlank(dateStr.value) then None else Some(RepairOffset(dateStr.value))
  }

  /** A repaired offset ("+hh:mm") is left alone: repairing is idempotent. */
  lemma RepairIdempotent(s: string)
    ensures RepairOffset(RepairOffset(s)) == RepairOffset(s)
  {
    var r := RepairOffset(s);
    if OffsetWithoutColon(s) {
      assert r[|r| - 3] == ':';
      assert r[|r| - 4..][1] == ':';
      assert !AllDigits(r[|r| - 4..]);
    }
  }

  /** An offset written with a colon ("-03:00") is passed on as it is. */
  lemma ColonOffsetUnchanged(s: string)
    requires |s| >= 3 && s[|s| - 3] == ':'
    ensures RepairOffset(s) == s
  {
    if |s| >= 5 {
      assert s[|s| - 4..][1] == ':';
    }
  }
}

=== FILE: wrappers.dfy ===
/** Option and Result, standing in for Java's null and for the pipeline's fatal exception. */
module Wrappers {

  /** A possibly-absent value: `None` plays the role of Java's `null`. */
  datatype Option<+T> = None | Some(value: T) {

    /** The value, or `default` when absent (Java's `x != null ? x : default`). */
    function GetOr(default: T): T {
      match this
      case Some(v) => v
      case None => default
    }
  }

  /** Either a value or an error. */
  datatype Result<+R, +E> = Success(value: R) | Failure(error: E)
}
